=== FILE: README.md ===
# tripmanager core in Dafny

This project models the request-handling core of tripmanager, a Next.js trip
planner that stores its data in MongoDB through Mongoose. The model is
functional. Each API route handler is a pure transition. It takes the session
user, the request body and the store, and returns a `Reply`: the HTTP status,
the message, the payload and the new store. The reply also records whether
its text is sent under the JSON key `message`, `error`, or no key at all.
A page reads only `data.message`.

The store (`Store.Store`) holds these collections as sequences in natural
(insertion) order, so `findOne` is the first match:
- users;
- pending one-time-code records (OTP);
- trips;
- itinerary items;
- chat messages;
- notifications.

`Store.Valid` is the store invariant. It holds the unique indexes (user ids,
user e-mails, OTP e-mails and trip ids) and says that every stored user and
OTP record passed schema validation. Every handler is proved to preserve it.

bcrypt is modelled by the key its key schedule reads (`Passwords.Key`). The
key is the password's UTF-8 bytes and a zero byte, repeated and cut to 72
bytes. `Passwords.Hash(p)` is a digest that `Passwords.Matches` accepts for
exactly the passwords with the same key as `p`. For ASCII passwords shorter
than 72 characters that means `p` alone (`Passwords.CompareHash`). Passwords
that share their first 72 UTF-8 bytes are interchangeable
(`Passwords.LongPasswordsCollide`). A request field is `Option<string>`, and
JavaScript falsiness is `None` or `""` (`UserModel.RequiredText`). A
Mongoose `maxlength` or `minlength` counts UTF-16 code units
(`Text.JsLength`).

The modules:
- **Schemas.**
  - `UserModel` and `EmailFormat`: the User schema. This includes the e-mail
    regular expression `^\w+([\.-]?\w+)*@\w+([\.-]?\w+)*(\.\w{2,3})+$`,
    written both as the regular expression and as a direct recogniser,
    with a proof that they agree.
  - `OtpModel`, `TripModel`, `ItineraryModel`: validation, defaults and
    enumerations.
- **Routes.** `SignupRoute`, `VerifyOtpRoute`, `ForgotPasswordRoute`,
  `ResetPasswordRoute`, `ChangePasswordRoute`, `DeleteAccountRoute` and
  `TripsRoute` model the route handlers.
- **Scripts.** `UriPort`, `FixDbEnv` and `FixDbEnvForce` model the two
  `.env.local` repair scripts.
  - The global `replace` is a left-to-right scan over a table of the
    matches at each position.
  - The proofs show four things. The scan matches where the regular
    expression matches. It changes the text exactly when something matches.
    It only ever deletes `:digits` runs. For a file with one or two
    matches, of either script's pattern, the runs it deletes are exactly the
    ports after the hosts.
- **Pages.**
  - `AdminPage`: the admin e-mail gate and the six-month chart.
  - `SignupPage`: the one-time-code input filter and the two-step submit
    handler.
  - `ForgotPasswordPage`: the send and reset handlers, the resend countdown
    and its label.
  - `PageReply`: how a page reads a reply. `res.ok` means a 2xx status, and
    `data.message || fallback` gives the text.

The sign-up route creates the account at once and never stores a one-time
code. Yet the sign-up page goes on to a second step that posts a code to the
verify route. `SignupPage.SignupThenVerifyFails` proves that this second step
always ends on the "OTP expired or not found" message.

The admin gate compares `toLowerCase()` of the e-mail with
`admin@globetrotter.com`. The model lower-cases ASCII letters only
(`Text.AsciiLower`). For this target the two agree. No character outside
ASCII lower-cases to an ASCII letter, `@` or `.`, except U+212A KELVIN SIGN,
which becomes `k`, and U+0130, which becomes `i` followed by a combining dot.
Neither `k` nor a dotted `i` occurs in the target.

## Model

| member | source | states |
|---|---|---|
| `Passwords.CompareHash` | app/api/user/change-password/route.js:28-38 | for ASCII passwords without a zero character and shorter than 72 characters, `compare` accepts a password against a hash exactly when it is the password that was hashed |
| `Passwords.LongPasswordsCollide` | app/api/user/change-password/route.js:28-38 | two passwords that share their first 72 UTF-8 bytes each match the other's hash |
| `UserModel.CreateUser` | models/User.js:3-39 | a user document validates exactly when the name is present and at most 60 code units long, the e-mail is present and matches the format, and a password is given. Any failure names at least one path. The defaults are language `en`, currency `USD`, no image, no saved trips and no reset token |
| `UserModel.LongNameRejected` | models/User.js:4-8 | a name over 60 code units is rejected on the `name` path |
| `UserModel.CreateUserEmailFormat` | models/User.js:9-16 | the `email` path fails exactly when the e-mail is empty or does not match the regular expression |
| `EmailFormat.EmailIffRegex` | models/User.js:14 | the recogniser accepts exactly the strings the regular expression matches, in both directions |
| `EmailFormat.EmailParts` | models/User.js:14 | an accepted address is `local@host.tld`, where local and host are word runs joined by single `.` or `-` and tld has two or three word characters |
| `EmailFormat.OneAt` | models/User.js:14 | a matching address contains exactly one `@` |
| `EmailFormat.EndsWithTld` | models/User.js:14 | a matching address ends with `.` followed by two or three word characters |
| `EmailFormat.Alphabet` | models/User.js:14 | a matching address uses only word characters, `.`, `-` and `@`, and every `.` or `-` stands between two word characters |
| `OtpModel.CreateOtp` | models/OTP.js:3-22 | a record validates exactly when the e-mail and code are present, and each missing one is named. The pending payload is stored as given, with no e-mail. `createdAt` defaults to the creation time |
| `OtpModel.SweepExpired` | models/OTP.js:17-21 | one pass of the TTL monitor at `now` keeps exactly the records whose `createdAt` + 300 s has not passed |
| `TripModel.ParseVisibility` | models/Trip.js:31-35 | only `private`, `public` and `shared` are accepted as a visibility |
| `TripModel.VisibilityRoundTrip` | models/Trip.js:31-35 | the stored name of a visibility parses back to it, and only that name does |
| `TripModel.CreateTrip` | models/Trip.js:3-52 | a trip validates exactly when it has an owner, a title that is non-empty and at most 100 code units after trimming, a description of at most 500, and two castable dates. The stored title is trimmed. The defaults are an empty cover, private visibility, no collaborators, a budget of 0 and no destinations. The budget is a JS Number, so fractions are kept |
| `TripModel.DatesUnordered` | models/Trip.js:19-26 | a trip that ends before it starts is accepted |
| `ItineraryModel.ParseType` | models/ItineraryItem.js:13-17 | only the five item types are accepted |
| `ItineraryModel.ParseStatus` | models/ItineraryItem.js:41-45 | only `planned`, `booked` and `done` are accepted |
| `ItineraryModel.EnumRoundTrips` | models/ItineraryItem.js:13-45 | each enumeration name parses back to its value, and only that name does |
| `ItineraryModel.CreateItem` | models/ItineraryItem.js:3-48 | an item validates exactly when the trip id, day and title are present and the type and status are valid names. The type defaults to activity, cost to 0, currency to USD and status to planned. Day and cost are JS Numbers, so fractions are kept |
| `ItineraryModel.NoRangeChecks` | models/ItineraryItem.js:9-36 | a negative day and a negative, fractional cost are accepted |
| `Store.FindFirst` | app/api/auth/signup/route.js:20 | `findOne` in natural order: the first position the test accepts, and none exactly when no element passes |
| `Store.ReplaceKeepsFirst` | app/api/user/change-password/route.js:37-39 | replacing a document by one the query answers the same for leaves `findOne`'s answer unchanged |
| `Store.FindUserByEmail` | app/api/auth/signup/route.js:20 | the lookup finds the first user with the e-mail, and finds none exactly when no user has it |
| `Store.FindUserById` | app/api/user/change-password/route.js:22 | the lookup finds the first user with the id, and finds none exactly when no user has it |
| `Store.FindOtp` | app/api/auth/verify-otp/route.js:19 | the lookup finds the first OTP record for the e-mail, and finds none exactly when there is none |
| `Store.RemoveOtpGone` | app/api/auth/verify-otp/route.js:52 | with unique OTP e-mails, deleting a record leaves no record for its e-mail and keeps the indexes |
| `SignupRoute.Signup` | app/api/auth/signup/route.js:6-50 | a missing field gives 400 and an e-mail already used gives 422, checked in that order. A schema failure gives 500. Every error leaves the store unchanged. Success gives 201 with the new id and appends exactly one user. Its password matches exactly the passwords whose bcrypt key equals the submitted one's. No OTP record is written |
| `SignupRoute.SignupAccepted` | app/api/auth/signup/route.js:10-37 | sign-up succeeds exactly when the fields are present, no user has the e-mail and the document validates |
| `SignupRoute.SecondSignupRejected` | app/api/auth/signup/route.js:20-42 | after a successful sign-up, signing up again with the same e-mail gets 422 |
| `SignupRoute.SignupPreservesValid` | app/api/auth/signup/route.js:29-37 | sign-up keeps the store invariant, given a fresh document id |
| `VerifyOtpRoute.VerifyOtp` | app/api/auth/verify-otp/route.js:8-63 | missing fields give 400, no record for the e-mail gives 400 "OTP expired or not found", and a wrong code gives 400 "Invalid OTP". Errors leave the store unchanged. Success gives 201 with the new id, appends one user built from the stored name and hash and the request e-mail, and deletes the record |
| `VerifyOtpRoute.CreationFailureKeepsRecord` | app/api/auth/verify-otp/route.js:30-62 | with the right code, the result is 500 exactly when the pending account fails validation or the e-mail is taken, and then the record is still there |
| `VerifyOtpRoute.VerifyIsOneShot` | app/api/auth/verify-otp/route.js:19-57 | repeating a successful verification gets 400 "OTP expired or not found" and changes nothing |
| `VerifyOtpRoute.RetryAfterWrongCode` | app/api/auth/verify-otp/route.js:25-27 | after a wrong code, a retry with the stored code gets past the code check |
| `VerifyOtpRoute.ExpiredRecordNotFound` | models/OTP.js:17-21 | once the TTL pass has removed the e-mail's records, verification gets "OTP expired or not found" |
| `VerifyOtpRoute.VerifyPreservesValid` | app/api/auth/verify-otp/route.js:30-52 | verification keeps the store invariant, given a fresh document id |
| `ForgotPasswordRoute.ResetCode` | app/api/auth/forgot-password/route.js:28 | for a random number in [0, 1) the code is an integer in [100000, 999999] |
| `ForgotPasswordRoute.ResetCodeText` | app/api/auth/forgot-password/route.js:28 | the code's text is exactly six decimal digits that read back as the code |
| `ForgotPasswordRoute.ForgotPassword` | app/api/auth/forgot-password/route.js:5-94 | a missing e-mail gives 400. An unknown e-mail gives 200 with the generic message and no change. A known e-mail gives 200 "Code sent successfully" and changes only that user's token (six digits) and expiry (now + 600000 ms) |
| `ForgotPasswordRoute.IssuedCode` | app/api/auth/forgot-password/route.js:28-31 | the stored token is the decimal text of the drawn code |
| `ForgotPasswordRoute.ReissueOverwrites` | app/api/auth/forgot-password/route.js:31-34 | a second request replaces the token and expiry of the first |
| `ForgotPasswordRoute.StatusHidesAccount` | app/api/auth/forgot-password/route.js:15-88 | the status does not depend on whether the account exists |
| `ForgotPasswordRoute.MessageRevealsAccount` | app/api/auth/forgot-password/route.js:17-88 | the message is "Code sent successfully" exactly when some user has the e-mail |
| `ForgotPasswordRoute.ForgotPreservesValid` | app/api/auth/forgot-password/route.js:31-34 | issuing a code keeps the store invariant |
| `ResetPasswordRoute.ResetPassword` | app/api/auth/reset-password/route.js:6-50 | missing fields give 400 "Invalid Request". An unknown e-mail or a token other than the code gives 400 "Invalid code" and no change. Success gives 200 and changes only that user. The hash then matches exactly the passwords whose bcrypt key equals the new password's, and the token and expiry are cleared |
| `ResetPasswordRoute.ResetIsOneShot` | app/api/auth/reset-password/route.js:25-40 | after a successful reset, the same e-mail and code are refused |
| `ResetPasswordRoute.ExpiryIgnored` | app/api/auth/reset-password/route.js:25-33 | the outcome does not depend on the stored expiry |
| `ResetPasswordRoute.ShortPasswordAccepted` | app/api/auth/reset-password/route.js:10-37 | a one-character new password is accepted |
| `ResetPasswordRoute.IssuedCodeResets` | app/api/auth/reset-password/route.js:25-44 | the code a forgot-password request issues resets that account's password |
| `ResetPasswordRoute.ResetPreservesValid` | app/api/auth/reset-password/route.js:36-42 | a reset keeps the store invariant |
| `ChangePasswordRoute.ChangePassword` | app/api/user/change-password/route.js:8-47 | the guards run in this order: no session gives 401, missing fields give 400, an unknown user gives 404, a wrong current password gives 400, and a new password under 6 code units gives 400. Errors leave the store unchanged. Success changes only that user's password. Afterwards a password matches exactly when its bcrypt key equals the new password's |
| `ChangePasswordRoute.ChangeTakesEffect` | app/api/user/change-password/route.js:28-41 | after a change the new password is accepted. The old one is refused whenever its bcrypt key differs from the new one's |
| `ChangePasswordRoute.ShortChangeTakesEffect` | app/api/user/change-password/route.js:28-41 | for different ASCII passwords shorter than 72 characters, the old password is refused after the change |
| `ChangePasswordRoute.ChangePreservesValid` | app/api/user/change-password/route.js:37-39 | a change keeps the store invariant |
| `DeleteAccountRoute.TripsNotOwnedBy` | app/api/auth/delete/route.js:23 | exactly the trips of other owners remain |
| `DeleteAccountRoute.PullMember` | app/api/auth/delete/route.js:27-30 | exactly the collaborator entries that are not `{userId}` entries of the user remain |
| `DeleteAccountRoute.PullFromTrips` | app/api/auth/delete/route.js:27-30 | each trip keeps its place and changes only its collaborator list |
| `DeleteAccountRoute.UsersOtherThan` | app/api/auth/delete/route.js:33 | exactly the other users remain |
| `DeleteAccountRoute.NotificationsOtherThan` | app/api/auth/delete/route.js:36 | exactly the other users' notifications remain |
| `DeleteAccountRoute.DeleteAccount` | app/api/auth/delete/route.js:9-44 | no session gives 401 under the `error` key, with no change. Otherwise the user, their trips, their `{userId}` collaborator entries and their notifications are gone. The remaining trips are exactly the other owners' trips, each with the user's `{userId}` entries pulled. OTP records, itinerary items and messages are untouched |
| `DeleteAccountRoute.OtherTripsSurvive` | app/api/auth/delete/route.js:23-30 | every trip of another owner survives. Only its collaborator list changes, which loses exactly the user's `{userId}` entries |
| `DeleteAccountRoute.LegacyReferencesRemain` | app/api/auth/delete/route.js:27-30 | a bare-id collaborator entry of the user is not pulled |
| `DeleteAccountRoute.PullMemberIdempotent` | app/api/auth/delete/route.js:27-30 | pulling twice is pulling once |
| `DeleteAccountRoute.DeleteIdempotent` | app/api/auth/delete/route.js:23-36 | deleting twice with the same session gives the same reply and store as deleting once |
| `DeleteAccountRoute.DeletePreservesValid` | app/api/auth/delete/route.js:19-36 | deletion keeps the store invariant |
| `TripsRoute.TripsOwnedBy` | app/api/trips/route.js:17 | exactly the trips whose owner is the user are selected |
| `TripsRoute.SortByStart` | app/api/trips/route.js:18 | the result is sorted by start date and is a permutation of the input |
| `TripsRoute.ListTrips` | app/api/trips/route.js:7-25 | no session gives 401. Otherwise 200 with a list sorted by start date holding exactly the user's own trips, and no message. The store is unchanged |
| `TripsRoute.ListIsPermutation` | app/api/trips/route.js:17-18 | the list holds each owned trip as often as the store does |
| `TripsRoute.CollaborationsNotListed` | app/api/trips/route.js:17 | a trip the user only collaborates on is not listed |
| `TripsRoute.PostTrip` | app/api/trips/route.js:27-58 | no session gives 401, a missing title or date gives 400, and a schema failure gives 500, all with no change. Success gives 201 and appends exactly one trip, owned by the session user, with the placeholder cover, the trimmed title, the two cast dates in their places and the defaults |
| `TripsRoute.EndBeforeStartAccepted` | app/api/trips/route.js:38-53 | a trip ending before it starts is created |
| `TripsRoute.CreatedTripListed` | app/api/trips/route.js:44-53 | a created trip is then listed for its owner |
| `TripsRoute.PostPreservesValid` | app/api/trips/route.js:44-51 | creating a trip keeps the store invariant, given a fresh trip id |
| `UriPort.PortShapeUnique` | fix_db_env.js:13 | after an `@` the port, if any, is determined: the first `:` after the host and the digits after it |
| `UriPort.PortAfterComplete` | fix_db_env.js:13 | the computed tail finds every port the regular expression's tail admits |
| `UriPort.SrvMatchIff` | fix_db_env.js:13 | the `mongodb+srv://` scan matches at a position exactly when the regular expression does |
| `UriPort.AtMatchIff` | fix_db_env_force.js:16 | the `@host:port` scan matches at a position exactly when the regular expression does |
| `UriPort.MatchAtIff` | fix_db_env.js:13 | for both patterns, the scan matches exactly where the regular expression does |
| `UriPort.Rewrite` | fix_db_env.js:12-18 | the global replacement leaves the text unchanged exactly when the pattern matches nowhere. Otherwise it never lengthens the text, the result is a subsequence of it, and it keeps every character other than `:` and digits, in order |
| `UriPort.ReplaceLength` | fix_db_env.js:12-18 | the replacement never lengthens the text, and a match shortens it |
| `FixDbEnv.FixDbEnv` | fix_db_env.js:6-29 | an unreadable file writes nothing. Otherwise the file is written exactly when some `mongodb+srv://` URI has a port, and what is written is the global replacement of the file's text. The written text differs from the old one, deletes only `:digits` runs and keeps the lines |
| `FixDbEnv.NoSchemeNoWrite` | fix_db_env.js:12-25 | a file without `mongodb+srv://` is never written |
| `FixDbEnv.SrvPortRemoved` | fix_db_env.js:12-25 | for a file holding one such URI, the file is written back with exactly the `:port` after the host cut out. A port-like run in the credentials stays |
| `FixDbEnv.TwoSrvPortsRemoved` | fix_db_env.js:12-18 | with two such URIs, the `g` flag cuts each URI's own port and nothing else |
| `FixDbEnvForce.FirstPortBefore` | fix_db_env_force.js:30-31 | the leftmost `:digits` followed by the path is found, or there is none |
| `FixDbEnvForce.ReplaceFirstPort` | fix_db_env_force.js:30-31 | a non-global replace changes the line exactly when `:digits` before the path occurs, and then deletes only the leftmost such run |
| `FixDbEnvForce.FixLine` | fix_db_env_force.js:27-34 | a line not starting with `MONGODB_URI=` is unchanged. Any line only loses `:` and digits |
| `FixDbEnvForce.FixLines` | fix_db_env_force.js:26-34 | the fallback keeps the number of lines and fixes each line on its own |
| `FixDbEnvForce.ForceFix` | fix_db_env_force.js:6-46 | when the `@host:port` rewrite changes something, that rewrite is what gets written. Whatever is written differs from the file, only deletes `:` and digits, and keeps the number of lines |
| `FixDbEnvForce.FallbackKeepsOtherLines` | fix_db_env_force.js:18-41 | when the fallback writes, it keeps the number of lines and every line not starting with `MONGODB_URI=` |
| `FixDbEnvForce.NoAtNoRewrite` | fix_db_env_force.js:16 | text without `@` is not changed by the regular expression |
| `FixDbEnvForce.AtPortRemoved` | fix_db_env_force.js:16-21 | when the only match is at one `@`, the file is written back with exactly the `:port` after that host cut out. A `:digits` run before the `@` stays |
| `FixDbEnvForce.OneAtPortRemoved` | fix_db_env_force.js:16-21 | a file with a single `@`, followed by a host and `:port`, loses exactly that port |
| `FixDbEnvForce.PasswordDigitsKept` | fix_db_env_force.js:16-21 | `mongodb+srv://u:123@h:27017/` is written back as `mongodb+srv://u:123@h/` |
| `FixDbEnvForce.TwoAtPortsRemoved` | fix_db_env_force.js:16 | with two matches, the `g` flag cuts each match's own port and nothing else |
| `FixDbEnvForce.OneLineFallback` | fix_db_env_force.js:18-41 | for one line without `@`, the fallback's line fix decides the write |
| `FixDbEnvForce.LocalPortCut` | fix_db_env_force.js:30 | in `MONGODB_URI=mongodb://host:port/globetrotter` the port is the run removed |
| `FixDbEnvForce.NoQueryNoCut` | fix_db_env_force.js:31 | the `/?` replacement changes nothing in a line without `?` |
| `FixDbEnvForce.FallbackStripsLocalPort` | fix_db_env_force.js:16-41 | the file `MONGODB_URI=mongodb://host:port/globetrotter` is rewritten by the fallback to `MONGODB_URI=mongodb://host/globetrotter` |
| `AdminPage.Gate` | app/admin/page.js:19-24 | the page waits while the session loads, and fetches statistics exactly when the signed-in e-mail lower-cases to `admin@globetrotter.com`. Otherwise it redirects to `/dashboard` |
| `AdminPage.GateIgnoresCase` | app/admin/page.js:20 | `Admin@GlobeTrotter.COM` is admitted |
| `AdminPage.GateRefusesOthers` | app/admin/page.js:20-23 | an address that does not lower-case to the admin address, or a session without an e-mail, is redirected |
| `AdminPage.MonthBack` | app/admin/page.js:40-42 | the month `back` months before the current one has its number in 1 to 12, and its position counted in months is the current one minus `back` (year rollover; two-digit years read as 19xx) |
| `AdminPage.CountFor` | app/admin/page.js:45-46 | a bucket's count is that of the first entry with the same month and year, or 0 when there is none or the list is missing |
| `AdminPage.ProcessChart` | app/admin/page.js:34-54 | the chart has six buckets, and bucket k is the month 5 − k back, with its short name and both counts |
| `AdminPage.ChartChronological` | app/admin/page.js:39-42 | consecutive buckets are consecutive months, and the last is the current month |
| `AdminPage.JanuaryRollsBack` | app/admin/page.js:40-42 | in January the chart starts in August of the previous year, and the month before is December of that year |
| `PageReply.Answer` | app/signup/page.js:26-32 | a page's reading of a reply is ok exactly when the status is 2xx. It carries the reply's text exactly when the text is sent under `message` |
| `PageReply.MessageOr` | app/forgot-password/page.js:48 | `data.message \|\| fallback` is the message when non-empty, else the fallback, and is non-empty whenever the fallback is |
| `SignupPage.DigitsOf` | app/signup/page.js:159 | removing non-digits leaves only digits, and leaves a digit string unchanged |
| `SignupPage.SanitizeCode` | app/signup/page.js:159 | the filtered code holds only digits, has length min(number of digits, 6) and is the first digits of the typed text, in order |
| `SignupPage.SanitizeIdempotent` | app/signup/page.js:159 | filtering a filtered value changes nothing |
| `SignupPage.SeparatorIgnored` | app/signup/page.js:159 | a non-digit typed anywhere is dropped |
| `SignupPage.LongCodeCut` | app/signup/page.js:159 | of more than six digits only the first six are kept |
| `SignupPage.RequestFor` | app/signup/page.js:24-42 | step 1 posts the form to sign-up, and step 2 posts the e-mail and code to verify |
| `SignupPage.AfterSubmit` | app/signup/page.js:18-54 | loading ends. On step 1 the page moves to step 2 exactly when the reply is ok, and otherwise shows the message or "Something went wrong". On step 2 it navigates to `/login?registered=true` exactly when the reply is ok, and otherwise shows the message or "Invalid OTP" |
| `SignupPage.SignupThenVerifyFails` | app/signup/page.js:24-47 | after a successful sign-up the page reaches step 2, the verify route answers 400 "OTP expired or not found", and the page stays on step 2 showing it |
| `ForgotPasswordPage.SendResult` | app/forgot-password/page.js:32-52 | an ok reply moves to step 2 with the timer at 120 and the sent note. Otherwise the status is error, with the reply's message or "Something went wrong", or with "Failed to send request" when the request throws |
| `ForgotPasswordPage.SendCode` | app/forgot-password/page.js:27-56 | as written, the `finally` resets the status to idle whenever the render that created the handler was not in error, whatever this reply was |
| `ForgotPasswordPage.SendCodeIntended` | app/forgot-password/page.js:53-54 | the `finally` as its comment means it: the status is error exactly when this request failed, and idle otherwise |
| `ForgotPasswordPage.SendFailureHidden` | app/forgot-password/page.js:225-234 | as written, a failed send on step 1 from idle leaves a message that neither box shows |
| `ForgotPasswordPage.ResendFailureShownAsNote` | app/forgot-password/page.js:230-234 | as written, a failed resend on step 2 shows its error in the green success box |
| `ForgotPasswordPage.IntendedSendReportsFailure` | app/forgot-password/page.js:225-234 | with the intended `finally`, every failure is shown in the error box, and a success shows the sent note |
| `ForgotPasswordPage.SendCodeAgrees` | app/forgot-password/page.js:53-54 | the two handlers agree after a success from a non-error render, and after a failure from an error render |
| `ForgotPasswordPage.ResetRequest` | app/forgot-password/page.js:61-74 | differing passwords send no request. Otherwise the e-mail, code and password are sent |
| `ForgotPasswordPage.ResetPassword` | app/forgot-password/page.js:58-88 | a mismatch gives an error "Passwords don't match". An ok reply gives complete and schedules `/login` after 3000 ms. A refusal gives an error with the message or "Invalid code", and a throw gives "Failed to reset password" |
| `ForgotPasswordPage.ResetFollowsRoute` | app/forgot-password/page.js:69-83 | against the reset route, the page completes exactly when the route accepts the code, and otherwise shows "Invalid code" in the error box |
| `ForgotPasswordPage.Tick` | app/forgot-password/page.js:19-25 | a positive timer counts down by one, and a timer at zero stays |
| `ForgotPasswordPage.ElapseCountsDown` | app/forgot-password/page.js:19-25 | after k seconds the timer has dropped by k, stopping at 0 |
| `ForgotPasswordPage.ResendLockedTwoMinutes` | app/forgot-password/page.js:210 | after a successful send, resend is disabled for exactly the first 120 seconds, in the handler as written and as corrected |
| `ForgotPasswordPage.ResendLabel` | app/forgot-password/page.js:219 | the label is "Resend Code" when the timer is not positive, and otherwise "Resend Code in " followed by the countdown |
| `ForgotPasswordPage.SecondsTwoDigits` | app/forgot-password/page.js:219 | the seconds part is always two digits and reads back as t mod 60 |
| `ForgotPasswordPage.CountdownReadBack` | app/forgot-password/page.js:219 | the countdown splits at `:` into two digit strings, the second of length 2, and minutes × 60 + seconds gives back t |
| `ForgotPasswordPage.FullTimerLabel` | app/forgot-password/page.js:219 | a full timer reads "Resend Code in 2:00" |

## Left out

- The e-mail sends (the welcome mail in verify-otp and nodemailer in forgot-password) are not modelled. A send cannot change the reply: lib/email.js catches its own errors, and forgot-password catches nodemailer's.
- Pusher is not modelled.
- NextAuth session resolution is not modelled. The session is an `Option<UserId>` parameter.
- The database connection is not modelled.
- bcrypt salts, cost factors, timing and the digest text are not modelled. Two different keys are taken to give different digests, so a Blowfish collision is not modelled.
- Passwords.CompareHash: exactness is proved only for ASCII passwords without a zero character and shorter than 72 characters. Other passwords are accepted exactly when their keys agree, and the model does not go further. One example: a password holding a zero character can share a key with a shorter password.
- ChangePasswordRoute.ChangeTakesEffect: the old password is refused only when its bcrypt key differs from the new one's. Two passwords that share their first 72 UTF-8 bytes cannot be told apart by bcrypt, so the stronger promise does not hold.
- SignupRoute.Signup: the stored hash is promised to match the passwords that share the submitted password's bcrypt key, not the submitted password alone, because bcrypt reads only 72 bytes.
- ResetPasswordRoute.ResetPassword: the stored hash is promised to match the passwords that share the new password's bcrypt key, for the same reason.
- ChangePasswordRoute.ChangePassword: the stored hash is promised to match the passwords that share the new password's bcrypt key, for the same reason.
- The `createdAt` and `updatedAt` fields that `timestamps: true` adds to users, trips and itinerary items are not modelled. The "only these fields change" promises of the forgot, reset and change routes leave out the `updatedAt` bump of `save()`.
- The Number fields (item day, cost, latitude and longitude, trip budget) are `real`. A `real` stands for a finite JS Number; 64-bit floating-point rounding and NaN are not modelled.
- Console logging is left out.
- DeleteAccountRoute.DeleteAccount: the 500 `{ error }` reply of a failing database call is not modelled, since the database never throws in this model.
- File reading and writing in the two scripts are parameters. The file is an `Option<string>` that is `None` when reading throws, and the result is the text written, if any.
- Clocks and randomness are parameters: `now` is in milliseconds, and `Math.random()` is a `real` in [0, 1). Floating-point rounding of `100000 + random * 900000` is not modelled.
- `setInterval`, `setTimeout` and the real time of the TTL monitor are not modelled. The timer is a count of ticks, the redirect is returned as a path with its delay, and the TTL pass is a function of `now`.
- The intermediate `loading` status inside the page handlers is not modelled. Each handler is modelled by the page it leaves behind.
- Concurrent requests and read-modify-write races are left out.
- Only the failing paths of a Mongoose validation error are modelled (a non-empty set). The error's message text is reduced to a fixed prefix.
- Validation when a modified user is saved again (`user.save()` in the forgot-password, reset-password and change-password routes) is not repeated. Mongoose's `save()` validates every path of the loaded document, not only the modified ones, so the model assumes `Store.Valid`: every stored user already passed the schema, and the fields changed there cannot fail. On a store holding a user that fails the schema, the source's `save()` throws and the route answers 500 where the model answers 200. The `*PreservesValid` lemmas show that the modelled routes never produce such a store.
- The `minlength: 6` of the User schema applies to the stored bcrypt hash, which is always 60 characters long. It is left out.
- A request field that is a JSON number, boolean or object is not modelled. Fields are strings or absent.
- A date field is given as its JSON text plus the result of the Date cast. Date parsing and time zones are left out.
- Mongo's sort is modelled as a stable insertion sort. The order of trips with equal start dates is not specified by MongoDB.
- The admin statistics route and its aggregation (app/api/admin/stats/route.js) are not part of this model. The page takes its reply's `graphData` as a parameter.
- On a non-ok statistics reply the admin chart stays as it was. `AdminPage.ProcessChart` covers only the ok path.
- The current date of the admin page is a parameter (year and zero-based month).
- `toLowerCase` is modelled on ASCII letters only, which is exact for the target address (see above).
- Trip authorisation, invitations, member removal, itinerary mutation and chat handlers are not part of this model.
- models/Message.js is reduced to the fields that locate a message, since no modelled code reads it.
- Notification.js is not part of this model. A notification is its id and owner.
- The trip schema declares `collaborators` as bare ids, while the delete route pulls `{ userId }` entries. Both shapes are modelled (`LegacyRef` and `Member`).
- UriPort.Rewrite: the `g` flag is modelled by the scan resuming after each match. The exact output is proved for files with one or two matches of either pattern (`FixDbEnv.SrvPortRemoved`, `FixDbEnv.TwoSrvPortsRemoved`, `FixDbEnvForce.AtPortRemoved`, `FixDbEnvForce.TwoAtPortsRemoved`). For more matches only the general clauses of `Rewrite` hold, since each further match needs the same two steps again.

## Findings

| source | as written | input that shows it | evidently intended | confidence | as-written member | corrected member |
|---|---|---|---|---|---|---|
| app/forgot-password/page.js:53-54 | the `finally` tests `status` as captured when the handler was created, so after any failure it resets the status to `idle` unless the previous render was already in error | step 1, status `idle`, and the request throws: the message "Failed to send request" is set but the status ends `idle`, so the error box (which needs `error`) and the green box (which needs step 2) both stay hidden. On step 2 the same failure shows in the green success box | keep `error` when this attempt failed, as the comment "Reset unless error" says | not executed | `ForgotPasswordPage.SendCode`, shown by `ForgotPasswordPage.SendFailureHidden` and `ForgotPasswordPage.ResendFailureShownAsNote` | `ForgotPasswordPage.SendCodeIntended`, proved by `ForgotPasswordPage.IntendedSendReportsFailure` |

=== FILE: admin_page.dfy ===
/**
 * The admin dashboard page (app/admin/page.js): who may load the statistics,
 * and how the six-month growth chart is laid out from the statistics reply.
 * The current date is a parameter (its year and its zero-based month).
 */
module AdminPage {
  import opened Wrappers
  import opened Text

  // ---------------------------------------------------------------------------
  // The e-mail gate
  // ---------------------------------------------------------------------------

  const AdminEmail := "admin@globetrotter.com"
  const DashboardPath := "/dashboard"

  /** `useSession()`'s status, with the signed-in user's e-mail when there is one. */
  datatype SessionStatus = Loading | Unauthenticated | Authenticated(email: Option<string>)

  /** What the page's effect does: nothing yet, send the visitor away, or fetch the statistics. */
  datatype GateAction = Wait | Redirect(path: string) | FetchStats

  function Gate(status: SessionStatus): (a: GateAction)
    ensures a == Wait <==> status.Loading?
    ensures a == FetchStats <==>
              status.Authenticated? && status.email.Some? && AsciiLower(status.email.value) == AdminEmail
    ensures a.Redirect? ==> a.path == DashboardPath
  {
    match status
    case Loading => Wait
    case Unauthenticated => Redirect(DashboardPath)
    case Authenticated(email) =>
      if email.Some? && AsciiLower(email.value) == AdminEmail then FetchStats else Redirect(DashboardPath)
  }

  /** The comparison ignores case. */
  lemma GateIgnoresCase()
    ensures Gate(Authenticated(Some("Admin@GlobeTrotter.COM"))) == FetchStats
  {
    assert AsciiLower("Admin@GlobeTrotter.COM") == AdminEmail;
  }

  /** Any address that does not lower-case to the admin's, and a session without an e-mail, are sent to the dashboard. */
  lemma GateRefusesOthers(email: string)
    requires AsciiLower(email) != AdminEmail
    ensures Gate(Authenticated(Some(email))) == Redirect(DashboardPath)
    ensures Gate(Authenticated(None)) == Redirect(DashboardPath)
  {
  }

  // ---------------------------------------------------------------------------
  // Six-month chart
  // ---------------------------------------------------------------------------

  const MonthNames := ["Jan", "Feb", "Mar", "Apr", "May", "Jun", "Jul", "Aug", "Sep", "Oct", "Nov", "Dec"]

  /** `new Date(y, m, 1)` reads a year argument of 0 to 99 as 1900 to 1999. */
  function FullYear(y: int): int {
    if 0 <= y <= 99 then 1900 + y else y
  }

  /** A calendar month; `month` is 1 to 12, as the statistics reply keys it. */
  datatype MonthKey = MonthKey(year: int, month: int)

  /** Months since the start of year 0: consecutive months differ by one. */
  function Serial(k: MonthKey): int {
    k.year * 12 + k.month - 1
  }

  /** The month of `new Date(year, month - back, 1)`: the month overflow moves into the year. */
  function MonthBack(year: int, month: int, back: nat): (k: MonthKey)
    requires 0 <= month < 12
    ensures 1 <= k.month <= 12
    ensures Serial(k) == FullYear(year) * 12 + month - back
  {
    MonthKey(FullYear(year) + (month - back) / 12, (month - back) % 12 + 1)
  }

  /** One row of the aggregation reply: `{ _id: { month, year }, count }`. */
  datatype Entry = Entry(month: int, year: int, count: nat)

  /** `graphData` of the statistics reply; either list may be missing. */
  datatype GraphData = GraphData(trips: Option<seq<Entry>>, users: Option<seq<Entry>>)

  datatype Bucket = Bucket(name: string, users: nat, trips: nat)

  predicate EntryFor(e: Entry, k: MonthKey) {
    e.month == k.month && e.year == k.year
  }

  /** `list?.find(item => same month and year)?.count || 0`. */
  function CountFor(list: Option<seq<Entry>>, k: MonthKey): (n: nat)
    ensures list.None? ==> n == 0
    ensures list.Some? && (forall i :: 0 <= i < |list.value| ==> !EntryFor(list.value[i], k)) ==> n == 0
    ensures list.Some? ==> forall i :: 0 <= i < |list.value| && EntryFor(list.value[i], k)
                                       && (forall j :: 0 <= j < i ==> !EntryFor(list.value[j], k)) ==>
                                         n == list.value[i].count
  {
    match list
    case None => 0
    case Some(es) => FirstCount(es, k)
  }

  function FirstCount(es: seq<Entry>, k: MonthKey): (n: nat)
    ensures (forall i :: 0 <= i < |es| ==> !EntryFor(es[i], k)) ==> n == 0
    ensures forall i :: 0 <= i < |es| && EntryFor(es[i], k) && (forall j :: 0 <= j < i ==> !EntryFor(es[j], k)) ==>
                          n == es[i].count
  {
    if es == [] then 0
    else if EntryFor(es[0], k) then es[0].count
    else
      assert forall i :: 1 <= i < |es| ==> es[i] == es[1..][i - 1];
      FirstCount(es[1..], k)
  }

  /** The bucket for a month: its short name and the two counts. */
  function BucketFor(k: MonthKey, graph: Option<GraphData>): Bucket
    requires 1 <= k.month <= 12
  {
    var trips := if graph.Some? then graph.value.trips else None;
    var users := if graph.Some? then graph.value.users else None;
    Bucket(MonthNames[k.month - 1], CountFor(users, k), CountFor(trips, k))
  }

  /** The chart loop: `for (i = 5; i >= 0; i--)`, oldest month first. */
  method ProcessChart(year: int, month: int, graph: Option<GraphData>) returns (chart: seq<Bucket>)
    requires 0 <= month < 12
    ensures |chart| == 6
    ensures forall k :: 0 <= k < 6 ==> chart[k] == BucketFor(MonthBack(year, month, 5 - k), graph)
  {
    chart := [];
    var i := 5;
    while i >= 0
      invariant -1 <= i <= 5
      invariant |chart| == 5 - i
      invariant forall k :: 0 <= k < |chart| ==> chart[k] == BucketFor(MonthBack(year, month, 5 - k), graph)
    {
      chart := chart + [BucketFor(MonthBack(year, month, i), graph)];
      i := i - 1;
    }
  }

  /** The buckets are six consecutive months, ending with the current one. */
  lemma ChartChronological(year: int, month: int, k: nat)
    requires 0 <= month < 12 && k < 5
    ensures Serial(MonthBack(year, month, 5 - (k + 1))) == Serial(MonthBack(year, month, 5 - k)) + 1
    ensures MonthBack(year, month, 0) == MonthKey(FullYear(year), month + 1)
  {
  }

  /** In January the chart starts in August of the previous year. */
  lemma JanuaryRollsBack(year: int)
    requires year >= 100
    ensures MonthBack(year, 0, 5) == MonthKey(year - 1, 8)
    ensures MonthBack(year, 0, 1) == MonthKey(year - 1, 12)
  {
  }
}

=== FILE: change_password_route.dfy ===
/**
 * `PUT /api/user/change-password` (app/api/user/change-password/route.js):
 * a chain of guards (session, fields, account, current password, length of
 * the new one) in front of the password update. The session is the id of
 * the signed-in user, if any.
 */
module ChangePasswordRoute {
  import opened Wrappers
  import opened Text
  import opened Passwords
  import opened UserModel
  import opened Store

  datatype ChangeBody = ChangeBody(currentPassword: Option<string>, newPassword: Option<string>)

  predicate ChangeFieldsPresent(body: ChangeBody) {
    RequiredText(body.currentPassword) && RequiredText(body.newPassword)
  }

  function ChangePassword(session: Option<UserId>, body: ChangeBody, s: Store): (r: Reply<()>)
    ensures r.status in {200, 400, 401, 404}
    ensures r.payload.None?
    ensures r.status == 401 <==> session.None?
    ensures r.status == 401 ==> r.message == "Unauthorized"
    ensures session.Some? && !ChangeFieldsPresent(body) ==> r.status == 400 && r.message == "Missing fields"
    ensures r.status == 404 <==> session.Some? && ChangeFieldsPresent(body)
                                 && FindUserById(s.users, session.value).None?
    ensures r.status == 404 ==> r.message == "User not found"
    ensures session.Some? && ChangeFieldsPresent(body) && FindUserById(s.users, session.value).Some? ==>
              var u := s.users[FindUserById(s.users, session.value).value];
              && (!Matches(body.currentPassword.value, u.password) ==>
                    r.status == 400 && r.message == "Incorrect current password")
              && (Matches(body.currentPassword.value, u.password)
                  && JsLength(body.newPassword.value) < PasswordMinLength ==>
                    r.status == 400 && r.message == "Password must be at least 6 characters")
              && (r.status == 200 <==> Matches(body.currentPassword.value, u.password)
                                       && JsLength(body.newPassword.value) >= PasswordMinLength)
    ensures r.status != 200 ==> r.store == s
    ensures r.status == 200 ==>
              && session.Some? && ChangeFieldsPresent(body) && FindUserById(s.users, session.value).Some?
              && r.message == "Password changed successfully"
              && r.store == s.(users := r.store.users)
              && |r.store.users| == |s.users|
              && var i := FindUserById(s.users, session.value).value;
                 && (forall k :: 0 <= k < |s.users| && k != i ==> r.store.users[k] == s.users[k])
                 && r.store.users[i] == s.users[i].(password := r.store.users[i].password)
                 && (forall p :: Matches(p, r.store.users[i].password) <==> Key(p) == Key(body.newPassword.value))
  {
    if session.None? then
      Reply(401, "Unauthorized", None, s)
    else if !ChangeFieldsPresent(body) then
      Reply(400, "Missing fields", None, s)
    else
      match FindUserById(s.users, session.value)
      case None => Reply(404, "User not found", None, s)
      case Some(i) =>
        if !Matches(body.currentPassword.value, s.users[i].password) then
          Reply(400, "Incorrect current password", None, s)
        else if JsLength(body.newPassword.value) < PasswordMinLength then
          Reply(400, "Password must be at least 6 characters", None, s)
        else
          var u := s.users[i].(password := Hash(body.newPassword.value));
          Reply(200, "Password changed successfully", None, s.(users := s.users[i := u]))
  }

  /**
   * After a change, the new password is the one `compare` accepts, and the
   * old one is refused unless bcrypt cannot tell the two apart (the same
   * first 72 bytes).
   */
  lemma {:induction false} ChangeTakesEffect(session: Option<UserId>, body: ChangeBody, s: Store, again: ChangeBody)
    requires ChangePassword(session, body, s).status == 200
    requires Key(body.currentPassword.value) != Key(body.newPassword.value)
    requires again.newPassword == body.newPassword && again.currentPassword == body.currentPassword
    ensures ChangePassword(session, again, ChangePassword(session, body, s).store).status == 400
    ensures ChangePassword(session, body.(currentPassword := body.newPassword),
                           ChangePassword(session, body, s).store).status == 200
  {
    var r := ChangePassword(session, body, s);
    var i := FindUserById(s.users, session.value).value;
    ReplaceUserKeepsLookups(s.users, i, r.store.users[i], "", session.value);
    assert r.store.users == s.users[i := r.store.users[i]];
  }

  /** For ASCII passwords shorter than 72 characters, any different old password is refused after the change. */
  lemma ShortChangeTakesEffect(session: Option<UserId>, body: ChangeBody, s: Store)
    requires ChangePassword(session, body, s).status == 200
    requires body.currentPassword != body.newPassword
    requires PlainAscii(body.currentPassword.value) && PlainAscii(body.newPassword.value)
    requires |body.currentPassword.value| < KeyBytes && |body.newPassword.value| < KeyBytes
    ensures ChangePassword(session, body, ChangePassword(session, body, s).store).status == 400
  {
    CompareHash(body.currentPassword.value, body.newPassword.value);
    ChangeTakesEffect(session, body, s, body);
  }

  lemma ChangePreservesValid(session: Option<UserId>, body: ChangeBody, s: Store)
    requires Valid(s)
    ensures Valid(ChangePassword(session, body, s).store)
  {
    var r := ChangePassword(session, body, s);
    if r.status == 200 {
      var i := FindUserById(s.users, session.value).value;
      assert r.store.users == s.users[i := r.store.users[i]];
      ReplaceUserKeepsIndexes(s.users, i, r.store.users[i]);
    }
  }
}

=== FILE: delete_account_route.dfy ===
/**
 * `DELETE /api/auth/delete` (app/api/auth/delete/route.js): remove the
 * signed-in user's trips, their `{userId, role}` entries in other trips'
 * collaborator lists, the user, and their notifications. Nothing checks that
 * the user exists; itinerary items, messages and OTP records are untouched.
 */
module DeleteAccountRoute {
  import opened Wrappers
  import opened UserModel
  import opened TripModel
  import opened Store

  /**
   * `Trip.deleteMany({ userId })`. Every trip carries its own `_id`, so the
   * membership clause pins down which documents remain.
   */
  function TripsNotOwnedBy(trips: seq<Trip>, uid: UserId): (r: seq<Trip>)
    ensures forall t :: t in r <==> t in trips && t.userId != uid
    ensures |r| <= |trips|
  {
    if trips == [] then []
    else (if trips[0].userId == uid then [] else [trips[0]]) + TripsNotOwnedBy(trips[1..], uid)
  }

  /** Does `$pull: { collaborators: { userId } }` remove this entry? Bare ids have no `userId` field. */
  predicate PulledBy(c: Collaborator, uid: UserId) {
    c.Member? && c.userId == uid
  }

  /** The pull on one collaborator list. */
  function PullMember(cs: seq<Collaborator>, uid: UserId): (r: seq<Collaborator>)
    ensures forall c :: c in r <==> c in cs && !PulledBy(c, uid)
    ensures |r| <= |cs|
  {
    if cs == [] then []
    else (if PulledBy(cs[0], uid) then [] else [cs[0]]) + PullMember(cs[1..], uid)
  }

  /** `Trip.updateMany({ "collaborators.userId": uid }, { $pull: ... })`: trips with no such entry are unchanged. */
  function PullFromTrips(trips: seq<Trip>, uid: UserId): (r: seq<Trip>)
    ensures |r| == |trips|
    ensures forall k :: 0 <= k < |r| ==>
              r[k] == trips[k].(collaborators := PullMember(trips[k].collaborators, uid))
  {
    if trips == [] then []
    else [trips[0].(collaborators := PullMember(trips[0].collaborators, uid))] + PullFromTrips(trips[1..], uid)
  }

  /** The pulled trips are exactly the given trips, each with the user's entries pulled. */
  lemma PulledTrips(trips: seq<Trip>, uid: UserId)
    ensures forall t' :: t' in PullFromTrips(trips, uid) <==>
              exists t :: t in trips && t' == t.(collaborators := PullMember(t.collaborators, uid))
  {
    var r := PullFromTrips(trips, uid);
    forall t' | t' in r
      ensures exists t :: t in trips && t' == t.(collaborators := PullMember(t.collaborators, uid))
    {
      var k :| 0 <= k < |r| && r[k] == t';
      assert trips[k] in trips;
    }
    forall t | t in trips
      ensures t.(collaborators := PullMember(t.collaborators, uid)) in r
    {
      PulledTripKept(trips, uid, t);
    }
  }

  /**
   * `User.findByIdAndDelete(uid)`. User ids are unique, so the membership
   * clause pins down which documents remain.
   */
  function UsersOtherThan(users: seq<User>, uid: UserId): (r: seq<User>)
    ensures forall u :: u in r <==> u in users && u.id != uid
    ensures |r| <= |users|
  {
    if users == [] then []
    else (if users[0].id == uid then [] else [users[0]]) + UsersOtherThan(users[1..], uid)
  }

  /**
   * `Notification.deleteMany({ userId })`. Every notification carries its
   * own `_id`, so the membership clause pins down which documents remain.
   */
  function NotificationsOtherThan(ns: seq<Notification>, uid: UserId): (r: seq<Notification>)
    ensures forall n :: n in r <==> n in ns && n.userId != uid
    ensures |r| <= |ns|
  {
    if ns == [] then []
    else (if ns[0].userId == uid then [] else [ns[0]]) + NotificationsOtherThan(ns[1..], uid)
  }

  function DeleteAccount(session: Option<UserId>, s: Store): (r: Reply<()>)
    ensures r.status in {200, 401}
    ensures r.payload.None?
    ensures r.status == 401 <==> session.None?
    ensures r.status == 401 ==> r.message == "Unauthorized" && r.key == ErrorKey && r.store == s
    ensures r.status == 200 ==>
              var uid := session.value;
              && r.message == "Account deleted successfully" && r.key == MessageKey
              && r.store.otps == s.otps && r.store.items == s.items && r.store.messages == s.messages
              && (forall u :: u in r.store.users <==> u in s.users && u.id != uid)
              && (forall n :: n in r.store.notifications <==> n in s.notifications && n.userId != uid)
              && (forall t :: t in r.store.trips ==> t.userId != uid)
              && (forall t' :: t' in r.store.trips <==>
                    exists t :: t in s.trips && t.userId != uid
                                && t' == t.(collaborators := PullMember(t.collaborators, uid)))
              && (forall t :: t in r.store.trips ==> forall c :: c in t.collaborators ==> !PulledBy(c, uid))
  {
    match session
    case None => Reply(401, "Unauthorized", None, s, ErrorKey)
    case Some(uid) =>
      var trips := PullFromTrips(TripsNotOwnedBy(s.trips, uid), uid);
      PulledTrips(TripsNotOwnedBy(s.trips, uid), uid);
      Reply(200, "Account deleted successfully", None,
            s.(trips := trips,
               users := UsersOtherThan(s.users, uid),
               notifications := NotificationsOtherThan(s.notifications, uid)))
  }

  /**
   * Every trip the user did not own survives, with the same fields and a
   * collaborator list that lost exactly the user's `{userId, role}` entries.
   */
  lemma {:induction false} OtherTripsSurvive(uid: UserId, s: Store, t: Trip)
    requires t in s.trips && t.userId != uid
    ensures exists t' :: t' in DeleteAccount(Some(uid), s).store.trips
                         && t' == t.(collaborators := t'.collaborators)
                         && (forall c :: c in t'.collaborators <==> c in t.collaborators && !PulledBy(c, uid))
  {
    var trips := DeleteAccount(Some(uid), s).store.trips;
    var t' := t.(collaborators := PullMember(t.collaborators, uid));
    assert t' in trips;
  }

  lemma PulledTripKept(trips: seq<Trip>, uid: UserId, t: Trip)
    requires t in trips
    ensures t.(collaborators := PullMember(t.collaborators, uid)) in PullFromTrips(trips, uid)
  {
    var k :| 0 <= k < |trips| && trips[k] == t;
    assert PullFromTrips(trips, uid)[k] == t.(collaborators := PullMember(t.collaborators, uid));
  }

  /** Bare-id collaborator entries of the user stay behind: the pull matches only `{userId, role}` entries. */
  lemma {:induction false} LegacyReferencesRemain(uid: UserId, s: Store, t: Trip)
    requires t in s.trips && t.userId != uid && LegacyRef(uid) in t.collaborators
    ensures exists t' :: t' in DeleteAccount(Some(uid), s).store.trips && LegacyRef(uid) in t'.collaborators
  {
    OtherTripsSurvive(uid, s, t);
  }

  // ---------------------------------------------------------------------------
  // Idempotence
  // ---------------------------------------------------------------------------

  lemma {:induction false} TripsNotOwnedByNoop(trips: seq<Trip>, uid: UserId)
    requires forall t :: t in trips ==> t.userId != uid
    ensures TripsNotOwnedBy(trips, uid) == trips
  {
    if trips != [] {
      HeadAndTail(trips);
      TripsNotOwnedByNoop(trips[1..], uid);
    }
  }

  lemma {:induction false} PullMemberIdempotent(cs: seq<Collaborator>, uid: UserId)
    ensures PullMember(PullMember(cs, uid), uid) == PullMember(cs, uid)
  {
    if cs != [] {
      PullMemberIdempotent(cs[1..], uid);
      var p := PullMember(cs, uid);
      if !PulledBy(cs[0], uid) {
        assert p == [cs[0]] + PullMember(cs[1..], uid);
        assert p[0] == cs[0];
        assert p[1..] == PullMember(cs[1..], uid);
      } else {
        assert p == PullMember(cs[1..], uid);
      }
    }
  }

  lemma {:induction false} PullFromTripsIdempotent(trips: seq<Trip>, uid: UserId)
    ensures PullFromTrips(PullFromTrips(trips, uid), uid) == PullFromTrips(trips, uid)
  {
    var once := PullFromTrips(trips, uid);
    var twice := PullFromTrips(once, uid);
    forall k | 0 <= k < |twice|
      ensures twice[k] == once[k]
    {
      PullMemberIdempotent(trips[k].collaborators, uid);
    }
  }

  /** The first element and the rest of a non-empty sequence are all in it, and make it up. */
  lemma HeadAndTail<T>(xs: seq<T>)
    requires xs != []
    ensures xs[0] in xs
    ensures forall x :: x in xs[1..] ==> x in xs
    ensures xs == [xs[0]] + xs[1..]
  {
  }

  lemma {:induction false} UsersOtherThanNoop(users: seq<User>, uid: UserId)
    requires forall u :: u in users ==> u.id != uid
    ensures UsersOtherThan(users, uid) == users
  {
    if users != [] {
      HeadAndTail(users);
      UsersOtherThanNoop(users[1..], uid);
    }
  }

  lemma {:induction false} NotificationsOtherThanNoop(ns: seq<Notification>, uid: UserId)
    requires forall n :: n in ns ==> n.userId != uid
    ensures NotificationsOtherThan(ns, uid) == ns
  {
    if ns != [] {
      HeadAndTail(ns);
      NotificationsOtherThanNoop(ns[1..], uid);
    }
  }

  /** Deleting the same account twice leaves the store as deleting it once. */
  lemma {:induction false} DeleteIdempotent(session: Option<UserId>, s: Store)
    ensures var once := DeleteAccount(session, s);
            DeleteAccount(session, once.store) == once
  {
    if session.Some? {
      var uid := session.value;
      var once := DeleteAccount(session, s).store;
      var pulled := PullFromTrips(TripsNotOwnedBy(s.trips, uid), uid);
      assert once.trips == pulled;
      forall t | t in pulled ensures t.userId != uid {
        var k :| 0 <= k < |pulled| && pulled[k] == t;
      }
      TripsNotOwnedByNoop(pulled, uid);
      PullFromTripsIdempotent(TripsNotOwnedBy(s.trips, uid), uid);
      UsersOtherThanNoop(once.users, uid);
      NotificationsOtherThanNoop(once.notifications, uid);
    }
  }

  /** Deleting removes only; it cannot break the unique indexes. */
  lemma {:induction false} DeletePreservesValid(session: Option<UserId>, s: Store)
    requires Valid(s)
    ensures Valid(DeleteAccount(session, s).store)
  {
    if session.Some? {
      var uid := session.value;
      UsersOtherThanUnique(s.users, uid);
      TripsNotOwnedByUnique(s.trips, uid);
    }
  }

  lemma {:induction false} UsersOtherThanUnique(users: seq<User>, uid: UserId)
    requires UniqueUserIds(users) && UniqueEmails(users) && AllValidUsers(users)
    ensures var r := UsersOtherThan(users, uid);
            UniqueUserIds(r) && UniqueEmails(r) && AllValidUsers(r)
  {
    var r := UsersOtherThan(users, uid);
    forall k | 0 <= k < |r| ensures ValidUser(r[k]) {
      assert r[k] in users;
    }
    if users != [] {
      var rest := UsersOtherThan(users[1..], uid);
      UsersOtherThanUnique(users[1..], uid);
      if users[0].id != uid {
        forall k | 0 <= k < |rest|
          ensures rest[k].id != users[0].id && rest[k].email != users[0].email
        {
          HeadDiffers(users, rest[k]);
        }
        ConsUserUnique(users[0], rest);
        assert r == [users[0]] + rest;
      } else {
        assert r == rest;
      }
    }
  }

  /** The head of a list with unique ids and e-mails shares neither with any later element. */
  lemma HeadDiffers(users: seq<User>, u: User)
    requires UniqueUserIds(users) && UniqueEmails(users)
    requires |users| > 0 && u in users[1..]
    ensures u.id != users[0].id && u.email != users[0].email
  {
    var j :| 0 <= j < |users[1..]| && users[1..][j] == u;
    assert users[j + 1] == u;
  }

  lemma ConsUserUnique(x: User, rest: seq<User>)
    requires UniqueUserIds(rest) && UniqueEmails(rest)
    requires forall k :: 0 <= k < |rest| ==> rest[k].id != x.id && rest[k].email != x.email
    ensures UniqueUserIds([x] + rest) && UniqueEmails([x] + rest)
  {
    var r := [x] + rest;
    forall a, b | 0 <= a < b < |r|
      ensures r[a].id != r[b].id && r[a].email != r[b].email
    {
      assert r[b] == rest[b - 1];
      if a > 0 {
        assert r[a] == rest[a - 1];
      }
    }
  }

  lemma {:induction false} TripsNotOwnedByUnique(trips: seq<Trip>, uid: UserId)
    requires UniqueTripIds(trips)
    ensures UniqueTripIds(PullFromTrips(TripsNotOwnedBy(trips, uid), uid))
  {
    TripsNotOwnedByUniqueIds(trips, uid);
  }

  lemma {:induction false} TripsNotOwnedByUniqueIds(trips: seq<Trip>, uid: UserId)
    requires UniqueTripIds(trips)
    ensures UniqueTripIds(TripsNotOwnedBy(trips, uid))
  {
    if trips != [] {
      TripsNotOwnedByUniqueIds(trips[1..], uid);
      var rest := TripsNotOwnedBy(trips[1..], uid);
      forall k | 0 <= k < |rest|
        ensures rest[k].id != trips[0].id
      {
        var j :| 0 <= j < |trips[1..]| && trips[1..][j] == rest[k];
        assert trips[j + 1] == rest[k];
      }
    }
  }
}

=== FILE: email_format.dfy ===
/**
 * The e-mail format of the User schema (models/User.js line 14):
 *
 *     ^\w+([\.-]?\w+)*@\w+([\.-]?\w+)*(\.\w{2,3})+$
 *
 * Two definitions are given and proved equal. `MatchesRegex` follows the
 * regular expression term by term, with the split points of each
 * concatenation and repetition as existential witnesses (the language the
 * backtracking matcher of `RegExp.prototype.test` accepts). `IsEmail` is a
 * direct recogniser: split at the `@`, check a "label" on each side, and a
 * final `.` followed by two or three word characters.
 */
module EmailFormat {
  import opened Text

  predicate IsSep(c: char) {
    c == '.' || c == '-'
  }

  // ---------------------------------------------------------------------------
  // The regular expression, term by term
  // ---------------------------------------------------------------------------

  /** `\w+` */
  ghost predicate WordRun(s: string) {
    |s| >= 1 && AllWordChars(s)
  }

  /** `[\.-]?\w+` */
  ghost predicate Group(s: string) {
    WordRun(s) || (|s| >= 2 && IsSep(s[0]) && WordRun(s[1..]))
  }

  /** `([\.-]?\w+)*` */
  ghost predicate GroupStar(s: string)
    decreases |s|
  {
    s == [] || exists k :: 1 <= k <= |s| && Group(s[..k]) && GroupStar(s[k..])
  }

  /** `\w+([\.-]?\w+)*`, the shape of both the part before `@` and the host name. */
  ghost predicate LabelTerm(s: string) {
    exists k :: 1 <= k <= |s| && WordRun(s[..k]) && GroupStar(s[k..])
  }

  /** `\.\w{2,3}` */
  ghost predicate TldTerm(s: string) {
    (|s| == 3 || |s| == 4) && s[0] == '.' && WordRun(s[1..])
  }

  /** `(\.\w{2,3})+` */
  ghost predicate TldPlus(s: string)
    decreases |s|
  {
    TldTerm(s) || exists k :: 1 <= k < |s| && TldTerm(s[..k]) && TldPlus(s[k..])
  }

  /** The whole anchored expression. */
  ghost predicate MatchesRegex(s: string) {
    exists a, b :: 0 <= a < b <= |s| && s[a] == '@' && LabelTerm(s[..a])
                   && LabelTerm(s[a + 1..b]) && TldPlus(s[b..])
  }

  // ---------------------------------------------------------------------------
  // The direct recogniser
  // ---------------------------------------------------------------------------

  /**
   * A non-empty run of word characters, `.` and `-` in which every `.` or `-`
   * has a word character immediately before and after it.
   */
  predicate IsLabel(s: string) {
    && |s| >= 1
    && (forall i :: 0 <= i < |s| ==> Allowed(s[i]))
    && (forall i :: 0 <= i < |s| ==> Guarded(s, i))
  }

  predicate Allowed(c: char) {
    IsWordChar(c) || IsSep(c)
  }

  /** A separator at `i` sits strictly inside `s`, between two word characters. */
  predicate Guarded(s: string, i: int)
    requires 0 <= i < |s|
  {
    IsSep(s[i]) ==> 0 < i < |s| - 1 && IsWordChar(s[i - 1]) && IsWordChar(s[i + 1])
  }

  /** `d` ends with `.` and `n` word characters, and what precedes the `.` is a label. */
  predicate TldAt(d: string, n: nat) {
    |d| >= n + 2 && d[|d| - n - 1] == '.' && IsLabel(d[..|d| - n - 1]) && AllWordChars(d[|d| - n..])
  }

  /** The host: a label, then `.` and two or three word characters. */
  predicate IsDomain(d: string) {
    TldAt(d, 2) || TldAt(d, 3)
  }

  /** The e-mail format check of the User schema. */
  predicate IsEmail(s: string) {
    '@' in s
    && var a := FirstIndex(s, '@');
       IsLabel(s[..a]) && IsDomain(s[a + 1..])
  }

  // ---------------------------------------------------------------------------
  // LabelTerm is IsLabel
  // ---------------------------------------------------------------------------

  /** A separator at `i` of a suffix is followed by a word character and, unless first, preceded by one. */
  predicate TailGuarded(r: string, i: int)
    requires 0 <= i < |r|
  {
    IsSep(r[i]) ==> i + 1 < |r| && IsWordChar(r[i + 1]) && (i > 0 ==> IsWordChar(r[i - 1]))
  }

  /** What a suffix matched by `([\.-]?\w+)*` looks like. */
  ghost predicate StarShape(r: string) {
    r == [] || (
      && IsWordChar(r[|r| - 1])
      && (forall i :: 0 <= i < |r| ==> Allowed(r[i]))
      && (forall i :: 0 <= i < |r| ==> TailGuarded(r, i)))
  }

  /** Past its first character a group holds only word characters. */
  lemma GroupInner(g: string, m: nat)
    requires Group(g) && m < |g| && (1 <= m || |g| == 1)
    ensures IsWordChar(g[m])
  {
    if !WordRun(g) {
      assert g[m] == g[1..][m - 1];
    }
  }

  /** A label starts and ends with a word character. */
  lemma LabelEnds(x: string)
    requires IsLabel(x)
    ensures IsWordChar(x[0]) && IsWordChar(x[|x| - 1])
  {
    assert Guarded(x, 0) && Allowed(x[0]);
    assert Guarded(x, |x| - 1) && Allowed(x[|x| - 1]);
  }

  lemma {:induction false} GroupStarShape(r: string)
    requires GroupStar(r)
    ensures StarShape(r)
    decreases |r|
  {
    if r != [] {
      var k :| 1 <= k <= |r| && Group(r[..k]) && GroupStar(r[k..]);
      var g, rest := r[..k], r[k..];
      GroupStarShape(rest);
      assert r == g + rest;
      GroupInner(g, |g| - 1);
      forall i | 0 <= i < |r|
        ensures Allowed(r[i]) && TailGuarded(r, i)
      {
        if i >= k {
          assert r[i] == rest[i - k];
          assert TailGuarded(rest, i - k);
          if i + 1 < |r| { assert r[i + 1] == rest[i - k + 1]; }
          if i > k { assert r[i - 1] == rest[i - k - 1]; }
        } else {
          assert r[i] == g[i];
          if i > 0 { GroupInner(g, i); }
        }
      }
    }
  }

  lemma {:induction false} LabelTermIsLabel(s: string)
    requires LabelTerm(s)
    ensures IsLabel(s)
  {
    var k :| 1 <= k <= |s| && WordRun(s[..k]) && GroupStar(s[k..]);
    var p, r := s[..k], s[k..];
    GroupStarShape(r);
    assert s == p + r;
    forall i | 0 <= i < |s|
      ensures Allowed(s[i]) && Guarded(s, i)
    {
      if i >= k {
        assert s[i] == r[i - k];
        assert TailGuarded(r, i - k);
        if i + 1 < |s| { assert s[i + 1] == r[i - k + 1]; }
        if i > k { assert s[i - 1] == r[i - k - 1]; }
      } else {
        assert s[i] == p[i];
      }
    }
  }

  /** End of the run of word characters starting at `i`. */
  function WordRunEnd(s: string, i: nat): (j: nat)
    requires i <= |s|
    ensures i <= j <= |s|
    ensures forall m :: i <= m < j ==> IsWordChar(s[m])
    ensures j == |s| || !IsWordChar(s[j])
    decreases |s| - i
  {
    if i == |s| || !IsWordChar(s[i]) then i else WordRunEnd(s, i + 1)
  }

  /** The part of a label after a complete word run is matched by `([\.-]?\w+)*`. */
  lemma {:induction false} LabelSuffixIsStar(s: string, k: nat)
    requires IsLabel(s) && 1 <= k <= |s|
    requires k == |s| || IsSep(s[k])
    ensures GroupStar(s[k..])
    decreases |s| - k
  {
    if k < |s| {
      assert Guarded(s, k);
      var j := WordRunEnd(s, k + 1);
      assert j == |s| || IsSep(s[j]);
      LabelSuffixIsStar(s, j);
      var r := s[k..];
      assert r[..j - k] == s[k..j];
      assert r[j - k..] == s[j..];
      assert s[k..j][1..] == s[k + 1..j];
      assert Group(r[..j - k]);
    }
  }

  lemma {:induction false} LabelIsLabelTerm(s: string)
    requires IsLabel(s)
    ensures LabelTerm(s)
  {
    LabelEnds(s);
    var k := WordRunEnd(s, 0);
    LabelSuffixIsStar(s, k);
    assert WordRun(s[..k]);
  }

  // ---------------------------------------------------------------------------
  // The host part
  // ---------------------------------------------------------------------------

  /** A label followed by `.` and two or three word characters is still a label. */
  lemma LabelTld(x: string, t: string)
    requires IsLabel(x) && TldTerm(t)
    ensures IsLabel(x + t)
  {
    var s := x + t;
    LabelEnds(x);
    forall m | 1 <= m < |t|
      ensures IsWordChar(t[m])
    {
      assert t[m] == t[1..][m - 1];
    }
    forall i | 0 <= i < |s|
      ensures Allowed(s[i]) && Guarded(s, i)
    {
      if i < |x| {
        assert s[i] == x[i];
        assert Guarded(x, i);
        if i + 1 < |x| { assert s[i + 1] == x[i + 1]; }
        if i > 0 { assert s[i - 1] == x[i - 1]; }
      } else {
        assert s[i] == t[i - |x|];
        if i + 1 < |s| { assert s[i + 1] == t[i - |x| + 1]; }
        if i == |x| { assert s[i - 1] == x[|x| - 1]; }
      }
    }
  }

  /** A label followed by one `\.\w{2,3}` term ends in a top-level domain. */
  lemma TldAtTerm(x: string, t: string)
    requires IsLabel(x) && TldTerm(t)
    ensures TldAt(x + t, |t| - 1)
  {
    var d := x + t;
    var n := |t| - 1;
    assert d[..|d| - n - 1] == x;
    assert d[|d| - n..] == t[1..];
  }

  lemma {:induction false} TldPlusDomain(x: string, t: string)
    requires IsLabel(x) && TldPlus(t)
    ensures IsDomain(x + t)
    decreases |t|
  {
    if TldTerm(t) {
      TldAtTerm(x, t);
    } else {
      var k :| 1 <= k < |t| && TldTerm(t[..k]) && TldPlus(t[k..]);
      TldStep(x, t, k);
      TldPlusDomain(x + t[..k], t[k..]);
    }
  }

  lemma TldStep(x: string, t: string, k: nat)
    requires IsLabel(x) && 1 <= k < |t| && TldTerm(t[..k])
    ensures IsLabel(x + t[..k]) && x + t == (x + t[..k]) + t[k..]
  {
    LabelTld(x, t[..k]);
    assert t == t[..k] + t[k..];
  }

  /** The host name matched by `\w+([\.-]?\w+)*(\.\w{2,3})+` is `IsDomain`. */
  lemma DomainTerms(d: string, b: nat)
    requires b <= |d| && LabelTerm(d[..b]) && TldPlus(d[b..])
    ensures IsDomain(d)
  {
    LabelTermIsLabel(d[..b]);
    TldPlusDomain(d[..b], d[b..]);
    assert d == d[..b] + d[b..];
  }

  // ---------------------------------------------------------------------------
  // The two definitions agree
  // ---------------------------------------------------------------------------

  /** An index holding `c` with no `c` before it is the first index of `c`. */
  lemma {:induction false} FirstIndexAt(s: string, c: char, a: nat)
    requires a < |s| && s[a] == c
    requires forall i :: 0 <= i < a ==> s[i] != c
    ensures FirstIndex(s, c) == a
  {
    if a > 0 {
      assert s[1..][a - 1] == c;
      FirstIndexAt(s[1..], c, a - 1);
    }
  }

  lemma LabelHasNoAt(x: string)
    requires IsLabel(x)
    ensures '@' !in x
  {
  }

  /** When a label precedes it, the `@` at `a` is the first `@`. */
  lemma LabelThenAt(s: string, a: nat)
    requires a < |s| && s[a] == '@' && IsLabel(s[..a])
    ensures FirstIndex(s, '@') == a
  {
    var local := s[..a];
    LabelHasNoAt(local);
    forall i | 0 <= i < a
      ensures s[i] != '@'
    {
      assert local[i] == s[i];
    }
    FirstIndexAt(s, '@', a);
  }

  lemma HostTerms(s: string, a: nat, b: nat)
    requires a < b <= |s| && LabelTerm(s[a + 1..b]) && TldPlus(s[b..])
    ensures IsDomain(s[a + 1..])
  {
    var d := s[a + 1..];
    assert d[..b - a - 1] == s[a + 1..b];
    assert d[b - a - 1..] == s[b..];
    DomainTerms(d, b - a - 1);
  }

  lemma RegexImpliesEmail(s: string)
    requires MatchesRegex(s)
    ensures IsEmail(s)
  {
    var a, b :| 0 <= a < b <= |s| && s[a] == '@' && LabelTerm(s[..a])
                && LabelTerm(s[a + 1..b]) && TldPlus(s[b..]);
    LabelTermIsLabel(s[..a]);
    LabelThenAt(s, a);
    HostTerms(s, a, b);
  }

  lemma EmailImpliesRegex(s: string)
    requires IsEmail(s)
    ensures MatchesRegex(s)
  {
    var a := FirstIndex(s, '@');
    var d := s[a + 1..];
    LabelIsLabelTerm(s[..a]);
    var n := if TldAt(d, 2) then 2 else 3;
    var m := |d| - n - 1;
    TldAtTerms(d, n);
    TailSlices(s, a + 1, m);
    assert TldPlus(s[a + 1 + m..]);
  }

  /** A host ending in `.` and `n` word characters splits into the two regex terms. */
  lemma TldAtTerms(d: string, n: nat)
    requires TldAt(d, n) && (n == 2 || n == 3)
    ensures LabelTerm(d[..|d| - n - 1]) && TldTerm(d[|d| - n - 1..])
  {
    LabelIsLabelTerm(d[..|d| - n - 1]);
    assert d[|d| - n - 1..][1..] == d[|d| - n..];
  }

  lemma TailSlices(s: string, i: nat, m: nat)
    requires i + m <= |s|
    ensures s[i..i + m] == s[i..][..m] && s[i + m..] == s[i..][m..]
  {
  }

  /** The recogniser accepts exactly the strings the regular expression matches. */
  lemma EmailIffRegex(s: string)
    ensures IsEmail(s) <==> MatchesRegex(s)
  {
    if IsEmail(s) { EmailImpliesRegex(s); }
    if MatchesRegex(s) { RegexImpliesEmail(s); }
  }

  // ---------------------------------------------------------------------------
  // Structural consequences of a match
  // ---------------------------------------------------------------------------

  lemma AtSplit(s: string) returns (a: nat)
    requires IsEmail(s)
    ensures a < |s| && s[a] == '@' && IsLabel(s[..a]) && IsDomain(s[a + 1..])
  {
    a := FirstIndex(s, '@');
  }

  lemma DomainSplit(d: string) returns (host: string, tld: string)
    requires IsDomain(d)
    ensures d == host + ['.'] + tld
    ensures IsLabel(host) && AllWordChars(tld) && 2 <= |tld| <= 3
  {
    var n := if TldAt(d, 2) then 2 else 3;
    host, tld := d[..|d| - n - 1], d[|d| - n..];
    assert d == host + ['.'] + tld;
  }

  lemma Pieces(s: string) returns (local: string, host: string, tld: string)
    requires IsEmail(s)
    ensures s == local + ['@'] + host + ['.'] + tld
    ensures IsLabel(local) && IsLabel(host) && AllWordChars(tld) && 2 <= |tld| <= 3
  {
    var a := AtSplit(s);
    local := s[..a];
    AroundChar(s, a);
    host, tld := DomainSplit(s[a + 1..]);
    Regroup(local, host, tld);
  }

  lemma AroundChar(s: string, a: nat)
    requires a < |s|
    ensures s == s[..a] + [s[a]] + s[a + 1..]
  {
  }

  lemma Regroup(local: string, host: string, tld: string)
    ensures local + ['@'] + (host + ['.'] + tld) == local + ['@'] + host + ['.'] + tld
  {
  }

  lemma HostLabel(host: string, tld: string)
    requires IsLabel(host) && AllWordChars(tld) && 2 <= |tld| <= 3
    ensures IsLabel(host + ['.'] + tld)
  {
    var t := ['.'] + tld;
    assert t[1..] == tld;
    LabelTld(host, t);
    assert host + ['.'] + tld == host + t;
  }

  /** A recognised address is `local @ host . tld`. */
  lemma EmailParts(s: string) returns (local: string, host: string, tld: string)
    requires IsEmail(s)
    ensures s == local + ['@'] + host + ['.'] + tld
    ensures IsLabel(local) && IsLabel(host) && IsLabel(host + ['.'] + tld)
    ensures AllWordChars(tld) && 2 <= |tld| <= 3
  {
    local, host, tld := Pieces(s);
    HostLabel(host, tld);
  }

  lemma GlueCount(x: string, y: string)
    requires IsLabel(x) && IsLabel(y)
    ensures Count(x + ['@'] + y, '@') == 1
  {
    LabelHasNoAt(x);
    LabelHasNoAt(y);
    CountAppend(x + ['@'], y, '@');
    CountAppend(x, ['@'], '@');
  }

  /** A matching address contains exactly one `@`. */
  lemma OneAt(s: string)
    requires MatchesRegex(s)
    ensures Count(s, '@') == 1
  {
    RegexImpliesEmail(s);
    EmailOneAt(s);
  }

  lemma EmailOneAt(s: string)
    requires IsEmail(s)
    ensures Count(s, '@') == 1
  {
    var local, host, tld := EmailParts(s);
    assert s == local + ['@'] + (host + ['.'] + tld);
    GlueCount(local, host + ['.'] + tld);
  }

  /** A matching address ends with `.` and two or three word characters. */
  lemma EndsWithTld(s: string)
    requires MatchesRegex(s)
    ensures || (|s| >= 3 && s[|s| - 3] == '.' && AllWordChars(s[|s| - 2..]))
            || (|s| >= 4 && s[|s| - 4] == '.' && AllWordChars(s[|s| - 3..]))
  {
    RegexImpliesEmail(s);
    var local, host, tld := EmailParts(s);
    assert s[|s| - |tld|..] == tld;
  }

  /** Gluing two labels with `@` keeps every character a word character, separator or `@`. */
  lemma GlueAlphabet(x: string, y: string)
    requires IsLabel(x) && IsLabel(y)
    ensures var s := x + ['@'] + y;
            forall i :: 0 <= i < |s| ==> Allowed(s[i]) || s[i] == '@'
  {
    var s := x + ['@'] + y;
    forall i | 0 <= i < |s|
      ensures Allowed(s[i]) || s[i] == '@'
    {
      if i > |x| { assert s[i] == y[i - |x| - 1]; }
      else if i < |x| { assert s[i] == x[i]; }
    }
  }

  /** Gluing two labels with `@` keeps every separator between two word characters. */
  lemma GlueSeparators(x: string, y: string)
    requires IsLabel(x) && IsLabel(y)
    ensures var s := x + ['@'] + y;
            forall i :: 0 <= i < |s| ==> Guarded(s, i)
  {
    var s := x + ['@'] + y;
    forall i | 0 <= i < |s|
      ensures Guarded(s, i)
    {
      if i < |x| {
        assert s[i] == x[i];
        assert Guarded(x, i);
        if i + 1 < |x| { assert s[i + 1] == x[i + 1]; }
        if i > 0 { assert s[i - 1] == x[i - 1]; }
      } else if i > |x| {
        var j := i - |x| - 1;
        assert s[i] == y[j];
        assert Guarded(y, j);
        if j + 1 < |y| { assert s[i + 1] == y[j + 1]; }
        if j > 0 { assert s[i - 1] == y[j - 1]; }
      }
    }
  }

  /**
   * Every `.` or `-` of a matching address is immediately preceded and
   * followed by a word character, and no characters other than word
   * characters, `.`, `-` and `@` occur.
   */
  lemma Alphabet(s: string)
    requires MatchesRegex(s)
    ensures forall i :: 0 <= i < |s| ==> IsWordChar(s[i]) || IsSep(s[i]) || s[i] == '@'
    ensures forall i :: 0 <= i < |s| ==> Guarded(s, i)
  {
    RegexImpliesEmail(s);
    EmailAlphabet(s);
  }

  lemma EmailAlphabet(s: string)
    requires IsEmail(s)
    ensures forall i :: 0 <= i < |s| ==> IsWordChar(s[i]) || IsSep(s[i]) || s[i] == '@'
    ensures forall i :: 0 <= i < |s| ==> Guarded(s, i)
  {
    var local, host, tld := EmailParts(s);
    assert s == local + ['@'] + (host + ['.'] + tld);
    var dom := host + ['.'] + tld;
    GlueAlphabet(local, dom);
    GlueSeparators(local, dom);
  }
}

=== FILE: fix_db_env.dfy ===
/**
 * fix_db_env.js: strip the port from every `mongodb+srv://` URI in
 * `.env.local` and write the file back only when that changed it. The file
 * is a parameter: `None` when reading it throws (the script logs the error
 * and writes nothing); the result is the content written, if any.
 */
module FixDbEnv {
  import opened Wrappers
  import opened Text
  import opened UriPort

  /** Some `mongodb+srv://` URI in the text carries a port the regular expression removes. */
  predicate HasSrvPort(content: string) {
    exists j :: 0 <= j < |content| && MatchAt(SrvUri, content, j).Some?
  }

  function FixDbEnv(file: Option<string>): (written: Option<string>)
    ensures file.None? ==> written.None?
    ensures file.Some? ==> (written.Some? <==> HasSrvPort(file.value))
    ensures written.Some? ==> written.value == Rewrite(SrvUri, file.value)
    ensures written.Some? ==>
              && written.value != file.value
              && IsSubsequence(written.value, file.value)
              && WithoutPortChars(written.value) == WithoutPortChars(file.value)
              && Count(written.value, '\n') == Count(file.value, '\n')
  {
    match file
    case None => None
    case Some(content) =>
      var updated := Rewrite(SrvUri, content);
      CountOutsidePorts(updated, '\n');
      CountOutsidePorts(content, '\n');
      if content != updated then Some(updated) else None
  }

  /** A match needs the scheme, an `@` after the credentials, and a host followed by `:`. */
  lemma {:induction false} NoSchemeNoWrite(content: string)
    requires forall j :: 0 <= j < |content| ==> !StartsWith(content[j..], SrvScheme)
    ensures FixDbEnv(Some(content)).None?
  {
    forall j | 0 <= j < |content| ensures MatchAt(SrvUri, content, j).None? {
      NotAtScheme(content, j);
    }
  }

  lemma NotAtScheme(content: string, j: nat)
    requires j < |content| && !StartsWith(content[j..], SrvScheme)
    ensures MatchAt(SrvUri, content, j).None?
  {
    if j + |SrvScheme| <= |content| {
      assert content[j..][..|SrvScheme|] == content[j..j + |SrvScheme|];
    }
  }

  // ---------------------------------------------------------------------------
  // Which port goes: the one after the host of each URI
  // ---------------------------------------------------------------------------

  /** No `mongodb+srv://` begins at a position in `[from, to)`. */
  predicate NoSchemeIn(s: string, from: nat, to: nat) {
    forall j :: from <= j < to && j < |s| ==> !StartsWith(s[j..], SrvScheme)
  }

  /**
   * When the regular expression's parts lie at `i` (the scheme), `a` (the
   * first `@`), `c` (the `:` after the host) and `d` (after the digits),
   * the scan's match at `i` is that port.
   */
  lemma SrvMatchValue(s: string, i: nat, a: nat, c: nat, d: nat)
    requires i <= |s| && SrvPrefix(s, i, a) && PortShape(s, a, c, d)
    ensures MatchAt(SrvUri, s, i) == Some(PortMatch(c, d, MatchEnd(s, d)))
  {
    SrvMatchFound(s, i, a);
    PortAfterComplete(s, a, c, d);
  }

  /** At such a URI the scan keeps the text up to the `:`, drops the port, keeps the delimiter and resumes after it. */
  lemma ReplaceAtUri(s: string, i: nat, a: nat, c: nat, d: nat)
    requires i <= |s| && SrvPrefix(s, i, a) && PortShape(s, a, c, d)
    ensures var ms := MatchTable(SrvUri, s);
            var e := MatchEnd(s, d);
            Replace(ms, s, i) == s[i..c] + (s[d..e] + Replace(ms, s, e))
  {
    SrvMatchValue(s, i, a, c, d);
    SplitAtMatch(MatchTable(SrvUri, s), s, i);
  }

  /** No `mongodb+srv://` begins in `s[i..n]`, so the scan copies it. */
  lemma ReplaceCopiesRun(s: string, i: nat, n: nat)
    requires i <= n <= |s| && NoSchemeIn(s, i, n)
    ensures Replace(MatchTable(SrvUri, s), s, i) == s[i..n] + Replace(MatchTable(SrvUri, s), s, n)
  {
    var ms := MatchTable(SrvUri, s);
    forall j | i <= j < n ensures ms[j].None? {
      NotAtScheme(s, j);
    }
    CopyUpTo(ms, s, i, n);
  }

  /** From `n` on no `mongodb+srv://` begins, so the scan copies the rest. */
  lemma ReplaceCopiesTail(s: string, n: nat)
    requires n <= |s| && NoSchemeIn(s, n, |s|)
    ensures Replace(MatchTable(SrvUri, s), s, n) == s[n..]
  {
    var ms := MatchTable(SrvUri, s);
    forall j | n <= j < |s| ensures ms[j].None? {
      NotAtScheme(s, j);
    }
    CopyToEnd(ms, s, n);
  }

  /**
   * From `n`, with the next URI at `i`: the scan copies up to its `:`,
   * drops the port, keeps the delimiter and resumes after it.
   */
  lemma ReplaceThroughUri(s: string, n: nat, i: nat, a: nat, c: nat, d: nat)
    requires n <= i <= |s| && SrvPrefix(s, i, a) && PortShape(s, a, c, d)
    requires NoSchemeIn(s, n, i)
    ensures var ms := MatchTable(SrvUri, s);
            var e := MatchEnd(s, d);
            Replace(ms, s, n) == s[n..c] + (s[d..e] + Replace(ms, s, e))
  {
    ReplaceCopiesRun(s, n, i);
    ReplaceAtUri(s, i, a, c, d);
    SlicesMeet(s, n, i, c);
    Assoc(s[n..i], s[i..c], s[d..MatchEnd(s, d)] + Replace(MatchTable(SrvUri, s), s, MatchEnd(s, d)));
  }

  /** From `n`, with the last URI at `i`: the rest of the text loses exactly that port. */
  lemma ReplaceLastUri(s: string, n: nat, i: nat, a: nat, c: nat, d: nat)
    requires n <= i <= |s| && SrvPrefix(s, i, a) && PortShape(s, a, c, d)
    requires NoSchemeIn(s, n, i) && NoSchemeIn(s, MatchEnd(s, d), |s|)
    ensures Replace(MatchTable(SrvUri, s), s, n) == s[n..c] + s[d..]
  {
    ReplaceThroughUri(s, n, i, a, c, d);
    ReplaceCopiesTail(s, MatchEnd(s, d));
    SuffixMeets(s, d, MatchEnd(s, d));
  }

  /**
   * fix_db_env.js removes the port after the host: with one
   * `mongodb+srv://` URI in the file, whose `:port` is `s[c..d]`, the file
   * is written back with exactly those characters cut out.
   */
  lemma SrvPortRemoved(s: string, i: nat, a: nat, c: nat, d: nat)
    requires i <= |s| && SrvPrefix(s, i, a) && PortShape(s, a, c, d)
    requires NoSchemeIn(s, 0, i) && NoSchemeIn(s, MatchEnd(s, d), |s|)
    ensures FixDbEnv(Some(s)) == Some(s[..c] + s[d..])
  {
    ReplaceLastUri(s, 0, i, a, c, d);
    assert s[0..c] == s[..c];
    assert |s[..c] + s[d..]| < |s|;
  }

  /**
   * The `g` flag: with two URIs in the file, each loses its own port
   * (`s[c1..d1]` and `s[c2..d2]`) and nothing else changes.
   */
  lemma TwoSrvPortsRemoved(s: string, i1: nat, a1: nat, c1: nat, d1: nat, i2: nat, a2: nat, c2: nat, d2: nat)
    requires i1 <= |s| && SrvPrefix(s, i1, a1) && PortShape(s, a1, c1, d1)
    requires i2 <= |s| && SrvPrefix(s, i2, a2) && PortShape(s, a2, c2, d2)
    requires MatchEnd(s, d1) <= i2
    requires NoSchemeIn(s, 0, i1) && NoSchemeIn(s, MatchEnd(s, d1), i2) && NoSchemeIn(s, MatchEnd(s, d2), |s|)
    ensures FixDbEnv(Some(s)) == Some(s[..c1] + s[d1..c2] + s[d2..])
  {
    var e1 := MatchEnd(s, d1);
    ReplaceThroughUri(s, 0, i1, a1, c1, d1);
    ReplaceLastUri(s, e1, i2, a2, c2, d2);
    RejoinTwo(s, c1, d1, e1, c2, d2);
  }

}

=== FILE: fix_db_env_force.dfy ===
/**
 * fix_db_env_force.js: remove `:port` after any `@host` in `.env.local`;
 * when that changes nothing, fall back to editing the `MONGODB_URI=` lines,
 * cutting the first `:digits` before `/globetrotter` and then the first
 * before `/?`. The file is written only when one of the two steps changed
 * it. As in `FixDbEnv`, the file is a parameter and the result is the
 * content written, if any.
 */
module FixDbEnvForce {
  import opened Wrappers
  import opened Text
  import opened UriPort

  const UriKey := "MONGODB_URI="
  const DatabasePath := "/globetrotter"
  const QueryPath := "/?"

  /** A fallback target: it starts with `/`, so a run of digits cannot reach into it. */
  predicate PathTail(tail: string) {
    |tail| > 0 && !IsDigit(tail[0])
  }

  // ---------------------------------------------------------------------------
  // `line.replace(/:\d+<tail>/, '<tail>')`: the first match only
  // ---------------------------------------------------------------------------

  /** `:\d+` followed by `tail` matches at `j`, its digits ending at `d`. */
  predicate PortBefore(s: string, tail: string, j: nat, d: nat) {
    && j + 1 < d && d + |tail| <= |s|
    && s[j] == ':'
    && (forall k :: j < k < d ==> IsDigit(s[k]))
    && s[d..d + |tail|] == tail
  }

  /** The leftmost match from `j` on, if any. */
  function FirstPortBefore(s: string, tail: string, j: nat): (r: Option<(nat, nat)>)
    requires j <= |s| && PathTail(tail)
    ensures r.Some? ==> j <= r.value.0 && PortBefore(s, tail, r.value.0, r.value.1)
    ensures r.Some? ==> forall k, e :: j <= k < r.value.0 ==> !PortBefore(s, tail, k, e)
    ensures r.None? ==> forall k, e :: j <= k ==> !PortBefore(s, tail, k, e)
    decreases |s| - j
  {
    if j == |s| then None
    else
      var d := DigitsEnd(s, j + 1);
      if s[j] == ':' && d > j + 1 && d + |tail| <= |s| && s[d..d + |tail|] == tail then
        Some((j, d))
      else
        assert forall e :: !PortBefore(s, tail, j, e) by {
          forall e | PortBefore(s, tail, j, e) ensures false {
            DigitsRunEnds(s, tail, j, d, e);
          }
        }
        FirstPortBefore(s, tail, j + 1)
  }

  /** A match's digits are the whole digit run after the `:`. */
  lemma DigitsRunEnds(s: string, tail: string, j: nat, d: nat, e: nat)
    requires j < |s| && PathTail(tail) && d == DigitsEnd(s, j + 1) && PortBefore(s, tail, j, e)
    ensures e == d
  {
    assert s[e] == tail[0];
  }

  /** The first match in the text is at `j`. */
  ghost predicate LeftmostPort(s: string, tail: string, j: nat, d: nat) {
    PortBefore(s, tail, j, d) && forall k: nat, e: nat :: k < j ==> !PortBefore(s, tail, k, e)
  }

  /** Cutting out `s[j..d]` leaves a shorter text with no character `s` lacks. */
  lemma CutKeepsMembers(s: string, j: nat, d: nat)
    requires j < d <= |s|
    ensures |s[..j] + s[d..]| < |s|
    ensures forall c :: c in s[..j] + s[d..] ==> c in s
  {
    assert s == s[..j] + s[j..d] + s[d..];
  }

  function ReplaceFirstPort(s: string, tail: string): (r: string)
    requires PathTail(tail)
    ensures r == s <==> forall j, d :: !PortBefore(s, tail, j, d)
    ensures r != s ==> exists j: nat, d: nat :: LeftmostPort(s, tail, j, d) && j <= d <= |s| && r == s[..j] + s[d..]
    ensures IsSubsequence(r, s) && WithoutPortChars(r) == WithoutPortChars(s)
    ensures forall c :: c in r ==> c in s
  {
    match FirstPortBefore(s, tail, 0)
    case None =>
      SubsequenceRefl(s);
      s
    case Some((j, d)) =>
      DeletePortRun(s, j, d);
      CutKeepsMembers(s, j, d);
      assert LeftmostPort(s, tail, j, d);
      s[..j] + s[d..]
  }

  // ---------------------------------------------------------------------------
  // The fallback, line by line
  // ---------------------------------------------------------------------------

  function FixLine(line: string): (r: string)
    ensures !StartsWith(line, UriKey) ==> r == line
    ensures IsSubsequence(r, line) && WithoutPortChars(r) == WithoutPortChars(line)
    ensures forall c :: c in r ==> c in line
  {
    if StartsWith(line, UriKey) then
      var once := ReplaceFirstPort(line, DatabasePath);
      var twice := ReplaceFirstPort(once, QueryPath);
      SubsequenceTrans(twice, once, line);
      twice
    else
      SubsequenceRefl(line);
      line
  }

  function FixLines(lines: seq<string>): (r: seq<string>)
    ensures |r| == |lines|
    ensures forall i :: 0 <= i < |r| ==> r[i] == FixLine(lines[i])
  {
    seq(|lines|, i requires 0 <= i < |lines| => FixLine(lines[i]))
  }

  function ForceFix(file: Option<string>): (written: Option<string>)
    ensures file.None? ==> written.None?
    ensures written.Some? ==>
              && written.value != file.value
              && IsSubsequence(written.value, file.value)
              && WithoutPortChars(written.value) == WithoutPortChars(file.value)
              && Count(written.value, '\n') == Count(file.value, '\n')
    ensures file.Some? && (exists j :: 0 <= j < |file.value| && MatchAt(AnyAt, file.value, j).Some?) ==>
              written == Some(Rewrite(AnyAt, file.value))
  {
    match file
    case None => None
    case Some(content) =>
      var updated := Rewrite(AnyAt, content);
      if content != updated then
        CountOutsidePorts(updated, '\n');
        CountOutsidePorts(content, '\n');
        Some(updated)
      else
        var lines := Split(content, '\n');
        var fixedLines := FixLines(lines);
        var fixed := Join(fixedLines, '\n');
        JoinSplit(content, '\n');
        JoinKeepsDeletions(fixedLines, lines);
        CountOutsidePorts(fixed, '\n');
        CountOutsidePorts(content, '\n');
        if Join(lines, '\n') != fixed then Some(fixed) else None
  }

  /** Joining line by line deletions of port characters is a deletion of port characters of the join. */
  lemma {:induction false} JoinKeepsDeletions(a: seq<string>, b: seq<string>)
    requires |a| == |b|
    requires forall i :: 0 <= i < |a| ==> IsSubsequence(a[i], b[i]) && WithoutPortChars(a[i]) == WithoutPortChars(b[i])
    ensures IsSubsequence(Join(a, '\n'), Join(b, '\n'))
    ensures WithoutPortChars(Join(a, '\n')) == WithoutPortChars(Join(b, '\n'))
  {
    if |a| == 0 {
      SubsequenceRefl("");
    } else if |a| > 1 {
      JoinKeepsDeletions(a[1..], b[1..]);
      var ra, rb := Join(a[1..], '\n'), Join(b[1..], '\n');
      assert Join(a, '\n') == a[0] + ("\n" + ra);
      assert Join(b, '\n') == b[0] + ("\n" + rb);
      LineJoinKeepsDeletions(a[0], b[0], ra, rb);
    }
  }

  /** One line and a newline before the rest: deleting port characters in each part deletes them in the whole. */
  lemma LineJoinKeepsDeletions(x: string, y: string, ra: string, rb: string)
    requires IsSubsequence(x, y) && WithoutPortChars(x) == WithoutPortChars(y)
    requires IsSubsequence(ra, rb) && WithoutPortChars(ra) == WithoutPortChars(rb)
    ensures IsSubsequence(x + ("\n" + ra), y + ("\n" + rb))
    ensures WithoutPortChars(x + ("\n" + ra)) == WithoutPortChars(y + ("\n" + rb))
  {
    SubsequenceRefl("\n");
    SubsequenceAppend("\n", "\n", ra, rb);
    SubsequenceAppend(x, y, "\n" + ra, "\n" + rb);
    WithoutPortCharsAppend("\n", ra);
    WithoutPortCharsAppend("\n", rb);
    WithoutPortCharsAppend(x, "\n" + ra);
    WithoutPortCharsAppend(y, "\n" + rb);
  }

  /**
   * In the fallback the written file has the same lines as the original, and
   * every line that does not start with `MONGODB_URI=` is unchanged.
   */
  lemma {:induction false} FallbackKeepsOtherLines(content: string)
    requires Rewrite(AnyAt, content) == content
    requires ForceFix(Some(content)).Some?
    ensures var lines := Split(content, '\n');
            var written := Split(ForceFix(Some(content)).value, '\n');
            && |written| == |lines|
            && forall i :: 0 <= i < |lines| && !StartsWith(lines[i], UriKey) ==> written[i] == lines[i]
  {
    var lines := Split(content, '\n');
    var fixedLines := FixLines(lines);
    forall i | 0 <= i < |fixedLines| ensures '\n' !in fixedLines[i] {
      assert '\n' !in lines[i];
    }
    SplitJoin(fixedLines, '\n');
  }

  lemma SubsequenceTrans(a: string, b: string, c: string)
    requires IsSubsequence(a, b) && IsSubsequence(b, c)
    ensures IsSubsequence(a, c)
    decreases |c|
  {
    if a != [] && c != [] {
      if b[0] == c[0] && IsSubsequence(b[1..], c[1..]) {
        if a[0] == b[0] && IsSubsequence(a[1..], b[1..]) {
          SubsequenceTrans(a[1..], b[1..], c[1..]);
        } else {
          SubsequenceTrans(a, b[1..], c[1..]);
        }
      } else {
        SubsequenceTrans(a, b, c[1..]);
      }
    }
  }

  // ---------------------------------------------------------------------------
  // The first pass: the port after each `@host` goes
  // ---------------------------------------------------------------------------

  /** No position in `[from, to)` starts an `@host:port` match. */
  predicate NoAtMatchIn(s: string, from: nat, to: nat) {
    forall j :: from <= j < to && j < |s| ==> AtMatch(s, j).None?
  }

  /** At an `@` followed by a host and `:port` (before `/`, `?` or the end), the scan's match is that port. */
  lemma AtMatchValue(s: string, a: nat, c: nat, d: nat)
    requires a < |s| && s[a] == '@' && PortShape(s, a, c, d)
    ensures MatchAt(AnyAt, s, a) == Some(PortMatch(c, d, MatchEnd(s, d)))
  {
    PortAfterComplete(s, a, c, d);
  }

  /**
   * From `n`, with the next match at the `@` at `a`: the scan copies up to
   * its `:`, drops the port, keeps the delimiter and resumes after it.
   */
  lemma AtReplaceThrough(s: string, n: nat, a: nat, c: nat, d: nat)
    requires n <= a < |s| && s[a] == '@' && PortShape(s, a, c, d)
    requires NoAtMatchIn(s, n, a)
    ensures var ms := MatchTable(AnyAt, s);
            var e := MatchEnd(s, d);
            Replace(ms, s, n) == s[n..c] + (s[d..e] + Replace(ms, s, e))
  {
    var ms := MatchTable(AnyAt, s);
    var e := MatchEnd(s, d);
    forall j | n <= j < a ensures ms[j].None? {
      assert ms[j] == AtMatch(s, j);
    }
    CopyUpTo(ms, s, n, a);
    AtMatchValue(s, a, c, d);
    ReplaceAtMatch(ms, s, a);
    SlicesMeet(s, n, a, c);
    Assoc(s[n..a], s[a..c], s[d..e] + Replace(ms, s, e));
  }

  /** From `n`, with the last match at the `@` at `a`: the rest of the text loses exactly that port. */
  lemma AtReplaceLast(s: string, n: nat, a: nat, c: nat, d: nat)
    requires n <= a < |s| && s[a] == '@' && PortShape(s, a, c, d)
    requires NoAtMatchIn(s, n, a) && NoAtMatchIn(s, MatchEnd(s, d), |s|)
    ensures Replace(MatchTable(AnyAt, s), s, n) == s[n..c] + s[d..]
  {
    var ms := MatchTable(AnyAt, s);
    var e := MatchEnd(s, d);
    AtReplaceThrough(s, n, a, c, d);
    forall j | e <= j < |s| ensures ms[j].None? {
      assert ms[j] == AtMatch(s, j);
    }
    CopyToEnd(ms, s, e);
    SuffixMeets(s, d, e);
  }

  /**
   * fix_db_env_force.js's first pass removes the port after the host: when
   * the only match is at the `@` at `a`, with `:port` at `s[c..d]`, the file
   * is written back with exactly those characters cut out. A `:digits` run
   * before the `@` (a password) stays.
   */
  lemma AtPortRemoved(s: string, a: nat, c: nat, d: nat)
    requires a < |s| && s[a] == '@' && PortShape(s, a, c, d)
    requires NoAtMatchIn(s, 0, a) && NoAtMatchIn(s, MatchEnd(s, d), |s|)
    ensures ForceFix(Some(s)) == Some(s[..c] + s[d..])
  {
    AtMatchValue(s, a, c, d);
    AtReplaceLast(s, 0, a, c, d);
    assert s[0..c] == s[..c];
    assert |s[..c] + s[d..]| < |s|;
  }

  /** A file whose one `@` starts the match: no other position can match. */
  lemma OneAtPortRemoved(s: string, a: nat, c: nat, d: nat)
    requires a < |s| && s[a] == '@' && PortShape(s, a, c, d)
    requires forall j :: 0 <= j < |s| && j != a ==> s[j] != '@'
    ensures ForceFix(Some(s)) == Some(s[..c] + s[d..])
  {
    AtPortRemoved(s, a, c, d);
  }

  /** The example URI with a numeric password: `:123` stays and `:27017` goes. */
  lemma PasswordDigitsKept()
    ensures ForceFix(Some(PasswordUri)) == Some("mongodb+srv://u:123@h/")
  {
    PasswordUriShape();
    OneAtPortRemoved(PasswordUri, 19, 21, 27);
  }

  const PasswordUri := "mongodb+srv://u:123@h:27017/"

  lemma PasswordUriShape()
    ensures |PasswordUri| == 28 && PasswordUri[19] == '@' && PortShape(PasswordUri, 19, 21, 27)
    ensures forall j :: 0 <= j < |PasswordUri| && j != 19 ==> PasswordUri[j] != '@'
    ensures PasswordUri[..21] + PasswordUri[27..] == "mongodb+srv://u:123@h/"
  {
  }

  /**
   * The `g` flag: with two matches, at the `@`s at `a1` and `a2`, each loses
   * its own port (`s[c1..d1]` and `s[c2..d2]`) and nothing else changes.
   */
  lemma TwoAtPortsRemoved(s: string, a1: nat, c1: nat, d1: nat, a2: nat, c2: nat, d2: nat)
    requires a1 < |s| && s[a1] == '@' && PortShape(s, a1, c1, d1)
    requires a2 < |s| && s[a2] == '@' && PortShape(s, a2, c2, d2)
    requires MatchEnd(s, d1) <= a2
    requires NoAtMatchIn(s, 0, a1) && NoAtMatchIn(s, MatchEnd(s, d1), a2) && NoAtMatchIn(s, MatchEnd(s, d2), |s|)
    ensures ForceFix(Some(s)) == Some(s[..c1] + s[d1..c2] + s[d2..])
  {
    var e1 := MatchEnd(s, d1);
    AtMatchValue(s, a1, c1, d1);
    AtReplaceThrough(s, 0, a1, c1, d1);
    AtReplaceLast(s, e1, a2, c2, d2);
    RejoinTwo(s, c1, d1, e1, c2, d2);
  }

  // ---------------------------------------------------------------------------
  // The fallback at work
  // ---------------------------------------------------------------------------

  const LocalPrefix := "MONGODB_URI=mongodb://"

  /** Without an `@` the first regular expression cannot match. */
  lemma NoAtNoRewrite(s: string)
    requires '@' !in s
    ensures Rewrite(AnyAt, s) == s
  {
    forall j | 0 <= j < |s| ensures MatchAt(AnyAt, s, j).None? {
      assert s[j] != '@';
    }
  }

  /** A one-line file with no `@` goes straight to the fallback. */
  lemma OneLineFallback(s: string)
    requires '@' !in s && '\n' !in s
    ensures ForceFix(Some(s)) == if FixLine(s) != s then Some(FixLine(s)) else None
  {
    NoAtNoRewrite(s);
    assert Split(s, '\n') == [s];
    assert FixLines([s]) == [FixLine(s)];
  }

  /** In a local URI the only `:` before the port is the scheme's, followed by `/`. */
  lemma LocalPortIsLeftmost(host: string, port: string, s: string, j: nat, d: nat)
    requires host != [] && forall k :: 0 <= k < |host| ==> host[k] != ':'
    requires port != [] && forall k :: 0 <= k < |port| ==> IsDigit(port[k])
    requires s == LocalPrefix + host + ":" + port + DatabasePath
    requires PortBefore(s, DatabasePath, j, d)
    ensures j == |LocalPrefix| + |host| && d == j + 1 + |port|
  {
    var c := |LocalPrefix| + |host|;
    if j < |LocalPrefix| {
      assert s[j] == LocalPrefix[j];
      assert j == 19;
      assert s[20] == '/';
    }
    assert s[c + 1 + |port|] == '/';
    DigitsRunEnds(s, DatabasePath, j, DigitsEnd(s, j + 1), d);
  }

  /** The `/globetrotter` step cuts the port of a local URI. */
  lemma LocalPortCut(host: string, port: string)
    requires host != [] && forall k :: 0 <= k < |host| ==> host[k] != ':'
    requires port != [] && forall k :: 0 <= k < |port| ==> IsDigit(port[k])
    ensures ReplaceFirstPort(LocalPrefix + host + ":" + port + DatabasePath, DatabasePath)
            == LocalPrefix + host + DatabasePath
  {
    var s := LocalPrefix + host + ":" + port + DatabasePath;
    var c := |LocalPrefix| + |host|;
    var d := c + 1 + |port|;
    PortCutShape(LocalPrefix + host, port, DatabasePath);
    forall k: nat, e: nat | PortBefore(s, DatabasePath, k, e) ensures k == c && e == d {
      LocalPortIsLeftmost(host, port, s, k, e);
    }
    OnlyPortCut(s, DatabasePath, c, d);
  }

  /** A text with exactly one match loses exactly that match. */
  lemma OnlyPortCut(s: string, tail: string, c: nat, d: nat)
    requires PathTail(tail) && PortBefore(s, tail, c, d)
    requires forall k: nat, e: nat :: PortBefore(s, tail, k, e) ==> k == c && e == d
    ensures ReplaceFirstPort(s, tail) == s[..c] + s[d..]
  {
    var once := ReplaceFirstPort(s, tail);
    var j: nat, e: nat :| LeftmostPort(s, tail, j, e) && j <= e <= |s| && once == s[..j] + s[e..];
  }

  /** The pieces of `a + ":" + port + b`, where `port` is a run of digits. */
  lemma PortCutShape(a: string, port: string, b: string)
    requires port != [] && forall k :: 0 <= k < |port| ==> IsDigit(port[k])
    requires b != [] && !IsDigit(b[0])
    ensures var s := a + ":" + port + b;
            var c := |a|;
            var d := c + 1 + |port|;
            && s[..c] + s[d..] == a + b
            && PortBefore(s, b, c, d)
  {
    var s := a + ":" + port + b;
    var c := |a|;
    var d := c + 1 + |port|;
    assert s[..c] == a;
    assert s[d..] == b;
    assert s[d..d + |b|] == b;
    forall k | c < k < d ensures IsDigit(s[k]) {
      assert s[k] == port[k - c - 1];
    }
  }

  /** The `/?` step needs a `?`. */
  lemma NoQueryNoCut(s: string)
    requires '?' !in s
    ensures ReplaceFirstPort(s, QueryPath) == s
  {
    forall j: nat, d: nat | PortBefore(s, QueryPath, j, d) ensures d + 1 < |s| && s[d + 1] == '?' {
      QueryMarkAt(s, j, d);
    }
  }

  lemma QueryMarkAt(s: string, j: nat, d: nat)
    requires PortBefore(s, QueryPath, j, d)
    ensures s[d + 1] == '?'
  {
    assert s[d + 1] == s[d..d + 2][1];
  }

  /** A host name of a local URI: no `:`, `/`, `@`, `?` or line break. */
  predicate PlainHost(host: string) {
    host != [] && forall k :: 0 <= k < |host| ==> host[k] !in ":/@?\n"
  }

  lemma LocalUriChars(host: string, port: string)
    requires PlainHost(host)
    requires port != [] && forall k :: 0 <= k < |port| ==> IsDigit(port[k])
    ensures var s := LocalPrefix + host + ":" + port + DatabasePath;
            '@' !in s && '\n' !in s && StartsWith(s, UriKey) && '?' !in LocalPrefix + host + DatabasePath
  {
    LiteralChars();
    LocalPrefixKey();
    PlainHostChars(host);
    DigitsChars(port);
    var s := LocalPrefix + host + ":" + port + DatabasePath;
    assert s == LocalPrefix + (host + ":" + port + DatabasePath);
    PrefixStartsWith(LocalPrefix, host + ":" + port + DatabasePath, UriKey);
  }

  lemma LiteralChars()
    ensures '@' !in LocalPrefix && '\n' !in LocalPrefix && '?' !in LocalPrefix
    ensures '@' !in DatabasePath && '\n' !in DatabasePath && '?' !in DatabasePath
  {
    PrefixChars();
  }

  lemma PrefixChars()
    ensures '@' !in LocalPrefix && '\n' !in LocalPrefix && '?' !in LocalPrefix
  {
  }

  lemma LocalPrefixKey()
    ensures StartsWith(LocalPrefix, UriKey)
  {
    assert LocalPrefix[..|UriKey|] == UriKey;
  }

  lemma PlainHostChars(host: string)
    requires PlainHost(host)
    ensures '@' !in host && '\n' !in host && '?' !in host
  {
    forall k | 0 <= k < |host| ensures host[k] != '@' && host[k] != '\n' && host[k] != '?' {
      assert host[k] !in ":/@?\n";
    }
  }

  lemma DigitsChars(port: string)
    requires forall k :: 0 <= k < |port| ==> IsDigit(port[k])
    ensures '@' !in port && '\n' !in port && '?' !in port
  {
  }

  lemma PrefixStartsWith(a: string, b: string, key: string)
    requires StartsWith(a, key)
    ensures StartsWith(a + b, key)
  {
    assert (a + b)[..|key|] == a[..|key|];
  }

  /**
   * The fallback's purpose: `MONGODB_URI=mongodb://host:port/globetrotter`,
   * with no `@` for the first regular expression to find, loses its port.
   */
  lemma FallbackStripsLocalPort(host: string, port: string)
    requires PlainHost(host)
    requires port != [] && forall k :: 0 <= k < |port| ==> IsDigit(port[k])
    ensures var s := LocalPrefix + host + ":" + port + DatabasePath;
            ForceFix(Some(s)) == Some(LocalPrefix + host + DatabasePath)
  {
    var s := LocalPrefix + host + ":" + port + DatabasePath;
    var t := LocalPrefix + host + DatabasePath;
    LocalUriChars(host, port);
    OneLineFallback(s);
    LocalPortCut(host, port);
    NoQueryNoCut(t);
    assert FixLine(s) == t;
    assert |t| < |s|;
  }
}

=== FILE: forgot_password_page.dfy ===
/**
 * The forgot-password page (app/forgot-password/page.js): sending the reset
 * code, submitting the new password, the resend countdown and its label.
 * A handler sees the page as it was rendered when the handler was created;
 * the state setters it calls take effect in order, the last one winning.
 */
module ForgotPasswordPage {
  import opened Wrappers
  import opened Text
  import opened PageReply
  import opened Store
  import ResetPasswordRoute

  datatype Status = Idle | Loading | Succeeded | Failed | Complete

  datatype Page = Page(
    step: int, email: string, otp: string, password: string, confirmPassword: string,
    status: Status, message: string, timer: int)

  const SentMessage := "Code sent! Check terminal/console."
  const SendFallback := "Something went wrong"
  const SendFailed := "Failed to send request"
  const Mismatch := "Passwords don't match"
  const ResetFallback := "Invalid code"
  const ResetFailed := "Failed to reset password"
  const ResendSeconds := 120
  const LoginPath := "/login"
  const LoginDelayMs := 3000

  /** The red box under the form: a message while the status is `error`. */
  predicate ErrorShown(p: Page) {
    p.message != "" && p.status == Failed
  }

  /** The green box: a message on step 2 while the status is anything but `error`. */
  predicate NoteShown(p: Page) {
    p.message != "" && p.step == 2 && p.status != Failed
  }

  // ---------------------------------------------------------------------------
  // handleSendCode
  // ---------------------------------------------------------------------------

  /** The `try`/`catch` part of the handler: the page the reply leaves behind before `finally`. */
  function SendResult(page: Page, outcome: Outcome): (p: Page)
    ensures p.email == page.email && p.otp == page.otp && p.password == page.password
    ensures p.status == Succeeded <==> outcome.Answered? && outcome.ok
    ensures p.status != Succeeded ==> p.status == Failed && p.step == page.step && p.timer == page.timer
    ensures p.status == Succeeded ==> p.step == 2 && p.timer == ResendSeconds && p.message == SentMessage
    ensures outcome.Answered? && !outcome.ok ==> p.message == MessageOr(outcome.message, SendFallback)
    ensures outcome.Threw? ==> p.message == SendFailed
  {
    match outcome
    case Answered(ok, message) =>
      if ok then page.(status := Succeeded, message := SentMessage, step := 2, timer := ResendSeconds)
      else page.(status := Failed, message := MessageOr(message, SendFallback))
    case Threw(_) => page.(status := Failed, message := SendFailed)
  }

  /**
   * The handler as written: `finally` tests the `status` of the render that
   * created the handler, not the one the reply just set, so coming from any
   * status but `error` it always ends in `idle`.
   */
  function SendCode(page: Page, outcome: Outcome): (p: Page)
    ensures page.status != Failed ==> p.status == Idle
    ensures page.status == Failed ==> p.status == SendResult(page, outcome).status
    ensures p == SendResult(page, outcome).(status := p.status)
  {
    var after := SendResult(page, outcome);
    if page.status != Failed then after.(status := Idle) else after
  }

  /** The handler as its comment means it: reset to `idle` unless this attempt failed. */
  function SendCodeIntended(page: Page, outcome: Outcome): (p: Page)
    ensures p.status == Failed <==> !(outcome.Answered? && outcome.ok)
    ensures p.status != Failed ==> p.status == Idle
    ensures p == SendResult(page, outcome).(status := p.status)
  {
    var after := SendResult(page, outcome);
    if after.status != Failed then after.(status := Idle) else after
  }

  /** As written, a failed send on step 1 shows nothing: no red box (status `idle`) and no green box (step 1). */
  lemma SendFailureHidden(page: Page, outcome: Outcome)
    requires page.step == 1 && page.status == Idle
    requires !(outcome.Answered? && outcome.ok)
    ensures SendCode(page, outcome).message != ""
    ensures !ErrorShown(SendCode(page, outcome)) && !NoteShown(SendCode(page, outcome))
  {
  }

  /** As written, a failed resend on step 2 shows its error in the green box. */
  lemma ResendFailureShownAsNote(page: Page, outcome: Outcome)
    requires page.step == 2 && page.status == Idle
    requires !(outcome.Answered? && outcome.ok)
    ensures NoteShown(SendCode(page, outcome)) && !ErrorShown(SendCode(page, outcome))
  {
  }

  /** The intended handler shows every failure in the red box, and a success in neither box's error form. */
  lemma IntendedSendReportsFailure(page: Page, outcome: Outcome)
    ensures !(outcome.Answered? && outcome.ok) ==> ErrorShown(SendCodeIntended(page, outcome))
    ensures outcome.Answered? && outcome.ok ==>
              NoteShown(SendCodeIntended(page, outcome)) && SendCodeIntended(page, outcome).message == SentMessage
  {
  }

  /** Where the two agree: a success, or any reply after an earlier `error` render. */
  lemma SendCodeAgrees(page: Page, outcome: Outcome)
    requires (outcome.Answered? && outcome.ok && page.status != Failed) || (!(outcome.Answered? && outcome.ok) && page.status == Failed)
    ensures SendCode(page, outcome) == SendCodeIntended(page, outcome)
  {
  }

  // ---------------------------------------------------------------------------
  // handleResetPassword
  // ---------------------------------------------------------------------------

  /** The request the handler sends, if any: none when the two passwords differ. */
  function ResetRequest(page: Page): (q: Option<ResetPasswordRoute.ResetBody>)
    ensures q.None? <==> page.password != page.confirmPassword
    ensures q.Some? ==> q.value.email == Some(page.email) && q.value.code == Some(page.otp)
                        && q.value.newPassword == Some(page.password)
  {
    if page.password != page.confirmPassword then None
    else Some(ResetPasswordRoute.ResetBody(Some(page.email), Some(page.otp), Some(page.password)))
  }

  /** The page after the handler, and the delayed navigation it schedules, if any. */
  function ResetPassword(page: Page, outcome: Outcome): (r: (Page, Option<(string, nat)>))
    ensures page.password != page.confirmPassword ==>
              r.0 == page.(status := Failed, message := Mismatch) && r.1.None?
    ensures page.password == page.confirmPassword ==>
              && (r.0.status == Complete <==> outcome.Answered? && outcome.ok)
              && (r.0.status != Complete ==> r.0.status == Failed)
              && (outcome.Answered? && !outcome.ok ==> r.0.message == MessageOr(outcome.message, ResetFallback))
              && (outcome.Threw? ==> r.0.message == ResetFailed)
    ensures r.1.Some? <==> r.0.status == Complete
    ensures r.1.Some? ==> r.1.value == (LoginPath, LoginDelayMs) && r.0.message == page.message
    ensures r.0.step == page.step && r.0.timer == page.timer
  {
    if page.password != page.confirmPassword then
      (page.(status := Failed, message := Mismatch), None)
    else
      match outcome
      case Answered(ok, message) =>
        if ok then (page.(status := Complete), Some((LoginPath, LoginDelayMs)))
        else (page.(status := Failed, message := MessageOr(message, ResetFallback)), None)
      case Threw(_) => (page.(status := Failed, message := ResetFailed), None)
  }

  /** The reset route's reply for the page's request decides the page's outcome. */
  lemma ResetFollowsRoute(page: Page, s: Store)
    requires page.password == page.confirmPassword
    requires page.email != "" && page.otp != "" && page.password != ""
    ensures var reply := ResetPasswordRoute.ResetPassword(ResetRequest(page).value, s);
            var after := ResetPassword(page, Answer(reply)).0;
            && (after.status == Complete <==> ResetPasswordRoute.CodeAccepted(ResetRequest(page).value, s))
            && (after.status != Complete ==> ErrorShown(after) && after.message == "Invalid code")
  {
  }

  // ---------------------------------------------------------------------------
  // The resend countdown
  // ---------------------------------------------------------------------------

  /** One interval tick: while the timer is positive it counts down by one each second. */
  function Tick(timer: int): (t: int)
    ensures timer > 0 ==> t == timer - 1
    ensures timer <= 0 ==> t == timer
  {
    if timer > 0 then timer - 1 else timer
  }

  /** The timer after `k` seconds. */
  function Elapse(timer: int, k: nat): int {
    if k == 0 then timer else Elapse(Tick(timer), k - 1)
  }

  predicate ResendDisabled(p: Page) {
    p.timer > 0 || p.status == Loading
  }

  /** After `k` seconds a non-negative timer has dropped by `k`, stopping at zero. */
  lemma {:induction false} ElapseCountsDown(timer: int, k: nat)
    requires timer >= 0
    ensures Elapse(timer, k) == if k <= timer then timer - k else 0
  {
    if k > 0 {
      ElapseCountsDown(Tick(timer), k - 1);
    }
  }

  /** After a successful send, the resend button stays disabled for exactly two minutes, as written and as intended. */
  lemma ResendLockedTwoMinutes(page: Page, outcome: Outcome, k: nat)
    requires outcome.Answered? && outcome.ok
    ensures var sent := SendCode(page, outcome);
            ResendDisabled(sent.(timer := Elapse(sent.timer, k))) <==> k < ResendSeconds
    ensures var sent := SendCodeIntended(page, outcome);
            ResendDisabled(sent.(timer := Elapse(sent.timer, k))) <==> k < ResendSeconds
  {
    ElapseCountsDown(ResendSeconds, k);
  }

  /** `${Math.floor(t / 60)}:${(t % 60).toString().padStart(2, '0')}` for the non-negative timer. */
  function Countdown(t: nat): string {
    Decimal(t / 60) + ":" + PadStart2(Decimal(t % 60))
  }

  /** The resend button's label. */
  function ResendLabel(timer: int): (text: string)
    ensures timer <= 0 ==> text == "Resend Code"
    ensures timer > 0 ==> text == "Resend Code in " + Countdown(timer)
  {
    if timer > 0 then "Resend Code in " + Countdown(timer) else "Resend Code"
  }

  /** The seconds part always has two digits. */
  lemma {:induction false} SecondsTwoDigits(t: nat)
    ensures |PadStart2(Decimal(t % 60))| == 2 && AllDigits(PadStart2(Decimal(t % 60)))
    ensures ParseDigits(PadStart2(Decimal(t % 60))) == t % 60
  {
    var sec := t % 60;
    ParseDecimal(sec);
    if sec < 10 {
      DecimalLength(sec, 1);
      ParseLeadingZero(Decimal(sec));
    } else {
      assert Pow10(1) == 10 && Pow10(2) == 100;
      DecimalLength(sec, 2);
    }
  }

  /** Reading the label back as minutes and seconds gives the timer. */
  lemma {:induction false} CountdownReadBack(t: nat)
    ensures var parts := Split(Countdown(t), ':');
            && |parts| == 2 && AllDigits(parts[0]) && AllDigits(parts[1]) && |parts[1]| == 2
            && ParseDigits(parts[0]) * 60 + ParseDigits(parts[1]) == t
  {
    var m, s := Decimal(t / 60), PadStart2(Decimal(t % 60));
    SecondsTwoDigits(t);
    ParseDecimal(t / 60);
    NoColonInDigits(m);
    NoColonInDigits(s);
    SplitAtFirst(m, ':', s);
    assert Countdown(t) == m + [':'] + s;
  }

  lemma NoColonInDigits(s: string)
    requires AllDigits(s)
    ensures ':' !in s && Split(s, ':') == [s]
  {
  }

  /** Two minutes read `2:00`. */
  lemma FullTimerLabel()
    ensures ResendLabel(ResendSeconds) == "Resend Code in 2:00"
  {
    assert Decimal(2) == "2" && Decimal(0) == "0";
  }
}

=== FILE: forgot_password_route.dfy ===
/**
 * `POST /api/auth/forgot-password` (app/api/auth/forgot-password/route.js):
 * issue a 6-digit reset code for a registered e-mail, valid for 10 minutes.
 * `Math.random()` is the parameter `random`; the mail delivery, whose
 * failure is caught and ignored, is omitted.
 */
module ForgotPasswordRoute {
  import opened Wrappers
  import opened Text
  import opened UserModel
  import opened Store

  datatype ForgotBody = ForgotBody(email: Option<string>)

  /** Milliseconds a reset code stays valid: 10 minutes. */
  const ResetCodeLifetimeMs: nat := 10 * 60 * 1000

  const GenericReply := "If that email exists, a code has been sent."
  const CodeSentReply := "Code sent successfully"

  /** `Math.floor(100000 + Math.random() * 900000)`, with `Math.random()` in [0, 1). */
  function ResetCode(random: real): (n: nat)
    requires 0.0 <= random < 1.0
    ensures 100000 <= n <= 999999
  {
    (100000.0 + random * 900000.0).Floor
  }

  /** The code's `toString()` is six decimal digits that read back as the code. */
  lemma {:induction false} ResetCodeText(random: real)
    requires 0.0 <= random < 1.0
    ensures var text := Decimal(ResetCode(random));
            |text| == 6 && AllDigits(text) && ParseDigits(text) == ResetCode(random)
  {
    assert Pow10(5) == 100000 && Pow10(6) == 1000000;
    DecimalLength(ResetCode(random), 6);
    ParseDecimal(ResetCode(random));
  }

  /** The token written for a registered user: six digits. */
  predicate SixDigitCode(token: Option<string>) {
    token.Some? && |token.value| == 6 && AllDigits(token.value)
    && 100000 <= ParseDigits(token.value) <= 999999
  }

  function ForgotPassword(body: ForgotBody, s: Store, now: int, random: real): (r: Reply<()>)
    requires 0.0 <= random < 1.0
    ensures r.status in {200, 400}
    ensures r.status == 400 <==> !RequiredText(body.email)
    ensures r.status == 400 ==> r.message == "Email is required"
    ensures r.payload.None?
    ensures RequiredText(body.email) && FindUserByEmail(s.users, body.email.value).None? ==>
              r.store == s && r.message == GenericReply
    ensures r.status == 400 ==> r.store == s
    ensures RequiredText(body.email) && FindUserByEmail(s.users, body.email.value).Some? ==>
              var i := FindUserByEmail(s.users, body.email.value).value;
              && r.message == CodeSentReply
              && r.store == s.(users := r.store.users)
              && |r.store.users| == |s.users|
              && (forall k :: 0 <= k < |s.users| && k != i ==> r.store.users[k] == s.users[k])
              && r.store.users[i] == s.users[i].(resetPasswordToken := r.store.users[i].resetPasswordToken,
                                                  resetPasswordExpire := Some(now + 600000))
              && SixDigitCode(r.store.users[i].resetPasswordToken)
  {
    if !RequiredText(body.email) then
      Reply(400, "Email is required", None, s)
    else
      match FindUserByEmail(s.users, body.email.value)
      case None => Reply(200, GenericReply, None, s)
      case Some(i) =>
        var code := Decimal(ResetCode(random));
        ResetCodeText(random);
        var u := s.users[i].(resetPasswordToken := Some(code),
                             resetPasswordExpire := Some(now + ResetCodeLifetimeMs));
        Reply(200, CodeSentReply, None, s.(users := s.users[i := u]))
  }

  /** The token written is exactly the decimal text of the drawn code. */
  lemma IssuedCode(body: ForgotBody, s: Store, now: int, random: real)
    requires 0.0 <= random < 1.0
    requires RequiredText(body.email) && FindUserByEmail(s.users, body.email.value).Some?
    ensures var i := FindUserByEmail(s.users, body.email.value).value;
            ForgotPassword(body, s, now, random).store.users[i].resetPasswordToken
              == Some(Decimal(ResetCode(random)))
  {
  }

  /** A new request overwrites the code and expiry of an earlier one. */
  lemma {:induction false} ReissueOverwrites(body: ForgotBody, s: Store, t1: int, t2: int, r1: real, r2: real)
    requires 0.0 <= r1 < 1.0 && 0.0 <= r2 < 1.0
    requires RequiredText(body.email) && FindUserByEmail(s.users, body.email.value).Some?
    ensures var first := ForgotPassword(body, s, t1, r1).store;
            var second := ForgotPassword(body, first, t2, r2).store;
            var i := FindUserByEmail(s.users, body.email.value).value;
            && second.users[i].resetPasswordToken == Some(Decimal(ResetCode(r2)))
            && second.users[i].resetPasswordExpire == Some(t2 + ResetCodeLifetimeMs)
  {
    var first := ForgotPassword(body, s, t1, r1).store;
    var i := FindUserByEmail(s.users, body.email.value).value;
    ReplaceUserKeepsLookups(s.users, i, first.users[i], body.email.value, 0);
  }

  /** Every request with an e-mail gets status 200, whether or not the account exists. */
  lemma StatusHidesAccount(body: ForgotBody, s1: Store, s2: Store, now: int, random: real)
    requires 0.0 <= random < 1.0
    ensures ForgotPassword(body, s1, now, random).status == ForgotPassword(body, s2, now, random).status
  {
  }

  /**
   * The status hides whether the account exists but the message text does
   * not: the specific reply is given exactly to registered e-mails.
   */
  lemma MessageRevealsAccount(body: ForgotBody, s: Store, now: int, random: real)
    requires 0.0 <= random < 1.0
    requires RequiredText(body.email)
    ensures ForgotPassword(body, s, now, random).message == CodeSentReply <==>
              exists k :: 0 <= k < |s.users| && s.users[k].email == body.email.value
  {
  }

  lemma ForgotPreservesValid(body: ForgotBody, s: Store, now: int, random: real)
    requires 0.0 <= random < 1.0
    requires Valid(s)
    ensures Valid(ForgotPassword(body, s, now, random).store)
  {
    var r := ForgotPassword(body, s, now, random);
    if RequiredText(body.email) && FindUserByEmail(s.users, body.email.value).Some? {
      var i := FindUserByEmail(s.users, body.email.value).value;
      assert r.store.users == s.users[i := r.store.users[i]];
      ReplaceUserKeepsIndexes(s.users, i, r.store.users[i]);
    }
  }
}

=== FILE: itinerary_model.dfy ===
/**
 * The ItineraryItem schema (models/ItineraryItem.js): required fields, the
 * `type` and `status` enumerations and the defaults filled in on creation.
 * No handler of this model creates items; the schema is stated on its own.
 */
module ItineraryModel {
  import opened Wrappers
  import opened UserModel

  datatype ItemType = Activity | Transport | Stay | Food | Visiting
  datatype ItemStatus = Planned | Booked | Done

  function TypeName(t: ItemType): string {
    match t
    case Activity => "activity"
    case Transport => "transport"
    case Stay => "stay"
    case Food => "food"
    case Visiting => "visiting"
  }

  function StatusName(s: ItemStatus): string {
    match s
    case Planned => "planned"
    case Booked => "booked"
    case Done => "done"
  }

  /** The enum validator of `type`. */
  function ParseType(s: string): (r: Option<ItemType>)
    ensures r.Some? <==> s in {"activity", "transport", "stay", "food", "visiting"}
  {
    if s == "activity" then Some(Activity)
    else if s == "transport" then Some(Transport)
    else if s == "stay" then Some(Stay)
    else if s == "food" then Some(Food)
    else if s == "visiting" then Some(Visiting)
    else None
  }

  /** The enum validator of `status`. */
  function ParseStatus(s: string): (r: Option<ItemStatus>)
    ensures r.Some? <==> s in {"planned", "booked", "done"}
  {
    if s == "planned" then Some(Planned)
    else if s == "booked" then Some(Booked)
    else if s == "done" then Some(Done)
    else None
  }

  lemma {:induction false} EnumRoundTrips(t: ItemType, st: ItemStatus, s: string)
    ensures ParseType(TypeName(t)) == Some(t)
    ensures ParseType(s) == Some(t) ==> s == TypeName(t)
    ensures ParseStatus(StatusName(st)) == Some(st)
    ensures ParseStatus(s) == Some(st) ==> s == StatusName(st)
  {
    match t
    case Activity =>
    case Transport =>
    case Stay =>
    case Food =>
    case Visiting =>
  }

  datatype Location = Location(
    name: Option<string>, address: Option<string>, lat: Option<real>, lng: Option<real>)

  datatype ItineraryItem = ItineraryItem(
    id: nat,
    tripId: TripId,
    day: real,
    itemType: ItemType,
    title: string,
    description: Option<string>,
    location: Option<Location>,
    startTime: Option<string>,
    endTime: Option<string>,
    cost: real,
    currency: string,
    status: ItemStatus)

  datatype ItemInput = ItemInput(
    tripId: Option<TripId>,
    day: Option<real>,
    itemType: Option<string>,
    title: Option<string>,
    description: Option<string>,
    location: Option<Location>,
    startTime: Option<string>,
    endTime: Option<string>,
    cost: Option<real>,
    currency: Option<string>,
    status: Option<string>)

  datatype ItemPath = TripIdPath | DayPath | TypePath | TitlePath | StatusPath

  function ItemErrors(input: ItemInput): set<ItemPath> {
    (if input.tripId.None? then {TripIdPath} else {})
    + (if input.day.None? then {DayPath} else {})
    + (if input.itemType.Some? && ParseType(input.itemType.value).None? then {TypePath} else {})
    + (if !RequiredText(input.title) then {TitlePath} else {})
    + (if input.status.Some? && ParseStatus(input.status.value).None? then {StatusPath} else {})
  }

  /**
   * `ItineraryItem.create(input)`: `tripId`, `day` and `title` are required,
   * `type` and `status` must name a member of their enumeration; `type`
   * defaults to activity, `cost` to 0, `currency` to USD and `status` to
   * planned. `day` and `cost` are not range-checked.
   */
  function CreateItem(id: nat, input: ItemInput): (r: Result<ItineraryItem, set<ItemPath>>)
    ensures r.Err? ==> r.error != {}
    ensures r.Ok? <==> && input.tripId.Some? && input.day.Some? && RequiredText(input.title)
                       && (input.itemType.Some? ==> ParseType(input.itemType.value).Some?)
                       && (input.status.Some? ==> ParseStatus(input.status.value).Some?)
    ensures r.Ok? ==> && Some(r.value.tripId) == input.tripId
                      && Some(r.value.day) == input.day
                      && Some(r.value.title) == input.title
                      && (input.itemType.None? ==> r.value.itemType == Activity)
                      && (input.itemType.Some? ==> TypeName(r.value.itemType) == input.itemType.value)
                      && r.value.cost == input.cost.GetOr(0.0)
                      && r.value.currency == input.currency.GetOr("USD")
                      && (input.status.None? ==> r.value.status == Planned)
                      && (input.status.Some? ==> StatusName(r.value.status) == input.status.value)
  {
    var errors := ItemErrors(input);
    if errors != {} then Err(errors)
    else
      var t := if input.itemType.Some? then ParseType(input.itemType.value).value else Activity;
      var st := if input.status.Some? then ParseStatus(input.status.value).value else Planned;
      EnumRoundTrips(t, st, input.itemType.GetOr(""));
      EnumRoundTrips(t, st, input.status.GetOr(""));
      Ok(ItineraryItem(id, input.tripId.value, input.day.value, t, input.title.value,
                       input.description, input.location, input.startTime, input.endTime,
                       input.cost.GetOr(0.0), input.currency.GetOr("USD"), st))
  }

  /** Negative days and negative or fractional costs are all accepted. */
  lemma NoRangeChecks(id: nat, trip: TripId)
    ensures var input := ItemInput(Some(trip), Some(-3.0), None, Some("Louvre"), None, None, None,
                                   None, Some(-12.5), None, None);
            CreateItem(id, input).Ok? && CreateItem(id, input).value.day == -3.0
            && CreateItem(id, input).value.cost == -12.5
  {
  }
}

=== FILE: otp_model.dfy ===
/**
 * The OTP schema (models/OTP.js): one pending sign-up per e-mail, holding
 * the code and the name and hashed password of the account to create. The
 * record is removed by the store's TTL index 300 seconds after `createdAt`.
 */
module OtpModel {
  import opened Wrappers
  import opened Passwords
  import opened UserModel

  /** Seconds after `createdAt` at which the TTL index expires a record. */
  const OtpTtlSeconds: nat := 300

  /** The pending account. The schema has no e-mail field here. */
  datatype PendingUser = PendingUser(name: Option<string>, password: Option<Digest>)

  datatype OtpRecord = OtpRecord(
    id: nat,
    email: string,
    otp: string,
    tempUserData: PendingUser,
    createdAt: int)   // milliseconds since the epoch

  datatype OtpPath = OtpEmailPath | OtpCodePath

  /**
   * `OTP.create(...)` at time `now`: `email` and `otp` are required and
   * `createdAt` defaults to the creation time.
   */
  function CreateOtp(id: nat, email: Option<string>, otp: Option<string>, pending: PendingUser,
                     createdAt: Option<int>, now: int)
    : (r: Result<OtpRecord, set<OtpPath>>)
    ensures r.Ok? <==> RequiredText(email) && RequiredText(otp)
    ensures r.Ok? ==> && Some(r.value.email) == email && Some(r.value.otp) == otp
                      && r.value.tempUserData == pending
                      && r.value.createdAt == createdAt.GetOr(now)
    ensures r.Err? ==> (OtpEmailPath in r.error <==> !RequiredText(email))
                       && (OtpCodePath in r.error <==> !RequiredText(otp))
  {
    var errors := (if RequiredText(email) then {} else {OtpEmailPath})
                  + (if RequiredText(otp) then {} else {OtpCodePath});
    if errors != {} then Err(errors)
    else Ok(OtpRecord(id, email.value, otp.value, pending, createdAt.GetOr(now)))
  }

  /**
   * The TTL monitor may delete a record once more than 300 s have passed
   * since `createdAt` (times in milliseconds).
   */
  predicate Expired(r: OtpRecord, now: int) {
    now > r.createdAt + OtpTtlSeconds * 1000
  }

  /**
   * One pass of the TTL monitor at time `now`: every expired record is
   * removed. Records carry their own `_id`, so the membership clauses pin
   * down which documents remain.
   */
  function SweepExpired(otps: seq<OtpRecord>, now: int): (r: seq<OtpRecord>)
    ensures forall k :: 0 <= k < |r| ==> r[k] in otps && !Expired(r[k], now)
    ensures forall o :: o in otps && !Expired(o, now) ==> o in r
    ensures |r| <= |otps|
  {
    if otps == [] then []
    else (if Expired(otps[0], now) then [] else [otps[0]]) + SweepExpired(otps[1..], now)
  }
}

=== FILE: page_reply.dfy ===
/**
 * How the client pages see a call to one of the API routes: `fetch` and
 * `res.json()` either produce an answer, or throw an error with a message.
 */
module PageReply {
  import opened Wrappers
  import opened Store

  /** The answer's `res.ok` flag and its JSON `message`, or the message of the thrown error. */
  datatype Outcome = Answered(ok: bool, message: Option<string>) | Threw(reason: string)

  /** A route's reply as the page sees it: `res.ok` is a 2xx status, and `data.message` is absent unless the text is sent under `message`. */
  function Answer<P>(reply: Reply<P>): (o: Outcome)
    ensures o.Answered?
    ensures o.message.Some? <==> reply.key == MessageKey
    ensures o.message.Some? ==> o.message.value == reply.message
    ensures o.ok <==> 200 <= reply.status < 300
  {
    Answered(200 <= reply.status < 300, if reply.key == MessageKey then Some(reply.message) else None)
  }

  /** `data.message || fallback`: an absent or empty message gives way to the fallback. */
  function MessageOr(message: Option<string>, fallback: string): (m: string)
    ensures m != "" || fallback == ""
    ensures message.Some? && message.value != "" ==> m == message.value
    ensures message.None? || message.value == "" ==> m == fallback
  {
    if message.Some? && message.value != "" then message.value else fallback
  }
}

=== FILE: passwords.dfy ===
/**
 * bcrypt, as the handlers use it through bcryptjs (`bcrypt.hash`,
 * `bcrypt.compare`). The library is foreign. What matters to the handlers is
 * which passwords `compare` accepts for a digest, and that is decided by
 * the key bcrypt's key schedule reads: the password's UTF-8 bytes followed
 * by a zero byte (the `$2a$`/`$2b$` salts), read cyclically, of which only
 * the first 72 bytes are used. A digest is represented by that key; salts,
 * cost factors and the digest's text are not modelled, and two different
 * keys are taken to give different digests.
 */
module Passwords {

  type Byte = b: int | 0 <= b < 256

  /** The number of key bytes bcrypt's key schedule reads (18 words of 4 bytes). */
  const KeyBytes := 72

  /** The UTF-8 encoding of one code point. */
  function CharUtf8(c: char): (bs: seq<Byte>)
    ensures 1 <= |bs| <= 4
    ensures c as int < 0x80 ==> bs == [c as int]
    ensures c as int >= 0x80 ==> forall i :: 0 <= i < |bs| ==> bs[i] >= 0x80
  {
    var n := c as int;
    if n < 0x80 then [n]
    else if n < 0x800 then [0xC0 + n / 0x40, 0x80 + n % 0x40]
    else if n < 0x10000 then [0xE0 + n / 0x1000, 0x80 + (n / 0x40) % 0x40, 0x80 + n % 0x40]
    else [0xF0 + n / 0x40000, 0x80 + (n / 0x1000) % 0x40, 0x80 + (n / 0x40) % 0x40, 0x80 + n % 0x40]
  }

  /** The UTF-8 encoding of a text, as bcryptjs converts the password. */
  function Utf8(s: string): (bs: seq<Byte>)
    ensures |bs| >= |s|
  {
    if s == [] then [] else CharUtf8(s[0]) + Utf8(s[1..])
  }

  /** The first `n` bytes of `b` repeated without end. */
  function Cycle(b: seq<Byte>, n: nat): (c: seq<Byte>)
    requires |b| > 0
    ensures |c| == n
    ensures n <= |b| ==> c == b[..n]
    ensures n > |b| ==> c[..|b|] == b
    decreases n
  {
    if n <= |b| then b[..n] else b + Cycle(b, n - |b|)
  }

  /** The key bytes bcrypt uses: the encoded password and a terminating zero, repeated, cut to 72 bytes. */
  function Key(plain: string): (k: seq<Byte>)
    ensures |k| == KeyBytes
    ensures |Utf8(plain)| >= KeyBytes ==> k == Utf8(plain)[..KeyBytes]
    ensures |Utf8(plain)| < KeyBytes ==> k[..|Utf8(plain)| + 1] == Utf8(plain) + [0]
  {
    var b := Utf8(plain) + [0];
    assert |Utf8(plain)| >= KeyBytes ==> b[..KeyBytes] == Utf8(plain)[..KeyBytes];
    Cycle(b, KeyBytes)
  }

  datatype Digest = Bcrypt(key: seq<Byte>)

  /** `bcrypt.hash(plain, salt)`. */
  function Hash(plain: string): Digest {
    Bcrypt(Key(plain))
  }

  /** `bcrypt.compare(plain, digest)`: the candidate's key is the digest's key. */
  predicate Matches(plain: string, d: Digest) {
    Key(plain) == d.key
  }

  /** Printable text without a zero character, every character one byte in UTF-8. */
  predicate PlainAscii(s: string) {
    forall i :: 0 <= i < |s| ==> 0 < s[i] as int < 0x80
  }

  lemma {:induction false} Utf8Append(a: string, b: string)
    ensures Utf8(a + b) == Utf8(a) + Utf8(b)
  {
    if a != [] {
      assert (a + b)[1..] == a[1..] + b;
      Utf8Append(a[1..], b);
    } else {
      assert a + b == b;
    }
  }

  /** An ASCII text is its own UTF-8 encoding, byte for character. */
  lemma {:induction false} AsciiUtf8(s: string)
    requires PlainAscii(s)
    ensures |Utf8(s)| == |s|
    ensures forall i :: 0 <= i < |s| ==> Utf8(s)[i] == s[i] as int
  {
    if s != [] {
      AsciiUtf8(s[1..]);
    }
  }

  /**
   * `compare` is exact on the passwords users type in practice: ASCII
   * passwords shorter than 72 characters are accepted for their own digest
   * and for no other.
   */
  lemma CompareHash(plain: string, other: string)
    requires PlainAscii(plain) && PlainAscii(other)
    requires |plain| < KeyBytes && |other| < KeyBytes
    ensures Matches(plain, Hash(other)) <==> plain == other
  {
    if Matches(plain, Hash(other)) {
      if |plain| <= |other| {
        ShortKeysEqual(plain, other);
      } else {
        ShortKeysEqual(other, plain);
      }
    }
  }

  /** Equal keys of two short ASCII passwords, the first no longer than the second, make them equal. */
  lemma ShortKeysEqual(p: string, q: string)
    requires PlainAscii(p) && PlainAscii(q)
    requires |p| <= |q| < KeyBytes
    requires Key(p) == Key(q)
    ensures p == q
  {
    AsciiUtf8(p);
    AsciiUtf8(q);
    var n := |p|;
    assert Key(p)[n] == (Utf8(p) + [0])[n] == 0 by {
      assert Key(p)[..n + 1] == Utf8(p) + [0];
    }
    assert Key(q)[..|q| + 1] == Utf8(q) + [0];
    assert n == |q|;
    forall i | 0 <= i < n ensures p[i] == q[i] {
      assert Key(p)[..n + 1][i] == Utf8(p)[i];
      assert Key(q)[..n + 1][i] == Utf8(q)[i];
    }
  }

  /** Only the first 72 bytes count: two passwords that agree on them are interchangeable. */
  lemma LongPasswordsCollide(prefix: string, x: string, y: string)
    requires |Utf8(prefix)| >= KeyBytes
    ensures Matches(prefix + x, Hash(prefix + y))
  {
    KeyOfLong(prefix, x);
    KeyOfLong(prefix, y);
  }

  lemma KeyOfLong(prefix: string, x: string)
    requires |Utf8(prefix)| >= KeyBytes
    ensures Key(prefix + x) == Utf8(prefix)[..KeyBytes]
  {
    Utf8Append(prefix, x);
    assert (Utf8(prefix) + Utf8(x))[..KeyBytes] == Utf8(prefix)[..KeyBytes];
  }
}

=== FILE: reset_password_route.dfy ===
/**
 * `PUT /api/auth/reset-password` (app/api/auth/reset-password/route.js):
 * accept the reset code stored on the account, replace the password and
 * clear the code. The expiry check is commented out in the handler, so the
 * stored expiry plays no part.
 */
module ResetPasswordRoute {
  import opened Wrappers
  import opened Text
  import opened Passwords
  import opened UserModel
  import opened Store
  import ForgotPasswordRoute

  datatype ResetBody = ResetBody(email: Option<string>, code: Option<string>, newPassword: Option<string>)

  predicate ResetFieldsPresent(body: ResetBody) {
    RequiredText(body.email) && RequiredText(body.code) && RequiredText(body.newPassword)
  }

  /** The code is accepted: the account exists and its stored token is the code. */
  predicate CodeAccepted(body: ResetBody, s: Store)
    requires ResetFieldsPresent(body)
  {
    var i := FindUserByEmail(s.users, body.email.value);
    i.Some? && s.users[i.value].resetPasswordToken == body.code
  }

  function ResetPassword(body: ResetBody, s: Store): (r: Reply<()>)
    ensures r.status in {200, 400}
    ensures r.payload.None?
    ensures !ResetFieldsPresent(body) ==> r.status == 400 && r.message == "Invalid Request"
    ensures ResetFieldsPresent(body) ==>
              (r.status == 200 <==> CodeAccepted(body, s))
              && (r.status == 400 ==> r.message == "Invalid code")
    ensures r.status == 400 ==> r.store == s
    ensures r.status == 200 ==>
              && ResetFieldsPresent(body) && CodeAccepted(body, s)
              && r.message == "Password updated successfully"
              && r.store == s.(users := r.store.users)
              && |r.store.users| == |s.users|
              && var i := FindUserByEmail(s.users, body.email.value).value;
                 var u := r.store.users[i];
                 && (forall k :: 0 <= k < |s.users| && k != i ==> r.store.users[k] == s.users[k])
                 && body.newPassword.Some? && (forall p :: Matches(p, u.password) <==> Key(p) == Key(body.newPassword.value))
                 && u.resetPasswordToken.None? && u.resetPasswordExpire.None?
                 && u == s.users[i].(password := u.password, resetPasswordToken := None,
                                     resetPasswordExpire := None)
  {
    if !ResetFieldsPresent(body) then
      Reply(400, "Invalid Request", None, s)
    else
      match FindUserByEmail(s.users, body.email.value)
      case None => Reply(400, "Invalid code", None, s)
      case Some(i) =>
        if s.users[i].resetPasswordToken != body.code then
          Reply(400, "Invalid code", None, s)
        else
          var u := s.users[i].(password := Hash(body.newPassword.value),
                               resetPasswordToken := None, resetPasswordExpire := None);
          Reply(200, "Password updated successfully", None, s.(users := s.users[i := u]))
  }

  /** A code works once: the same e-mail and code are refused afterwards, whatever the new password. */
  lemma {:induction false} ResetIsOneShot(body: ResetBody, again: ResetBody, s: Store)
    requires ResetPassword(body, s).status == 200
    requires again.email == body.email && again.code == body.code
    ensures ResetPassword(again, ResetPassword(body, s).store).status == 400
  {
    var r := ResetPassword(body, s);
    var i := FindUserByEmail(s.users, body.email.value).value;
    ReplaceUserKeepsLookups(s.users, i, r.store.users[i], body.email.value, 0);
    assert r.store.users == s.users[i := r.store.users[i]];
  }

  /** Acceptance does not depend on the stored expiry. */
  lemma {:induction false} ExpiryIgnored(body: ResetBody, s: Store, i: nat, expire: Option<int>)
    requires i < |s.users|
    ensures var t := s.(users := s.users[i := s.users[i].(resetPasswordExpire := expire)]);
            ResetPassword(body, t).status == ResetPassword(body, s).status
  {
    var u := s.users[i].(resetPasswordExpire := expire);
    if ResetFieldsPresent(body) {
      ReplaceUserKeepsLookups(s.users, i, u, body.email.value, 0);
    }
  }

  /** No length rule: a one-character password is accepted when the code is right. */
  lemma ShortPasswordAccepted(email: string, code: string, s: Store)
    requires email != "" && code != ""
    requires CodeAccepted(ResetBody(Some(email), Some(code), Some("x")), s)
    ensures ResetPassword(ResetBody(Some(email), Some(code), Some("x")), s).status == 200
  {
  }

  /** The code a forgot-password request issues resets the password of that account. */
  lemma {:induction false} IssuedCodeResets(email: string, newPassword: string, s: Store, now: int, random: real)
    requires 0.0 <= random < 1.0
    requires email != "" && newPassword != ""
    requires FindUserByEmail(s.users, email).Some?
    ensures var issued := ForgotPasswordRoute.ForgotPassword(ForgotPasswordRoute.ForgotBody(Some(email)), s, now, random);
            var code := Decimal(ForgotPasswordRoute.ResetCode(random));
            ResetPassword(ResetBody(Some(email), Some(code), Some(newPassword)), issued.store).status == 200
  {
    var issued := ForgotPasswordRoute.ForgotPassword(ForgotPasswordRoute.ForgotBody(Some(email)), s, now, random);
    var i := FindUserByEmail(s.users, email).value;
    ForgotPasswordRoute.IssuedCode(ForgotPasswordRoute.ForgotBody(Some(email)), s, now, random);
    ForgotPasswordRoute.ResetCodeText(random);
    ReplaceUserKeepsLookups(s.users, i, issued.store.users[i], email, 0);
    assert issued.store.users == s.users[i := issued.store.users[i]];
  }

  lemma ResetPreservesValid(body: ResetBody, s: Store)
    requires Valid(s)
    ensures Valid(ResetPassword(body, s).store)
  {
    var r := ResetPassword(body, s);
    if r.status == 200 {
      var i := FindUserByEmail(s.users, body.email.value).value;
      assert r.store.users == s.users[i := r.store.users[i]];
      ReplaceUserKeepsIndexes(s.users, i, r.store.users[i]);
    }
  }
}

=== FILE: signup_page.dfy ===
/**
 * The sign-up page (app/signup/page.js): the one-time-code input filter and
 * the two-step submit handler. Step 1 posts the form to the sign-up route;
 * step 2 posts the e-mail and code to the verify route.
 */
module SignupPage {
  import opened Wrappers
  import opened Text
  import opened UserModel
  import opened Store
  import opened PageReply
  import SignupRoute
  import VerifyOtpRoute

  // ---------------------------------------------------------------------------
  // `value.replace(/\D/g, '').slice(0, 6)`
  // ---------------------------------------------------------------------------

  const CodeLength := 6

  /** The digits of the text, in order. */
  function DigitsOf(s: string): (r: string)
    ensures AllDigits(r) && |r| <= |s|
    ensures AllDigits(s) ==> r == s
  {
    if s == [] then []
    else (if IsDigit(s[0]) then [s[0]] else []) + DigitsOf(s[1..])
  }

  function SanitizeCode(typed: string): (r: string)
    ensures AllDigits(r)
    ensures |r| == if |DigitsOf(typed)| < CodeLength then |DigitsOf(typed)| else CodeLength
    ensures r == DigitsOf(typed)[..|r|]
  {
    var digits := DigitsOf(typed);
    if |digits| <= CodeLength then digits else digits[..CodeLength]
  }

  /** Filtering an already filtered value changes nothing. */
  lemma SanitizeIdempotent(typed: string)
    ensures SanitizeCode(SanitizeCode(typed)) == SanitizeCode(typed)
  {
  }

  lemma {:induction false} DigitsOfAppend(a: string, b: string)
    ensures DigitsOf(a + b) == DigitsOf(a) + DigitsOf(b)
  {
    if a == [] {
      assert a + b == b;
    } else {
      assert (a + b)[1..] == a[1..] + b;
      DigitsOfAppend(a[1..], b);
    }
  }

  /** A space, dash or letter typed or pasted into the code is dropped wherever it stands. */
  lemma SeparatorIgnored(a: string, c: char, b: string)
    requires !IsDigit(c)
    ensures SanitizeCode(a + [c] + b) == SanitizeCode(a + b)
  {
    var d := DigitsOf(a + [c] + b);
    DigitsOfAppend(a + [c], b);
    DigitsOfAppend(a, [c]);
    DigitsOfAppend(a, b);
    assert DigitsOf([c]) == [];
    assert d == DigitsOf(a) + DigitsOf(b);
  }

  /** Of a longer run of digits only the first six are kept. */
  lemma LongCodeCut(typed: string)
    requires AllDigits(typed) && |typed| >= CodeLength
    ensures SanitizeCode(typed) == typed[..CodeLength]
  {
  }

  // ---------------------------------------------------------------------------
  // handleSubmit
  // ---------------------------------------------------------------------------

  datatype Form = Form(name: string, email: string, password: string)

  datatype Page = Page(step: int, error: string, loading: bool, otp: string)

  /** The request the handler sends from the page's current step. */
  datatype Request = SignupRequest(signup: SignupRoute.SignupBody) | VerifyRequest(verify: VerifyOtpRoute.VerifyBody)

  const SignupFallback := "Something went wrong"
  const VerifyFallback := "Invalid OTP"
  const RegisteredPath := "/login?registered=true"

  function RequestFor(page: Page, form: Form): (q: Request)
    ensures page.step == 1 <==> q.SignupRequest?
    ensures q.VerifyRequest? ==> q.verify == VerifyOtpRoute.VerifyBody(Some(form.email), Some(page.otp))
  {
    if page.step == 1 then SignupRequest(SignupRoute.SignupBody(Some(form.name), Some(form.email), Some(form.password)))
    else VerifyRequest(VerifyOtpRoute.VerifyBody(Some(form.email), Some(page.otp)))
  }

  /** The page after the reply, and where the router is sent, if anywhere. */
  function AfterSubmit(page: Page, outcome: Outcome): (r: (Page, Option<string>))
    ensures !r.0.loading && r.0.otp == page.otp
    ensures outcome.Answered? && outcome.ok ==> r.0.error == ""
    ensures page.step == 1 ==> r.1.None? && (r.0.step == 2 <==> outcome.Answered? && outcome.ok)
    ensures page.step == 1 && r.0.step != 2 ==> r.0.step == 1
    ensures page.step != 1 ==> r.0.step == page.step && (r.1.Some? <==> outcome.Answered? && outcome.ok)
    ensures r.1.Some? ==> r.1.value == RegisteredPath
    ensures outcome.Answered? && !outcome.ok ==>
              r.0.error == MessageOr(outcome.message, if page.step == 1 then SignupFallback else VerifyFallback)
              && r.0.error != ""
    ensures outcome.Threw? ==> r.0.error == outcome.reason
  {
    var cleared := page.(error := "", loading := false);
    match outcome
    case Threw(reason) => (cleared.(error := reason), None)
    case Answered(ok, message) =>
      if page.step == 1 then
        if ok then (cleared.(step := 2), None)
        else (cleared.(error := MessageOr(message, SignupFallback)), None)
      else
        if ok then (cleared, Some(RegisteredPath))
        else (cleared.(error := MessageOr(message, VerifyFallback)), None)
  }

  /**
   * The sign-up route creates the account at once and stores no one-time
   * code, so the page's second step cannot succeed: the verify route finds no
   * code for the e-mail and the page stays on step 2 with its message.
   */
  lemma {:induction false} SignupThenVerifyFails(form: Form, otp: string, s: Store, id1: UserId, id2: UserId)
    requires form.email != "" && otp != ""
    requires FindOtp(s.otps, form.email).None?
    requires SignupRoute.Signup(SignupRoute.SignupBody(Some(form.name), Some(form.email), Some(form.password)), s, id1).status == 201
    ensures var page := Page(1, "", true, otp);
            var signup := SignupRoute.Signup(RequestFor(page, form).signup, s, id1);
            var step2 := AfterSubmit(page, Answer(signup)).0;
            var verify := VerifyOtpRoute.VerifyOtp(RequestFor(step2, form).verify, signup.store, id2);
            var final := AfterSubmit(step2.(loading := true), Answer(verify));
            && step2.step == 2
            && verify.status == 400 && verify.message == VerifyOtpRoute.NotFoundMessage
            && final.0.step == 2 && final.0.error == VerifyOtpRoute.NotFoundMessage && final.1.None?
  {
    var page := Page(1, "", true, otp);
    var signup := SignupRoute.Signup(RequestFor(page, form).signup, s, id1);
    assert signup.store.otps == s.otps;
    var step2 := AfterSubmit(page, Answer(signup)).0;
    assert RequestFor(step2, form).verify == VerifyOtpRoute.VerifyBody(Some(form.email), Some(otp));
  }
}

=== FILE: signup_route.dfy ===
/**
 * `POST /api/auth/signup` (app/api/auth/signup/route.js): required fields,
 * rejection of an e-mail already registered, then direct creation of the
 * user with the hashed password. No OTP record is written.
 */
module SignupRoute {
  import opened Wrappers
  import opened Passwords
  import opened UserModel
  import opened Store

  datatype SignupBody = SignupBody(name: Option<string>, email: Option<string>, password: Option<string>)

  /** The leading text of a Mongoose validation error's message. */
  const UserValidationFailed := "User validation failed"

  predicate SignupFieldsPresent(body: SignupBody) {
    RequiredText(body.name) && RequiredText(body.email) && RequiredText(body.password)
  }

  /** The handler, with `newId` the ObjectId the driver assigns to a new document. */
  function Signup(body: SignupBody, s: Store, newId: UserId): (r: Reply<UserId>)
    ensures r.status in {201, 400, 422, 500}
    ensures r.status == 400 <==> !SignupFieldsPresent(body)
    ensures r.status == 400 ==> r.message == "Missing required fields"
    ensures r.status == 422 <==> SignupFieldsPresent(body) && FindUserByEmail(s.users, body.email.value).Some?
    ensures r.status == 422 ==> r.message == "User already exists with this email"
    ensures r.status == 500 ==> r.message == UserValidationFailed
    ensures r.status != 201 ==> r.store == s && r.payload.None?
    ensures r.status == 201 ==>
              && r.message == "User created successfully"
              && r.payload == Some(newId)
              && r.store == s.(users := r.store.users)
              && |r.store.users| == |s.users| + 1
              && r.store.users[..|s.users|] == s.users
              && var u := r.store.users[|s.users|];
                 && u.id == newId
                 && Some(u.name) == body.name
                 && Some(u.email) == body.email
                 && body.password.Some? && (forall p :: Matches(p, u.password) <==> Key(p) == Key(body.password.value))
                 && ValidUser(u)
  {
    if !SignupFieldsPresent(body) then
      Reply(400, "Missing required fields", None, s)
    else if FindUserByEmail(s.users, body.email.value).Some? then
      Reply(422, "User already exists with this email", None, s)
    else
      match CreateUser(newId, body.name, body.email, Some(Hash(body.password.value)))
      case Err(_) => Reply(500, UserValidationFailed, None, s)
      case Ok(u) =>
        assert (s.users + [u])[..|s.users|] == s.users;
        Reply(201, "User created successfully", Some(newId), s.(users := s.users + [u]))
  }

  /** Signup keeps the unique indexes, given a fresh id for the new document. */
  lemma SignupPreservesValid(body: SignupBody, s: Store, newId: UserId)
    requires Valid(s) && UserIdUnused(s, newId)
    ensures Valid(Signup(body, s, newId).store)
  {
    var r := Signup(body, s, newId);
    if r.status == 201 {
      var u := r.store.users[|s.users|];
      assert r.store.users == s.users + [u];
      AppendUserKeepsIndexes(s.users, u);
    }
  }

  /** Signing up is accepted exactly when the fields are present, the e-mail unused and the document valid. */
  lemma SignupAccepted(body: SignupBody, s: Store, newId: UserId)
    ensures Signup(body, s, newId).status == 201 <==>
              && SignupFieldsPresent(body)
              && (forall k :: 0 <= k < |s.users| ==> s.users[k].email != body.email.value)
              && CreateUser(newId, body.name, body.email, Some(Hash(body.password.value))).Ok?
  {
  }

  /** Once an account is created, signing up again with its e-mail is refused with 422. */
  lemma {:induction false} SecondSignupRejected(body: SignupBody, again: SignupBody, s: Store, id1: UserId, id2: UserId)
    requires Signup(body, s, id1).status == 201
    requires SignupFieldsPresent(again) && again.email == body.email
    ensures Signup(again, Signup(body, s, id1).store, id2).status == 422
  {
    var r := Signup(body, s, id1);
    var u := r.store.users[|s.users|];
    assert u.email == again.email.value;
    assert FindUserByEmail(r.store.users, again.email.value).Some?;
  }
}

=== FILE: store.dfy ===
/**
 * The database as the handlers see it: one sequence per collection, in
 * natural (insertion) order, so that `findOne` answers the first match. The
 * unique indexes of the schemas (user `_id` and `email`, OTP `email`, trip
 * `_id`) are the invariant `Valid`.
 */
module Store {
  import opened Wrappers
  import opened UserModel
  import opened OtpModel
  import opened TripModel
  import opened ItineraryModel

  datatype Notification = Notification(id: nat, userId: UserId)

  /** A chat message: only the fields that locate it. */
  datatype ChatMessage = ChatMessage(id: nat, tripId: TripId, sender: UserId)

  datatype Store = Store(
    users: seq<User>,
    otps: seq<OtpRecord>,
    trips: seq<Trip>,
    items: seq<ItineraryItem>,
    notifications: seq<Notification>,
    messages: seq<ChatMessage>)

  /** The JSON key that carries a reply's text: `message`, `error`, or none at all. */
  datatype TextKey = MessageKey | ErrorKey | NoText

  /**
   * What a handler returns: the HTTP status, the text of the JSON body, the
   * rest of the body, the store afterwards, and the key the text is sent
   * under (`message` unless a handler says otherwise).
   */
  datatype Reply<P> = Reply(status: nat, message: string, payload: Option<P>, store: Store,
                            key: TextKey := MessageKey)

  // ---------------------------------------------------------------------------
  // Unique indexes
  // ---------------------------------------------------------------------------

  predicate UniqueUserIds(users: seq<User>) {
    forall i, j :: 0 <= i < j < |users| ==> users[i].id != users[j].id
  }

  predicate UniqueEmails(users: seq<User>) {
    forall i, j :: 0 <= i < j < |users| ==> users[i].email != users[j].email
  }

  predicate UniqueOtpEmails(otps: seq<OtpRecord>) {
    forall i, j :: 0 <= i < j < |otps| ==> otps[i].email != otps[j].email
  }

  predicate UniqueTripIds(trips: seq<Trip>) {
    forall i, j :: 0 <= i < j < |trips| ==> trips[i].id != trips[j].id
  }

  predicate AllValidUsers(users: seq<User>) {
    forall i :: 0 <= i < |users| ==> ValidUser(users[i])
  }

  /** Every stored OTP record has the required e-mail and code. */
  predicate AllValidOtps(otps: seq<OtpRecord>) {
    forall i :: 0 <= i < |otps| ==> otps[i].email != "" && otps[i].otp != ""
  }

  /** The unique indexes hold and every stored user and OTP record passed schema validation. */
  predicate Valid(s: Store) {
    && UniqueUserIds(s.users)
    && UniqueEmails(s.users)
    && AllValidUsers(s.users)
    && UniqueOtpEmails(s.otps)
    && AllValidOtps(s.otps)
    && UniqueTripIds(s.trips)
  }

  predicate UserIdUnused(s: Store, id: UserId) {
    forall k :: 0 <= k < |s.users| ==> s.users[k].id != id
  }

  predicate TripIdUnused(s: Store, id: TripId) {
    forall k :: 0 <= k < |s.trips| ==> s.trips[k].id != id
  }

  // ---------------------------------------------------------------------------
  // Queries
  // ---------------------------------------------------------------------------

  /** The position of the first element the test accepts: `findOne` in natural order. */
  function FindFirst<T>(xs: seq<T>, test: T -> bool): (r: Option<nat>)
    ensures r.Some? ==> r.value < |xs| && test(xs[r.value])
    ensures r.Some? ==> forall k :: 0 <= k < r.value ==> !test(xs[k])
    ensures r.None? <==> forall k :: 0 <= k < |xs| ==> !test(xs[k])
  {
    if xs == [] then None
    else if test(xs[0]) then Some(0)
    else
      var rest := FindFirst(xs[1..], test);
      if rest.Some? then Some(rest.value + 1) else None
  }

  /** Replacing an element by one the test answers the same for leaves the first match where it was. */
  lemma {:induction false} ReplaceKeepsFirst<T>(xs: seq<T>, i: nat, x: T, test: T -> bool)
    requires i < |xs| && test(x) == test(xs[i])
    ensures FindFirst(xs[i := x], test) == FindFirst(xs, test)
  {
    if i > 0 {
      assert xs[i := x][1..] == xs[1..][i - 1 := x];
      ReplaceKeepsFirst(xs[1..], i - 1, x, test);
    } else {
      assert xs[i := x][1..] == xs[1..];
    }
  }

  function EmailIs(email: string): User -> bool {
    (u: User) => u.email == email
  }

  function IdIs(id: UserId): User -> bool {
    (u: User) => u.id == id
  }

  function OtpEmailIs(email: string): OtpRecord -> bool {
    (o: OtpRecord) => o.email == email
  }

  /** `User.findOne({ email })`: the position of the first user with that e-mail. */
  function FindUserByEmail(users: seq<User>, email: string): (r: Option<nat>)
    ensures r.Some? ==> r.value < |users| && users[r.value].email == email
    ensures r.Some? ==> forall k :: 0 <= k < r.value ==> users[k].email != email
    ensures r.None? <==> forall k :: 0 <= k < |users| ==> users[k].email != email
  {
    FindFirst(users, EmailIs(email))
  }

  /** `User.findById(id)`: the position of the first user with that id. */
  function FindUserById(users: seq<User>, id: UserId): (r: Option<nat>)
    ensures r.Some? ==> r.value < |users| && users[r.value].id == id
    ensures r.Some? ==> forall k :: 0 <= k < r.value ==> users[k].id != id
    ensures r.None? <==> forall k :: 0 <= k < |users| ==> users[k].id != id
  {
    FindFirst(users, IdIs(id))
  }

  /** `OTP.findOne({ email })`: the position of the first OTP record for that e-mail. */
  function FindOtp(otps: seq<OtpRecord>, email: string): (r: Option<nat>)
    ensures r.Some? ==> r.value < |otps| && otps[r.value].email == email
    ensures r.Some? ==> forall k :: 0 <= k < r.value ==> otps[k].email != email
    ensures r.None? <==> forall k :: 0 <= k < |otps| ==> otps[k].email != email
  {
    FindFirst(otps, OtpEmailIs(email))
  }

  /** Replacing a user by one with the same id and e-mail keeps the unique indexes. */
  lemma {:induction false} ReplaceUserKeepsIndexes(users: seq<User>, i: nat, u: User)
    requires UniqueUserIds(users) && UniqueEmails(users) && AllValidUsers(users)
    requires i < |users| && u.id == users[i].id && u.email == users[i].email
    requires ValidUser(u)
    ensures UniqueUserIds(users[i := u]) && UniqueEmails(users[i := u]) && AllValidUsers(users[i := u])
  {
    var r := users[i := u];
    forall a, b | 0 <= a < b < |r|
      ensures r[a].id != r[b].id && r[a].email != r[b].email
    {
      assert r[a].id == users[a].id && r[a].email == users[a].email;
      assert r[b].id == users[b].id && r[b].email == users[b].email;
    }
  }

  /** Appending a valid user with a fresh id and an unused e-mail keeps the unique indexes. */
  lemma {:induction false} AppendUserKeepsIndexes(users: seq<User>, u: User)
    requires UniqueUserIds(users) && UniqueEmails(users) && AllValidUsers(users)
    requires forall k :: 0 <= k < |users| ==> users[k].id != u.id
    requires forall k :: 0 <= k < |users| ==> users[k].email != u.email
    requires ValidUser(u)
    ensures UniqueUserIds(users + [u]) && UniqueEmails(users + [u]) && AllValidUsers(users + [u])
  {
    var r := users + [u];
    forall a, b | 0 <= a < b < |r|
      ensures r[a].id != r[b].id && r[a].email != r[b].email
    {
      assert r[a] == users[a];
      if b < |users| {
        assert r[b] == users[b];
      }
    }
  }

  /** `deleteOne({ _id })` on a known position. */
  function RemoveAt<T>(xs: seq<T>, i: nat): (r: seq<T>)
    requires i < |xs|
    ensures |r| == |xs| - 1
    ensures forall k :: 0 <= k < i ==> r[k] == xs[k]
    ensures forall k :: i <= k < |r| ==> r[k] == xs[k + 1]
  {
    xs[..i] + xs[i + 1..]
  }

  /** In a store whose OTP e-mails are unique, removing a record leaves none for its e-mail. */
  lemma {:induction false} RemoveOtpGone(otps: seq<OtpRecord>, i: nat)
    requires UniqueOtpEmails(otps) && i < |otps|
    ensures FindOtp(RemoveAt(otps, i), otps[i].email).None?
    ensures UniqueOtpEmails(RemoveAt(otps, i))
    ensures AllValidOtps(otps) ==> AllValidOtps(RemoveAt(otps, i))
  {
    var r := RemoveAt(otps, i);
    forall k | 0 <= k < |r|
      ensures r[k].email != otps[i].email
    {
      if k < i {
        assert r[k] == otps[k];
      } else {
        assert r[k] == otps[k + 1];
      }
    }
  }

  /** Replacing a user by one with the same id and e-mail leaves every lookup answering the same position. */
  lemma {:induction false} ReplaceUserKeepsLookups(users: seq<User>, i: nat, u: User, email: string, id: UserId)
    requires i < |users| && u.id == users[i].id && u.email == users[i].email
    ensures FindUserByEmail(users[i := u], email) == FindUserByEmail(users, email)
    ensures FindUserById(users[i := u], id) == FindUserById(users, id)
  {
    ReplaceUserKeepsEmailLookup(users, i, u, email);
    ReplaceUserKeepsIdLookup(users, i, u, id);
  }

  lemma ReplaceUserKeepsEmailLookup(users: seq<User>, i: nat, u: User, email: string)
    requires i < |users| && u.email == users[i].email
    ensures FindUserByEmail(users[i := u], email) == FindUserByEmail(users, email)
  {
    ReplaceKeepsFirst(users, i, u, EmailIs(email));
  }

  lemma ReplaceUserKeepsIdLookup(users: seq<User>, i: nat, u: User, id: UserId)
    requires i < |users| && u.id == users[i].id
    ensures FindUserById(users[i := u], id) == FindUserById(users, id)
  {
    ReplaceKeepsFirst(users, i, u, IdIs(id));
  }
}

=== FILE: text.dfy ===
/**
 * String helpers shared by the model: the character classes of JavaScript
 * regular expressions, `String.prototype.trim`, ASCII lower-casing, decimal
 * rendering of numbers, and `split`/`join` on a separator character.
 * Strings are sequences of characters. `JsLength` counts UTF-16 code units,
 * the unit of JavaScript's `length` and `maxlength`; everything else here
 * works one `char` at a time.
 */
module Text {

  /** `\d` in a JavaScript regular expression (ASCII digits only). */
  predicate IsDigit(c: char) {
    '0' <= c <= '9'
  }

  /** `\w` in a JavaScript regular expression: `[A-Za-z0-9_]`. */
  predicate IsWordChar(c: char) {
    ('a' <= c <= 'z') || ('A' <= c <= 'Z') || IsDigit(c) || c == '_'
  }

  predicate AllDigits(s: string) {
    forall i :: 0 <= i < |s| ==> IsDigit(s[i])
  }

  predicate AllWordChars(s: string) {
    forall i :: 0 <= i < |s| ==> IsWordChar(s[i])
  }

  predicate StartsWith(s: string, prefix: string) {
    |prefix| <= |s| && s[..|prefix|] == prefix
  }

  /** Number of occurrences of `c` in `s`. */
  function Count(s: string, c: char): (n: nat)
    ensures n <= |s|
    ensures n == 0 <==> c !in s
  {
    if s == [] then 0
    else (if s[0] == c then 1 else 0) + Count(s[1..], c)
  }

  /** Index of the first occurrence of `c` in `s`. */
  function FirstIndex(s: string, c: char): (i: nat)
    requires c in s
    ensures i < |s| && s[i] == c
    ensures c !in s[..i]
  {
    if s[0] == c then 0
    else
      assert c in s[1..] by {
        var j :| 0 <= j < |s| && s[j] == c;
        assert s[1..][j - 1] == c;
      }
      var k := FirstIndex(s[1..], c);
      assert s[..k + 1] == [s[0]] + s[1..][..k];
      k + 1
  }

  // ---------------------------------------------------------------------------
  // Characters removed by String.prototype.trim (WhiteSpace and LineTerminator)
  // ---------------------------------------------------------------------------

  predicate IsJsSpace(c: char) {
    c == '\t' || c == '\n' || c == '\U{000B}' || c == '\U{000C}' || c == '\r' || c == ' '
    || c == '\U{00A0}' || c == '\U{1680}' || ('\U{2000}' <= c <= '\U{200A}')
    || c == '\U{2028}' || c == '\U{2029}' || c == '\U{202F}' || c == '\U{205F}'
    || c == '\U{3000}' || c == '\U{FEFF}'
  }

  function TrimStart(s: string): (r: string)
    ensures |r| <= |s| && r == s[|s| - |r|..]
    ensures r == [] || !IsJsSpace(r[0])
    ensures forall i :: 0 <= i < |s| - |r| ==> IsJsSpace(s[i])
  {
    if s == [] || !IsJsSpace(s[0]) then s
    else TrimStart(s[1..])
  }

  function TrimEnd(s: string): (r: string)
    ensures |r| <= |s| && r == s[..|r|]
    ensures r == [] || !IsJsSpace(r[|r| - 1])
    ensures forall i :: |r| <= i < |s| ==> IsJsSpace(s[i])
  {
    if s == [] || !IsJsSpace(s[|s| - 1]) then s
    else TrimEnd(s[..|s| - 1])
  }

  /** `String.prototype.trim`: drop leading and trailing white space. */
  function Trim(s: string): (r: string)
    ensures |r| <= |s|
    ensures r == [] || (!IsJsSpace(r[0]) && !IsJsSpace(r[|r| - 1]))
  {
    TrimEnd(TrimStart(s))
  }

  /** Trimming twice is trimming once. */
  lemma TrimIdempotent(s: string)
    ensures Trim(Trim(s)) == Trim(s)
  {
    var t := Trim(s);
    assert TrimStart(t) == t;
    assert TrimEnd(t) == t;
  }

  // ---------------------------------------------------------------------------
  // ASCII lower-casing
  // ---------------------------------------------------------------------------

  function LowerChar(c: char): char {
    if 'A' <= c <= 'Z' then (c as int + 32) as char else c
  }

  /** `String.prototype.toLowerCase`, restricted to the ASCII letters. */
  function AsciiLower(s: string): (r: string)
    ensures |r| == |s|
    ensures forall i :: 0 <= i < |s| ==> r[i] == LowerChar(s[i])
  {
    seq(|s|, i requires 0 <= i < |s| => LowerChar(s[i]))
  }

  // ---------------------------------------------------------------------------
  // JavaScript string length (UTF-16 code units)
  // ---------------------------------------------------------------------------

  /** Code units of one character: characters beyond the BMP take a surrogate pair. */
  function Utf16Units(c: char): nat {
    if c as int > 0xFFFF then 2 else 1
  }

  /** `s.length` in JavaScript, which is what `maxlength`, `minlength` and `.length` measure. */
  function JsLength(s: string): (n: nat)
    ensures |s| <= n <= 2 * |s|
    ensures (forall i :: 0 <= i < |s| ==> Utf16Units(s[i]) == 1) ==> n == |s|
  {
    if s == [] then 0 else JsLength(s[..|s| - 1]) + Utf16Units(s[|s| - 1])
  }

  // ---------------------------------------------------------------------------
  // Decimal numbers: Number.prototype.toString() on non-negative integers
  // ---------------------------------------------------------------------------

  function DigitChar(d: nat): (c: char)
    requires d < 10
    ensures IsDigit(c)
  {
    ('0' as int + d) as char
  }

  function DigitValue(c: char): (d: nat)
    requires IsDigit(c)
    ensures d < 10
  {
    c as int - '0' as int
  }

  /** Decimal rendering of `n` without leading zeros. */
  function Decimal(n: nat): (r: string)
    ensures |r| >= 1 && AllDigits(r)
    ensures |r| > 1 ==> r[0] != '0'
  {
    if n < 10 then [DigitChar(n)]
    else Decimal(n / 10) + [DigitChar(n % 10)]
  }

  /** The value of a string of decimal digits (leading zeros allowed). */
  function ParseDigits(s: string): nat
    requires AllDigits(s)
  {
    if s == [] then 0
    else ParseDigits(s[..|s| - 1]) * 10 + DigitValue(s[|s| - 1])
  }

  lemma {:induction false} ParseDecimal(n: nat)
    ensures ParseDigits(Decimal(n)) == n
  {
    if n >= 10 {
      var r := Decimal(n);
      assert r[..|r| - 1] == Decimal(n / 10);
      ParseDecimal(n / 10);
    }
  }

  /** A leading zero does not change the value of a digit string. */
  lemma {:induction false} ParseLeadingZero(s: string)
    requires AllDigits(s)
    ensures ParseDigits("0" + s) == ParseDigits(s)
  {
    if s != [] {
      var t := "0" + s;
      assert t[..|t| - 1] == "0" + s[..|s| - 1];
      ParseLeadingZero(s[..|s| - 1]);
    }
  }

  function Pow10(k: nat): (p: nat)
    ensures p >= 1
  {
    if k == 0 then 1 else 10 * Pow10(k - 1)
  }

  /** A number has exactly `k` decimal digits when it lies in [10^(k-1), 10^k). */
  lemma {:induction false} DecimalLength(n: nat, k: nat)
    requires k >= 1 && (k == 1 || Pow10(k - 1) <= n) && n < Pow10(k)
    ensures |Decimal(n)| == k
  {
    if k > 1 {
      DecimalLength(n / 10, k - 1);
    } else {
      assert Pow10(1) == 10;
    }
  }

  /** `String.prototype.padStart(2, '0')`. */
  function PadStart2(s: string): (r: string)
    ensures |s| >= 2 ==> r == s
    ensures |s| == 1 ==> r == "0" + s
    ensures |s| == 0 ==> r == "00"
  {
    if |s| >= 2 then s else if |s| == 1 then "0" + s else "00"
  }

  // ---------------------------------------------------------------------------
  // split / join on one separator character
  // ---------------------------------------------------------------------------

  /** `String.prototype.split(sep)` for a one-character separator. */
  function Split(s: string, sep: char): (parts: seq<string>)
    ensures |parts| == Count(s, sep) + 1
    ensures forall i :: 0 <= i < |parts| ==> sep !in parts[i]
    decreases |s|
  {
    if sep !in s then [s]
    else
      var i := FirstIndex(s, sep);
      assert Count(s, sep) == Count(s[..i], sep) + 1 + Count(s[i + 1..], sep) by {
        CountSplit(s, i);
      }
      [s[..i]] + Split(s[i + 1..], sep)
  }

  lemma {:induction false} CountSplit(s: string, i: nat)
    requires i < |s|
    ensures Count(s, s[i]) == Count(s[..i], s[i]) + 1 + Count(s[i + 1..], s[i])
  {
    CountAppend(s[..i], s[i..], s[i]);
    assert s == s[..i] + s[i..];
    assert s[i..][1..] == s[i + 1..];
  }

  lemma {:induction false} CountAppend(a: string, b: string, c: char)
    ensures Count(a + b, c) == Count(a, c) + Count(b, c)
  {
    if a != [] {
      assert (a + b)[1..] == a[1..] + b;
      CountAppend(a[1..], b, c);
    } else {
      assert a + b == b;
    }
  }

  /** `Array.prototype.join(sep)`. */
  function Join(parts: seq<string>, sep: char): string
  {
    if |parts| == 0 then ""
    else if |parts| == 1 then parts[0]
    else parts[0] + [sep] + Join(parts[1..], sep)
  }

  /** Joining the pieces of a split restores the original text. */
  lemma {:induction false} JoinSplit(s: string, sep: char)
    ensures Join(Split(s, sep), sep) == s
    decreases |s|
  {
    if sep in s {
      var i := FirstIndex(s, sep);
      var rest := Split(s[i + 1..], sep);
      JoinSplit(s[i + 1..], sep);
      assert Split(s, sep) == [s[..i]] + rest;
      JoinCons(s[..i], rest, sep);
      SplitAround(s, i);
    }
  }

  lemma JoinCons(head: string, rest: seq<string>, sep: char)
    requires |rest| >= 1
    ensures Join([head] + rest, sep) == head + [sep] + Join(rest, sep)
  {
    assert ([head] + rest)[1..] == rest;
  }

  lemma SplitAround(s: string, i: nat)
    requires i < |s|
    ensures s == s[..i] + [s[i]] + s[i + 1..]
  {
  }

  /** Splitting the join of separator-free pieces gives the pieces back. */
  lemma {:induction false} SplitJoin(parts: seq<string>, sep: char)
    requires |parts| >= 1
    requires forall i :: 0 <= i < |parts| ==> sep !in parts[i]
    ensures Split(Join(parts, sep), sep) == parts
  {
    if |parts| > 1 {
      SplitJoinStep(parts, sep);
      SeparatorFreeTail(parts, sep);
      SplitJoin(parts[1..], sep);
      assert parts == [parts[0]] + parts[1..];
    }
  }

  lemma SplitJoinStep(parts: seq<string>, sep: char)
    requires |parts| > 1 && sep !in parts[0]
    ensures Split(Join(parts, sep), sep) == [parts[0]] + Split(Join(parts[1..], sep), sep)
  {
    assert Join(parts, sep) == parts[0] + [sep] + Join(parts[1..], sep);
    SplitAtFirst(parts[0], sep, Join(parts[1..], sep));
  }

  lemma SeparatorFreeTail(parts: seq<string>, sep: char)
    requires |parts| >= 1
    requires forall i :: 0 <= i < |parts| ==> sep !in parts[i]
    ensures forall i :: 0 <= i < |parts| - 1 ==> sep !in parts[1..][i]
  {
    forall i | 0 <= i < |parts| - 1 ensures sep !in parts[1..][i] {
      assert parts[1..][i] == parts[i + 1];
    }
  }

  lemma SplitAtFirst(a: string, sep: char, b: string)
    requires sep !in a
    ensures Split(a + [sep] + b, sep) == [a] + Split(b, sep)
  {
    var s := a + [sep] + b;
    FirstIndexAfter(a, sep, b);
    assert s[..|a|] == a;
    assert s[|a| + 1..] == b;
  }

  /** The first `c` of `a + [c] + b` is the one after `a` when `a` has none. */
  lemma FirstIndexAfter(a: string, c: char, b: string)
    requires c !in a
    ensures c in a + [c] + b && FirstIndex(a + [c] + b, c) == |a|
  {
    var s := a + [c] + b;
    assert s[|a|] == c;
    var i := FirstIndex(s, c);
    assert s[..|a|] == a;
  }
}

=== FILE: trip_model.dfy ===
/**
 * The Trip schema (models/Trip.js): bounds on the text fields, the
 * visibility enumeration and the defaults filled in by `Trip.create`.
 */
module TripModel {
  import opened Wrappers
  import opened Text
  import opened UserModel

  const TitleMaxLength: nat := 100
  const DescriptionMaxLength: nat := 500

  datatype Visibility = Private | Public | Shared

  /** The string stored for each visibility. */
  function VisibilityName(v: Visibility): string {
    match v
    case Private => "private"
    case Public => "public"
    case Shared => "shared"
  }

  /** The enum validator of `visibility`: only the three names are accepted. */
  function ParseVisibility(s: string): (r: Option<Visibility>)
    ensures r.Some? <==> s in {"private", "public", "shared"}
  {
    if s == "private" then Some(Private)
    else if s == "public" then Some(Public)
    else if s == "shared" then Some(Shared)
    else None
  }

  lemma {:induction false} VisibilityRoundTrip(v: Visibility, s: string)
    ensures ParseVisibility(VisibilityName(v)) == Some(v)
    ensures ParseVisibility(s) == Some(v) ==> s == VisibilityName(v)
  {
    match v
    case Private =>
    case Public =>
    case Shared =>
  }

  datatype Role = Planner | Visitor

  /**
   * An entry of `collaborators`. The schema declares bare user ids; the
   * account-deletion handler queries entries of the shape `{userId, role}`.
   * Both shapes are kept apart here.
   */
  datatype Collaborator = LegacyRef(id: UserId) | Member(userId: UserId, role: Role)

  datatype Destination = Destination(
    city: Option<string>, country: Option<string>,
    arrivalDate: Option<int>, departureDate: Option<int>)

  datatype Trip = Trip(
    id: TripId,
    userId: UserId,
    title: string,
    description: Option<string>,
    startDate: int,          // milliseconds since the epoch
    endDate: int,
    coverImage: string,
    visibility: Visibility,
    collaborators: seq<Collaborator>,
    budget: real,
    destinations: seq<Destination>)

  /** A date path as given to `create`: a timestamp, or a value the Date cast rejects. */
  datatype DateValue = ValidDate(ms: int) | InvalidDate

  datatype TripInput = TripInput(
    userId: Option<UserId>,
    title: Option<string>,
    description: Option<string>,
    startDate: Option<DateValue>,
    endDate: Option<DateValue>,
    coverImage: Option<string>,
    visibility: Option<string>,
    budget: Option<real>)

  datatype TripPath =
    UserIdPath | TitlePath | DescriptionPath | StartDatePath | EndDatePath | VisibilityPath

  predicate DateOk(d: Option<DateValue>) {
    d.Some? && d.value.ValidDate?
  }

  /** The title after the `trim` setter, when one was given. */
  function TrimmedTitle(t: Option<string>): Option<string> {
    if t.Some? then Some(Trim(t.value)) else None
  }

  /**
   * The failing paths of a new trip: `userId` required; `title` required and
   * at most 100 characters once trimmed; `description` at most 500; both
   * dates required and castable; `visibility` one of the enumeration. There
   * is no check relating the two dates.
   */
  function TripErrors(input: TripInput): set<TripPath> {
    var title := TrimmedTitle(input.title);
    (if input.userId.None? then {UserIdPath} else {})
    + (if !RequiredText(title) || JsLength(title.value) > TitleMaxLength then {TitlePath} else {})
    + (if input.description.Some? && JsLength(input.description.value) > DescriptionMaxLength
       then {DescriptionPath} else {})
    + (if !DateOk(input.startDate) then {StartDatePath} else {})
    + (if !DateOk(input.endDate) then {EndDatePath} else {})
    + (if input.visibility.Some? && ParseVisibility(input.visibility.value).None?
       then {VisibilityPath} else {})
  }

  predicate ValidTrip(t: Trip) {
    && t.title != ""
    && JsLength(t.title) <= TitleMaxLength
    && Trim(t.title) == t.title
    && (t.description.Some? ==> JsLength(t.description.value) <= DescriptionMaxLength)
  }

  /**
   * `Trip.create(input)`: trim the title, fill in the defaults (empty cover
   * image, private visibility, no collaborators, zero budget, no
   * destinations) and validate.
   */
  function CreateTrip(id: TripId, input: TripInput): (r: Result<Trip, set<TripPath>>)
    ensures r.Err? ==> r.error != {}
    ensures r.Ok? <==> && input.userId.Some?
                       && input.title.Some? && Trim(input.title.value) != ""
                       && JsLength(Trim(input.title.value)) <= TitleMaxLength
                       && (input.description.Some? ==> JsLength(input.description.value) <= DescriptionMaxLength)
                       && DateOk(input.startDate) && DateOk(input.endDate)
                       && (input.visibility.Some? ==> ParseVisibility(input.visibility.value).Some?)
    ensures r.Ok? ==> && r.value.id == id
                      && Some(r.value.userId) == input.userId
                      && r.value.title == Trim(input.title.value)
                      && r.value.description == input.description
                      && r.value.startDate == input.startDate.value.ms
                      && r.value.endDate == input.endDate.value.ms
                      && ValidTrip(r.value)
    ensures r.Ok? ==> && r.value.coverImage == input.coverImage.GetOr("")
                      && (input.visibility.None? ==> r.value.visibility == Private)
                      && (input.visibility.Some? ==>
                            VisibilityName(r.value.visibility) == input.visibility.value)
                      && r.value.collaborators == []
                      && r.value.budget == input.budget.GetOr(0.0)
                      && r.value.destinations == []
  {
    var errors := TripErrors(input);
    if errors != {} then Err(errors)
    else
      var visibility := if input.visibility.Some? then ParseVisibility(input.visibility.value).value
                        else Private;
      TrimIdempotent(input.title.value);
      VisibilityRoundTrip(visibility, input.visibility.GetOr(""));
      Ok(Trip(id, input.userId.value, Trim(input.title.value), input.description,
              input.startDate.value.ms, input.endDate.value.ms,
              input.coverImage.GetOr(""), visibility, [], input.budget.GetOr(0.0), []))
  }

  /** A trip may end before it starts: the schema accepts any two dates. */
  lemma DatesUnordered(id: TripId, owner: UserId, title: string)
    requires Trim(title) != "" && JsLength(Trim(title)) <= TitleMaxLength
    ensures var input := TripInput(Some(owner), Some(title), None, Some(ValidDate(2)),
                                   Some(ValidDate(1)), None, None, None);
            CreateTrip(id, input).Ok? && CreateTrip(id, input).value.endDate < CreateTrip(id, input).value.startDate
  {
  }
}

=== FILE: trips_route.dfy ===
/**
 * `GET` and `POST /api/trips` (app/api/trips/route.js): list the signed-in
 * user's own trips by start date, and create a trip owned by the user with
 * the placeholder cover image.
 */
module TripsRoute {
  import opened Wrappers
  import opened Text
  import opened UserModel
  import opened TripModel
  import opened Store

  // ---------------------------------------------------------------------------
  // GET
  // ---------------------------------------------------------------------------

  /** `Trip.find({ userId })`, in natural order. */
  function TripsOwnedBy(trips: seq<Trip>, uid: UserId): (r: seq<Trip>)
    ensures forall t :: t in r <==> t in trips && t.userId == uid
    ensures |r| <= |trips|
  {
    if trips == [] then []
    else (if trips[0].userId == uid then [trips[0]] else []) + TripsOwnedBy(trips[1..], uid)
  }

  predicate SortedByStart(ts: seq<Trip>) {
    forall i, j :: 0 <= i < j < |ts| ==> ts[i].startDate <= ts[j].startDate
  }

  /** Place `t` before the first trip that does not start earlier. */
  function InsertByStart(t: Trip, sorted: seq<Trip>): (r: seq<Trip>)
    ensures multiset(r) == multiset(sorted) + multiset{t}
  {
    if sorted == [] || t.startDate <= sorted[0].startDate then [t] + sorted
    else
      assert sorted == [sorted[0]] + sorted[1..];
      [sorted[0]] + InsertByStart(t, sorted[1..])
  }

  /** Every trip of `ts` starts no earlier than `d`. */
  predicate StartsFrom(ts: seq<Trip>, d: int) {
    forall k :: 0 <= k < |ts| ==> d <= ts[k].startDate
  }

  /** A sorted list stays sorted behind a trip that starts no later than all of it. */
  lemma ConsSorted(x: Trip, ts: seq<Trip>)
    requires SortedByStart(ts) && StartsFrom(ts, x.startDate)
    ensures SortedByStart([x] + ts)
  {
    var r := [x] + ts;
    forall i, j | 0 <= i < j < |r|
      ensures r[i].startDate <= r[j].startDate
    {
      assert r[j] == ts[j - 1];
      if i > 0 {
        assert r[i] == ts[i - 1];
      }
    }
  }

  lemma {:induction false} InsertSorted(t: Trip, sorted: seq<Trip>, d: int)
    requires SortedByStart(sorted) && StartsFrom(sorted, d) && d <= t.startDate
    ensures SortedByStart(InsertByStart(t, sorted))
    ensures StartsFrom(InsertByStart(t, sorted), d)
  {
    if sorted == [] || t.startDate <= sorted[0].startDate {
      assert StartsFrom(sorted, t.startDate) by {
        forall k | 0 <= k < |sorted| ensures t.startDate <= sorted[k].startDate {
          if k > 0 {
            assert sorted[0].startDate <= sorted[k].startDate;
          }
        }
      }
      ConsSorted(t, sorted);
    } else {
      var tail := sorted[1..];
      assert SortedByStart(tail) by {
        forall i, j | 0 <= i < j < |tail| ensures tail[i].startDate <= tail[j].startDate {
          assert tail[i] == sorted[i + 1] && tail[j] == sorted[j + 1];
        }
      }
      assert StartsFrom(tail, sorted[0].startDate) by {
        forall k | 0 <= k < |tail| ensures sorted[0].startDate <= tail[k].startDate {
          assert tail[k] == sorted[k + 1];
        }
      }
      InsertSorted(t, tail, sorted[0].startDate);
      ConsSorted(sorted[0], InsertByStart(t, tail));
    }
  }

  /** `.sort({ startDate: 1 })`: an insertion sort that keeps trips with equal start dates in natural order. */
  function SortByStart(ts: seq<Trip>): (r: seq<Trip>)
    ensures SortedByStart(r)
    ensures multiset(r) == multiset(ts)
  {
    if ts == [] then []
    else
      assert ts == [ts[0]] + ts[1..];
      var rest := SortByStart(ts[1..]);
      var d := if rest == [] then ts[0].startDate else Min(ts[0].startDate, rest[0].startDate);
      assert StartsFrom(rest, d) by {
        forall k | 0 <= k < |rest| ensures d <= rest[k].startDate {
          if k > 0 {
            assert rest[0].startDate <= rest[k].startDate;
          }
        }
      }
      InsertSorted(ts[0], rest, d);
      InsertByStart(ts[0], rest)
  }

  function Min(a: int, b: int): int {
    if a <= b then a else b
  }

  function ListTrips(session: Option<UserId>, s: Store): (r: Reply<seq<Trip>>)
    ensures r.status in {200, 401}
    ensures r.store == s
    ensures r.status == 401 <==> session.None?
    ensures r.status == 401 ==> r.message == "Unauthorized" && r.payload.None? && r.key == MessageKey
    ensures r.status == 200 ==>
              && r.payload.Some? && r.key == NoText
              && SortedByStart(r.payload.value)
              && (forall t :: t in r.payload.value <==> t in s.trips && t.userId == session.value)
  {
    match session
    case None => Reply(401, "Unauthorized", None, s)
    case Some(uid) =>
      var listed := SortByStart(TripsOwnedBy(s.trips, uid));
      assert forall t :: t in listed <==> t in multiset(TripsOwnedBy(s.trips, uid));
      Reply(200, "", Some(listed), s, NoText)
  }

  /** The list holds each owned trip as often as the store does. */
  lemma {:induction false} ListIsPermutation(uid: UserId, s: Store)
    ensures multiset(ListTrips(Some(uid), s).payload.value) == multiset(TripsOwnedBy(s.trips, uid))
  {
  }

  /** A trip the user only collaborates on is not listed. */
  lemma CollaborationsNotListed(uid: UserId, s: Store, t: Trip, role: Role)
    requires t in s.trips && t.userId != uid && Member(uid, role) in t.collaborators
    ensures t !in ListTrips(Some(uid), s).payload.value
  {
  }

  // ---------------------------------------------------------------------------
  // POST
  // ---------------------------------------------------------------------------

  /** A date field of the request: its JSON text (for the falsy test) and the result of the Date cast. */
  datatype RequestDate = RequestDate(text: string, cast: DateValue)

  datatype TripBody = TripBody(
    title: Option<string>, startDate: Option<RequestDate>, endDate: Option<RequestDate>,
    description: Option<string>)

  const PlaceholderCover :=
    "https://images.unsplash.com/photo-1476514525535-07fb3b4ae5f1?auto=format&fit=crop&w=800&q=80"

  predicate DatePresent(d: Option<RequestDate>) {
    d.Some? && d.value.text != ""
  }

  predicate TripFieldsPresent(body: TripBody) {
    RequiredText(body.title) && DatePresent(body.startDate) && DatePresent(body.endDate)
  }

  /** The document handed to `Trip.create`: only these fields are taken from the request. */
  function CreateInput(uid: UserId, body: TripBody): TripInput
    requires TripFieldsPresent(body)
  {
    TripInput(Some(uid), body.title, body.description, Some(body.startDate.value.cast),
              Some(body.endDate.value.cast), Some(PlaceholderCover), None, None)
  }

  function PostTrip(session: Option<UserId>, body: TripBody, s: Store, newId: TripId): (r: Reply<Trip>)
    ensures r.status in {201, 400, 401, 500}
    ensures r.status == 401 <==> session.None?
    ensures r.status == 401 ==> r.message == "Unauthorized"
    ensures r.status == 400 <==> session.Some? && !TripFieldsPresent(body)
    ensures r.status == 400 ==> r.message == "Missing required fields"
    ensures r.status == 500 <==> session.Some? && TripFieldsPresent(body)
                                 && CreateTrip(newId, CreateInput(session.value, body)).Err?
    ensures r.status == 500 ==> r.message == "Internal Server Error"
    ensures r.status != 201 ==> r.store == s && r.payload.None?
    ensures r.status == 201 ==>
              && r.message == "Trip created"
              && r.payload.Some?
              && var t := r.payload.value;
                 && r.store == s.(trips := s.trips + [t])
                 && t.id == newId
                 && Some(t.userId) == session
                 && t.coverImage == PlaceholderCover
                 && t.title == Trim(body.title.value)
                 && t.description == body.description
                 && t.visibility == Private && t.collaborators == [] && t.budget == 0.0
                 && t.destinations == []
                 && body.startDate.value.cast == ValidDate(t.startDate)
                 && body.endDate.value.cast == ValidDate(t.endDate)
                 && ValidTrip(t)
  {
    if session.None? then Reply(401, "Unauthorized", None, s)
    else if !TripFieldsPresent(body) then Reply(400, "Missing required fields", None, s)
    else
      match CreateTrip(newId, CreateInput(session.value, body))
      case Err(_) => Reply(500, "Internal Server Error", None, s)
      case Ok(t) => Reply(201, "Trip created", Some(t), s.(trips := s.trips + [t]))
  }

  /** The start date need not precede the end date. */
  lemma {:induction false} EndBeforeStartAccepted(uid: UserId, title: string, s: Store, newId: TripId)
    requires Trim(title) != "" && JsLength(Trim(title)) <= TitleMaxLength
    ensures var body := TripBody(Some(title), Some(RequestDate("2025-02-01", ValidDate(2))),
                                 Some(RequestDate("2025-01-01", ValidDate(1))), None);
            var r := PostTrip(Some(uid), body, s, newId);
            r.status == 201 && r.payload.value.endDate < r.payload.value.startDate
  {
    var body := TripBody(Some(title), Some(RequestDate("2025-02-01", ValidDate(2))),
                         Some(RequestDate("2025-01-01", ValidDate(1))), None);
    assert TripFieldsPresent(body);
    var created := CreateTrip(newId, CreateInput(uid, body));
    assert created.Ok?;
    assert created.value.startDate == 2 && created.value.endDate == 1;
  }

  /** A created trip is listed for its owner. */
  lemma {:induction false} CreatedTripListed(uid: UserId, body: TripBody, s: Store, newId: TripId)
    requires PostTrip(Some(uid), body, s, newId).status == 201
    ensures var r := PostTrip(Some(uid), body, s, newId);
            r.payload.value in ListTrips(Some(uid), r.store).payload.value
  {
    var r := PostTrip(Some(uid), body, s, newId);
    assert r.payload.value in r.store.trips;
  }

  lemma PostPreservesValid(session: Option<UserId>, body: TripBody, s: Store, newId: TripId)
    requires Valid(s) && TripIdUnused(s, newId)
    ensures Valid(PostTrip(session, body, s, newId).store)
  {
    var r := PostTrip(session, body, s, newId);
    if r.status == 201 {
      AppendTripKeepsIds(s.trips, r.payload.value);
    }
  }

  lemma AppendTripKeepsIds(trips: seq<Trip>, t: Trip)
    requires UniqueTripIds(trips)
    requires forall k :: 0 <= k < |trips| ==> trips[k].id != t.id
    ensures UniqueTripIds(trips + [t])
  {
  }
}

=== FILE: uri_port.dfy ===
/**
 * The port-stripping regular expressions of the two `.env.local` repair
 * scripts (fix_db_env.js and fix_db_env_force.js), as a scan over the text:
 *
 *   SrvUri:  /(mongodb\+srv:\/\/[^@]+@[^:\/]+)(:\d+)(\/|\?|$)/g  → p1 + p3
 *   AnyAt:   /(@[^:\/]+):(\d+)([\/\?]|$)/g                        → '$1$3'
 *
 * Both end in the same tail: after an `@`, a host of characters other than
 * `:` and `/`, then `:`, digits, and `/`, `?` or the end of the whole text
 * (`$` without the `m` flag). Greedy repetition cannot backtrack into a
 * different match there, so a match at a position is unique; `PortShape`
 * states it declaratively and `PortAfter` computes it.
 */
module UriPort {
  import opened Wrappers
  import opened Text

  datatype Pattern = SrvUri | AnyAt

  /** One match: the `:` of the port, the end of its digits, and the end of the match (after the delimiter). */
  datatype PortMatch = PortMatch(colon: nat, digitsEnd: nat, end: nat)

  predicate IsHostChar(c: char) {
    c != ':' && c != '/'
  }

  // ---------------------------------------------------------------------------
  // The common tail `@[^:\/]+(:\d+)(\/|\?|$)`, declaratively
  // ---------------------------------------------------------------------------

  /** The regular expression's tail matches at `at` with the port `s[c..d]`. */
  predicate PortShape(s: string, at: nat, c: nat, d: nat) {
    && at + 1 < c && c + 1 < d && d <= |s|
    && s[c] == ':'
    && (forall k :: at < k < c ==> IsHostChar(s[k]))
    && (forall k :: c < k < d ==> IsDigit(s[k]))
    && (d == |s| || s[d] == '/' || s[d] == '?')
  }

  /** There is at most one way for the tail to match. */
  lemma PortShapeUnique(s: string, at: nat, c1: nat, d1: nat, c2: nat, d2: nat)
    requires PortShape(s, at, c1, d1) && PortShape(s, at, c2, d2)
    ensures c1 == c2 && d1 == d2
  {
  }

  // ---------------------------------------------------------------------------
  // The tail, computed
  // ---------------------------------------------------------------------------

  /** End of the maximal run of host characters from `i`. */
  function HostEnd(s: string, i: nat): (j: nat)
    requires i <= |s|
    ensures i <= j <= |s|
    ensures forall k :: i <= k < j ==> IsHostChar(s[k])
    ensures j < |s| ==> !IsHostChar(s[j])
    decreases |s| - i
  {
    if i == |s| || !IsHostChar(s[i]) then i else HostEnd(s, i + 1)
  }

  /** End of the maximal run of digits from `i`. */
  function DigitsEnd(s: string, i: nat): (j: nat)
    requires i <= |s|
    ensures i <= j <= |s|
    ensures forall k :: i <= k < j ==> IsDigit(s[k])
    ensures j < |s| ==> !IsDigit(s[j])
    decreases |s| - i
  {
    if i == |s| || !IsDigit(s[i]) then i else DigitsEnd(s, i + 1)
  }

  /** The port after the `@` at `at`, if the tail matches there. */
  function PortAfter(s: string, at: nat): (r: Option<PortMatch>)
    requires at < |s|
    ensures r.Some? ==> PortShape(s, at, r.value.colon, r.value.digitsEnd)
    ensures r.Some? ==> r.value.end == (if r.value.digitsEnd == |s| then |s| else r.value.digitsEnd + 1)
  {
    var c := HostEnd(s, at + 1);
    if c == at + 1 || c == |s| || s[c] != ':' then None
    else PortTail(s, c, DigitsEnd(s, c + 1))
  }

  /** The port `s[c..d]` after the host, if digits follow the `:` and a delimiter or the end of the text follows them. */
  function PortTail(s: string, c: nat, d: nat): Option<PortMatch>
    requires c < d <= |s|
  {
    if d == c + 1 then None
    else if d == |s| then Some(PortMatch(c, d, d))
    else if s[d] == '/' || s[d] == '?' then Some(PortMatch(c, d, d + 1))
    else None
  }

  /** `PortAfter` finds the port exactly when the declarative tail matches. */
  lemma PortAfterComplete(s: string, at: nat, c: nat, d: nat)
    requires at < |s| && PortShape(s, at, c, d)
    ensures PortAfter(s, at).Some?
    ensures PortAfter(s, at).value.colon == c && PortAfter(s, at).value.digitsEnd == d
  {
    var h := HostEnd(s, at + 1);
    assert h == c;
    var e := DigitsEnd(s, c + 1);
    assert e == d;
  }

  // ---------------------------------------------------------------------------
  // The two patterns
  // ---------------------------------------------------------------------------

  const SrvScheme := "mongodb+srv://"

  /** `mongodb\+srv:\/\/[^@]+@`: the scheme at `i`, credentials without `@`, and the first `@` after them. */
  predicate SrvPrefix(s: string, i: nat, at: nat) {
    && i + |SrvScheme| < at < |s|
    && s[i..i + |SrvScheme|] == SrvScheme
    && s[at] == '@'
    && (forall k :: i + |SrvScheme| <= k < at ==> s[k] != '@')
  }

  /** `@[^:\/]+:\d+(...)` at `i`. */
  function AtMatch(s: string, i: nat): (r: Option<PortMatch>)
    requires i <= |s|
  {
    if i < |s| && s[i] == '@' then PortAfter(s, i) else None
  }

  /** `mongodb\+srv:\/\/[^@]+@[^:\/]+:\d+(...)` at `i`: the `@` is the first one after the scheme. */
  function SrvMatch(s: string, i: nat): (r: Option<PortMatch>)
    requires i <= |s|
  {
    var start := i + |SrvScheme|;
    if start <= |s| && s[i..start] == SrvScheme && '@' in s[start..] then
      var at := start + FirstIndex(s[start..], '@');
      if at == start then None else PortAfter(s, at)
    else None
  }

  lemma AtMatchIff(s: string, i: nat)
    requires i <= |s|
    ensures AtMatch(s, i).Some? <==> i < |s| && s[i] == '@' && exists c: nat, d: nat :: PortShape(s, i, c, d)
  {
    if i < |s| && s[i] == '@' && exists c: nat, d: nat :: PortShape(s, i, c, d) {
      var c, d :| PortShape(s, i, c, d);
      PortAfterComplete(s, i, c, d);
    }
  }

  /** A match found by `SrvMatch` is one of the regular expression's. */
  lemma SrvMatchSound(s: string, i: nat)
    requires i <= |s| && SrvMatch(s, i).Some?
    ensures var start := i + |SrvScheme|;
            var at := start + FirstIndex(s[start..], '@');
            SrvPrefix(s, i, at) && PortShape(s, at, SrvMatch(s, i).value.colon, SrvMatch(s, i).value.digitsEnd)
  {
    var start := i + |SrvScheme|;
    var t := s[start..];
    var idx := FirstIndex(t, '@');
    forall k | start <= k < start + idx ensures s[k] != '@' {
      assert s[k] == t[..idx][k - start];
    }
  }

  /** Every match of the regular expression is found by `SrvMatch`: the `@` can only be the first one. */
  lemma SrvMatchComplete(s: string, i: nat, a: nat, c: nat, d: nat)
    requires i <= |s| && SrvPrefix(s, i, a) && PortShape(s, a, c, d)
    ensures SrvMatch(s, i).Some?
  {
    SrvMatchFound(s, i, a);
    PortAfterComplete(s, a, c, d);
  }

  /** With the scheme at `i` and the first `@` after it at `a`, the match is the port after that `@`. */
  lemma SrvMatchFound(s: string, i: nat, a: nat)
    requires i <= |s| && SrvPrefix(s, i, a)
    ensures SrvMatch(s, i) == PortAfter(s, a)
  {
    FirstAtAfterScheme(s, i, a);
  }

  lemma FirstAtAfterScheme(s: string, i: nat, a: nat)
    requires SrvPrefix(s, i, a)
    ensures '@' in s[i + |SrvScheme|..] && FirstIndex(s[i + |SrvScheme|..], '@') == a - i - |SrvScheme|
  {
    var start := i + |SrvScheme|;
    var t := s[start..];
    assert t[a - start] == '@';
    var idx := FirstIndex(t, '@');
    assert s[start + idx] == t[idx];
  }

  lemma SrvMatchIff(s: string, i: nat)
    requires i <= |s|
    ensures SrvMatch(s, i).Some? <==> exists at: nat, c: nat, d: nat :: SrvPrefix(s, i, at) && PortShape(s, at, c, d)
  {
    if SrvMatch(s, i).Some? {
      SrvMatchSound(s, i);
    }
    if exists at: nat, c: nat, d: nat :: SrvPrefix(s, i, at) && PortShape(s, at, c, d) {
      var a: nat, c: nat, d: nat :| SrvPrefix(s, i, a) && PortShape(s, a, c, d);
      SrvMatchComplete(s, i, a, c, d);
    }
  }

  /** The match of the pattern starting at `i`, if any. */
  function MatchAt(p: Pattern, s: string, i: nat): (r: Option<PortMatch>)
    requires i <= |s|
    ensures r.Some? ==> MatchShaped(s, i, r.value)
  {
    match p
    case AnyAt => AtMatch(s, i)
    case SrvUri => SrvMatch(s, i)
  }

  /** The scan matches at `i` exactly when the regular expression does. */
  lemma MatchAtIff(p: Pattern, s: string, i: nat)
    requires i <= |s|
    ensures p.AnyAt? ==> (MatchAt(p, s, i).Some? <==> i < |s| && s[i] == '@' && exists c: nat, d: nat :: PortShape(s, i, c, d))
    ensures p.SrvUri? ==> (MatchAt(p, s, i).Some? <==> exists at: nat, c: nat, d: nat :: SrvPrefix(s, i, at) && PortShape(s, at, c, d))
  {
    AtMatchIff(s, i);
    SrvMatchIff(s, i);
  }

  // ---------------------------------------------------------------------------
  // Global replacement, over the table of matches at each position
  // ---------------------------------------------------------------------------

  /** A match at `i` lies after `i`, within the text, and its port is a `:` and digits. */
  predicate MatchShaped(s: string, i: nat, m: PortMatch) {
    && i < m.colon < m.digitsEnd <= m.end <= |s|
    && s[m.colon] == ':'
    && (forall k :: m.colon < k < m.digitsEnd ==> IsDigit(s[k]))
  }

  /** `ms[j]` is what the pattern matches at position `j` of `s`. */
  predicate Scanned(ms: seq<Option<PortMatch>>, s: string) {
    |ms| == |s| && forall j :: 0 <= j < |ms| && ms[j].Some? ==> MatchShaped(s, j, ms[j].value)
  }

  /** The pattern's match at every position of the text. */
  function MatchTable(p: Pattern, s: string): (ms: seq<Option<PortMatch>>)
    ensures Scanned(ms, s)
    ensures forall j :: 0 <= j < |s| ==> ms[j] == MatchAt(p, s, j)
  {
    seq(|s|, j requires 0 <= j < |s| => MatchAt(p, s, j))
  }

  /** The global replacement from position `i`: each match loses its `:digits`, then the scan resumes after it. */
  function Replace(ms: seq<Option<PortMatch>>, s: string, i: nat): string
    requires Scanned(ms, s) && i <= |s|
    decreases |s| - i
  {
    if i == |s| then []
    else
      match ms[i]
      case Some(m) => s[i..m.colon] + s[m.digitsEnd..m.end] + Replace(ms, s, m.end)
      case None => [s[i]] + Replace(ms, s, i + 1)
  }

  /**
   * `content.replace(pattern /g, ...)`: the text changes exactly when the
   * pattern matches somewhere, never grows, and loses only `:` and digit
   * characters.
   */
  function Rewrite(p: Pattern, s: string): (r: string)
    ensures |r| <= |s|
    ensures r == s <==> forall j :: 0 <= j < |s| ==> MatchAt(p, s, j).None?
    ensures IsSubsequence(r, s)
    ensures WithoutPortChars(r) == WithoutPortChars(s)
  {
    var ms := MatchTable(p, s);
    assert s[0..] == s;
    assert NoMatchFrom(ms, 0) <==> forall j :: 0 <= j < |s| ==> MatchAt(p, s, j).None?;
    ReplaceLength(ms, s, 0);
    ReplaceUnchangedIff(ms, s, 0);
    ReplaceIsSubsequence(ms, s, 0);
    ReplaceKeepsOtherChars(ms, s, 0);
    Replace(ms, s, 0)
  }

  /** The replacement never lengthens the text; a match shortens it by the port, at least two characters. */
  lemma {:induction false} ReplaceLength(ms: seq<Option<PortMatch>>, s: string, i: nat)
    requires Scanned(ms, s) && i <= |s|
    ensures |Replace(ms, s, i)| <= |s| - i
    ensures i < |s| && ms[i].Some? ==> |Replace(ms, s, i)| < |s| - i
    decreases |s| - i
  {
    if i < |s| {
      if ms[i].Some? {
        ReplaceLength(ms, s, ms[i].value.end);
      } else {
        ReplaceLength(ms, s, i + 1);
      }
    }
  }

  /** No position from `i` on has a match. */
  predicate NoMatchFrom(ms: seq<Option<PortMatch>>, i: nat) {
    forall j :: i <= j < |ms| ==> ms[j].None?
  }

  /** The replacement leaves the text unchanged exactly when nothing matches. */
  lemma {:induction false} ReplaceUnchangedIff(ms: seq<Option<PortMatch>>, s: string, i: nat)
    requires Scanned(ms, s) && i <= |s|
    ensures Replace(ms, s, i) == s[i..] <==> NoMatchFrom(ms, i)
    decreases |s| - i
  {
    if i < |s| {
      if ms[i].Some? {
        MatchChanges(ms, s, i);
      } else {
        ReplaceUnchangedIff(ms, s, i + 1);
        NoMatchStep(ms, s, i);
      }
    }
  }

  lemma MatchChanges(ms: seq<Option<PortMatch>>, s: string, i: nat)
    requires Scanned(ms, s) && i < |s| && ms[i].Some?
    ensures Replace(ms, s, i) != s[i..] && !NoMatchFrom(ms, i)
  {
    ReplaceLength(ms, s, i);
  }

  lemma NoMatchStep(ms: seq<Option<PortMatch>>, s: string, i: nat)
    requires Scanned(ms, s) && i < |s| && ms[i].None?
    ensures Replace(ms, s, i) == s[i..] <==> Replace(ms, s, i + 1) == s[i + 1..]
    ensures NoMatchFrom(ms, i) <==> NoMatchFrom(ms, i + 1)
  {
    CopyAtNoMatch(ms, s, i);
    ConsUnchanged(s[i], Replace(ms, s, i + 1), s[i + 1..]);
  }

  lemma ConsUnchanged(c: char, a: string, b: string)
    ensures [c] + a == [c] + b <==> a == b
  {
    if [c] + a == [c] + b {
      assert a == ([c] + a)[1..];
    }
  }

  // ---------------------------------------------------------------------------
  // Only ports are removed
  // ---------------------------------------------------------------------------

  predicate IsPortChar(c: char) {
    c == ':' || IsDigit(c)
  }

  /** The text without its `:` and digit characters. */
  function WithoutPortChars(s: string): (r: string)
    ensures |r| <= |s|
  {
    if s == [] then [] else (if IsPortChar(s[0]) then [] else [s[0]]) + WithoutPortChars(s[1..])
  }

  lemma {:induction false} WithoutPortCharsAppend(a: string, b: string)
    ensures WithoutPortChars(a + b) == WithoutPortChars(a) + WithoutPortChars(b)
  {
    if a != [] {
      assert (a + b)[1..] == a[1..] + b;
      WithoutPortCharsAppend(a[1..], b);
    } else {
      assert a + b == b;
    }
  }

  lemma {:induction false} PortTextVanishes(s: string)
    requires forall k :: 0 <= k < |s| ==> IsPortChar(s[k])
    ensures WithoutPortChars(s) == []
  {
    if s != [] {
      PortTextVanishes(s[1..]);
    }
  }

  /** `a` is `b` with some characters deleted. */
  predicate IsSubsequence(a: string, b: string)
    decreases |b|
  {
    a == [] || (b != [] && ((a[0] == b[0] && IsSubsequence(a[1..], b[1..])) || IsSubsequence(a, b[1..])))
  }

  lemma {:induction false} SubsequenceRefl(a: string)
    ensures IsSubsequence(a, a)
  {
    if a != [] {
      SubsequenceRefl(a[1..]);
    }
  }

  lemma {:induction false} SubsequenceDrop(a: string, x: string, b: string)
    requires IsSubsequence(a, b)
    ensures IsSubsequence(a, x + b)
    decreases |x|
  {
    if x != [] {
      SubsequenceDrop(a, x[1..], b);
      assert (x + b)[1..] == x[1..] + b;
    } else {
      assert x + b == b;
    }
  }

  lemma {:induction false} SubsequenceAppend(a1: string, b1: string, a2: string, b2: string)
    requires IsSubsequence(a1, b1) && IsSubsequence(a2, b2)
    ensures IsSubsequence(a1 + a2, b1 + b2)
    decreases |b1|
  {
    if a1 == [] {
      SubsequenceDrop(a2, b1, b2);
      assert a1 + a2 == a2;
    } else {
      assert (b1 + b2)[1..] == b1[1..] + b2;
      assert (a1 + a2)[1..] == a1[1..] + a2;
      if a1[0] == b1[0] && IsSubsequence(a1[1..], b1[1..]) {
        SubsequenceAppend(a1[1..], b1[1..], a2, b2);
      } else {
        SubsequenceAppend(a1, b1[1..], a2, b2);
      }
    }
  }

  /** Deleting a middle part while keeping a subsequence of the tail yields a subsequence. */
  lemma DeleteMiddleSubsequence(pre: string, port: string, delim: string, rest: string, tail: string)
    requires IsSubsequence(rest, tail)
    ensures IsSubsequence(pre + (delim + rest), pre + (port + (delim + tail)))
  {
    SubsequenceRefl(pre);
    SubsequenceRefl(delim);
    SubsequenceAppend(delim, delim, rest, tail);
    SubsequenceDrop(delim + rest, port, delim + tail);
    SubsequenceAppend(pre, pre, delim + rest, port + (delim + tail));
  }

  /** Deleting port characters does not change the text outside them. */
  lemma DeleteMiddlePortChars(pre: string, port: string, delim: string, rest: string, tail: string)
    requires forall k :: 0 <= k < |port| ==> IsPortChar(port[k])
    requires WithoutPortChars(rest) == WithoutPortChars(tail)
    ensures WithoutPortChars(pre + (delim + rest)) == WithoutPortChars(pre + (port + (delim + tail)))
  {
    var dt, dr := delim + tail, delim + rest;
    var pdt := port + dt;
    PortTextVanishes(port);
    WithoutPortCharsAppend(port, dt);
    assert WithoutPortChars(pdt) == WithoutPortChars(dt);
    WithoutPortCharsAppend(delim, tail);
    WithoutPortCharsAppend(delim, rest);
    assert WithoutPortChars(dt) == WithoutPortChars(dr);
    WithoutPortCharsAppend(pre, pdt);
    WithoutPortCharsAppend(pre, dr);
  }

  /** Cutting a run of `:` and digit characters out of the text only deletes port characters. */
  lemma DeletePortRun(s: string, j: nat, d: nat)
    requires j <= d <= |s|
    requires forall k :: j <= k < d ==> IsPortChar(s[k])
    ensures IsSubsequence(s[..j] + s[d..], s)
    ensures WithoutPortChars(s[..j] + s[d..]) == WithoutPortChars(s)
  {
    var pre, port, tail := s[..j], s[j..d], s[d..];
    SliceParts(s, j, d);
    CutSubsequence(pre, port, tail);
    CutPortChars(pre, port, tail);
  }

  lemma SliceParts(s: string, j: nat, d: nat)
    requires j <= d <= |s|
    requires forall k :: j <= k < d ==> IsPortChar(s[k])
    ensures s == s[..j] + (s[j..d] + s[d..])
    ensures forall k :: 0 <= k < |s[j..d]| ==> IsPortChar(s[j..d][k])
  {
    assert s[j..] == s[j..d] + s[d..];
  }

  lemma CutSubsequence(pre: string, cut: string, tail: string)
    ensures IsSubsequence(pre + tail, pre + (cut + tail))
  {
    SubsequenceRefl(pre);
    SubsequenceRefl(tail);
    SubsequenceDrop(tail, cut, tail);
    SubsequenceAppend(pre, pre, tail, cut + tail);
  }

  lemma CutPortChars(pre: string, port: string, tail: string)
    requires forall k :: 0 <= k < |port| ==> IsPortChar(port[k])
    ensures WithoutPortChars(pre + tail) == WithoutPortChars(pre + (port + tail))
  {
    PortTextVanishes(port);
    WithoutPortCharsAppend(port, tail);
    WithoutPortCharsAppend(pre, port + tail);
    WithoutPortCharsAppend(pre, tail);
  }

  /** Characters other than `:` and digits are counted alike before and after removing port characters. */
  lemma {:induction false} CountOutsidePorts(s: string, c: char)
    requires !IsPortChar(c)
    ensures Count(WithoutPortChars(s), c) == Count(s, c)
  {
    if s != [] {
      CountOutsidePorts(s[1..], c);
      CountAppend(if IsPortChar(s[0]) then [] else [s[0]], WithoutPortChars(s[1..]), c);
    }
  }

  /** A match splits the text into the part before the port, the port, the delimiter and the rest. */
  lemma SplitAtMatch(ms: seq<Option<PortMatch>>, s: string, i: nat)
    requires Scanned(ms, s) && i < |s| && ms[i].Some?
    ensures var m := ms[i].value;
            && s[i..] == s[i..m.colon] + (s[m.colon..m.digitsEnd] + (s[m.digitsEnd..m.end] + s[m.end..]))
            && Replace(ms, s, i) == s[i..m.colon] + (s[m.digitsEnd..m.end] + Replace(ms, s, m.end))
            && forall k :: 0 <= k < |s[m.colon..m.digitsEnd]| ==> IsPortChar(s[m.colon..m.digitsEnd][k])
  {
    var m := ms[i].value;
    SliceFour(s, i, m.colon, m.digitsEnd, m.end);
    MatchPortChars(s, i, m);
    ReplaceAtMatch(ms, s, i);
  }

  lemma MatchPortChars(s: string, i: nat, m: PortMatch)
    requires MatchShaped(s, i, m)
    ensures forall k :: 0 <= k < |s[m.colon..m.digitsEnd]| ==> IsPortChar(s[m.colon..m.digitsEnd][k])
  {
    var port := s[m.colon..m.digitsEnd];
    forall k | 0 <= k < |port| ensures IsPortChar(port[k]) {
      assert port[k] == s[m.colon + k];
    }
  }

  /** One step of the scan at a match. */
  lemma ReplaceAtMatch(ms: seq<Option<PortMatch>>, s: string, i: nat)
    requires Scanned(ms, s) && i < |s| && ms[i].Some?
    ensures var m := ms[i].value;
            Replace(ms, s, i) == s[i..m.colon] + (s[m.digitsEnd..m.end] + Replace(ms, s, m.end))
  {
    var m := ms[i].value;
    var r := Replace(ms, s, m.end);
    assert Replace(ms, s, i) == s[i..m.colon] + s[m.digitsEnd..m.end] + r;
    Assoc(s[i..m.colon], s[m.digitsEnd..m.end], r);
  }

  lemma Assoc(a: string, b: string, c: string)
    ensures a + b + c == a + (b + c)
  {
  }

  lemma SliceFour(s: string, a: nat, b: nat, c: nat, d: nat)
    requires a <= b <= c <= d <= |s|
    ensures s[a..] == s[a..b] + (s[b..c] + (s[c..d] + s[d..]))
  {
    assert s[c..] == s[c..d] + s[d..];
    assert s[b..] == s[b..c] + s[c..];
    assert s[a..] == s[a..b] + s[b..];
  }

  /** Without a match at `i`, the character there is copied. */
  lemma CopyAtNoMatch(ms: seq<Option<PortMatch>>, s: string, i: nat)
    requires Scanned(ms, s) && i < |s| && ms[i].None?
    ensures s[i..] == [s[i]] + s[i + 1..]
    ensures Replace(ms, s, i) == [s[i]] + Replace(ms, s, i + 1)
  {
  }

  /** The replacement only deletes: its result is a subsequence of the text. */
  lemma {:induction false} ReplaceIsSubsequence(ms: seq<Option<PortMatch>>, s: string, i: nat)
    requires Scanned(ms, s) && i <= |s|
    ensures IsSubsequence(Replace(ms, s, i), s[i..])
    decreases |s| - i
  {
    if i < |s| {
      if ms[i].Some? {
        var m := ms[i].value;
        ReplaceIsSubsequence(ms, s, m.end);
        SplitAtMatch(ms, s, i);
        DeleteMiddleSubsequence(s[i..m.colon], s[m.colon..m.digitsEnd], s[m.digitsEnd..m.end],
                                Replace(ms, s, m.end), s[m.end..]);
      } else {
        ReplaceIsSubsequence(ms, s, i + 1);
        CopyAtNoMatch(ms, s, i);
        ConsSubsequence(s[i], Replace(ms, s, i + 1), s[i + 1..]);
      }
    }
  }

  lemma ConsSubsequence(c: char, a: string, b: string)
    requires IsSubsequence(a, b)
    ensures IsSubsequence([c] + a, [c] + b)
  {
    assert ([c] + a)[1..] == a;
    assert ([c] + b)[1..] == b;
  }

  /** Every character other than `:` and digits survives the replacement, in order. */
  lemma {:induction false} ReplaceKeepsOtherChars(ms: seq<Option<PortMatch>>, s: string, i: nat)
    requires Scanned(ms, s) && i <= |s|
    ensures WithoutPortChars(Replace(ms, s, i)) == WithoutPortChars(s[i..])
    decreases |s| - i
  {
    if i < |s| {
      if ms[i].Some? {
        var m := ms[i].value;
        ReplaceKeepsOtherChars(ms, s, m.end);
        SplitAtMatch(ms, s, i);
        DeleteMiddlePortChars(s[i..m.colon], s[m.colon..m.digitsEnd], s[m.digitsEnd..m.end],
                              Replace(ms, s, m.end), s[m.end..]);
      } else {
        ReplaceKeepsOtherChars(ms, s, i + 1);
        CopyAtNoMatch(ms, s, i);
        WithoutPortCharsAppend([s[i]], Replace(ms, s, i + 1));
        WithoutPortCharsAppend([s[i]], s[i + 1..]);
      }
    }
  }

  /** Positions without a match are copied one by one. */
  lemma {:induction false} CopyUpTo(ms: seq<Option<PortMatch>>, s: string, i: nat, n: nat)
    requires Scanned(ms, s) && i <= n <= |s|
    requires forall j :: i <= j < n ==> ms[j].None?
    ensures Replace(ms, s, i) == s[i..n] + Replace(ms, s, n)
    decreases n - i
  {
    if i < n {
      CopyUpTo(ms, s, i + 1, n);
      CopyAtNoMatch(ms, s, i);
      ConsSlice(s, i, n, Replace(ms, s, n));
    }
  }

  /** With no match from `n` on, the scan copies the rest of the text. */
  lemma CopyToEnd(ms: seq<Option<PortMatch>>, s: string, n: nat)
    requires Scanned(ms, s) && n <= |s|
    requires forall j :: n <= j < |s| ==> ms[j].None?
    ensures Replace(ms, s, n) == s[n..]
  {
    CopyUpTo(ms, s, n, |s|);
    assert s[n..|s|] == s[n..];
  }

  lemma ConsSlice(s: string, i: nat, n: nat, r: string)
    requires i < n <= |s|
    ensures [s[i]] + (s[i + 1..n] + r) == s[i..n] + r
  {
    assert s[i..n] == [s[i]] + s[i + 1..n];
  }


  // ---------------------------------------------------------------------------
  // Slices of a scanned text
  // ---------------------------------------------------------------------------

  /** Where a match whose digits end at `d` ends: after the `/` or `?`, or at the end of the text. */
  function MatchEnd(s: string, d: nat): nat {
    if d == |s| then d else d + 1
  }

  lemma SlicesMeet(s: string, a: nat, b: nat, c: nat)
    requires a <= b <= c <= |s|
    ensures s[a..b] + s[b..c] == s[a..c]
  {
  }

  lemma SuffixMeets(s: string, d: nat, e: nat)
    requires d <= e <= |s|
    ensures s[d..e] + s[e..] == s[d..]
  {
  }

  lemma RejoinTwo(s: string, c1: nat, d1: nat, e1: nat, c2: nat, d2: nat)
    requires c1 < d1 <= e1 <= c2 < d2 <= |s|
    ensures s[0..c1] + (s[d1..e1] + (s[e1..c2] + s[d2..])) == s[..c1] + s[d1..c2] + s[d2..]
    ensures |s[..c1] + s[d1..c2] + s[d2..]| < |s|
  {
    assert s[0..c1] == s[..c1];
    SlicesMeet(s, d1, e1, c2);
    Assoc(s[d1..e1], s[e1..c2], s[d2..]);
    Assoc(s[..c1], s[d1..c2], s[d2..]);
  }
}

=== FILE: user_model.dfy ===
/**
 * The User schema (models/User.js): the stored record, its defaults and the
 * validation `User.create` and `save` apply before a document is written.
 */
module UserModel {
  import opened Wrappers
  import opened Text
  import opened Passwords
  import opened EmailFormat

  /** A document id (Mongo ObjectId). */
  type UserId = nat
  type TripId = nat

  const NameMaxLength: nat := 60
  const PasswordMinLength: nat := 6

  datatype Preferences = Preferences(language: string, currency: string)

  const DefaultPreferences := Preferences("en", "USD")

  datatype User = User(
    id: UserId,
    name: string,
    email: string,
    password: Digest,
    image: Option<string>,
    preferences: Preferences,
    savedTrips: seq<TripId>,
    resetPasswordToken: Option<string>,
    resetPasswordExpire: Option<int>)

  /** The schema paths whose validators can reject a document. */
  datatype UserPath = NamePath | EmailPath | PasswordPath

  /** Mongoose's `required` on a String path: present and non-empty. */
  predicate RequiredText(v: Option<string>) {
    v.Some? && v.value != ""
  }

  /**
   * The paths of a new user document that fail validation: `name` required
   * and at most 60 characters, `email` required and in the e-mail format,
   * `password` required.
   */
  function UserErrors(name: Option<string>, email: Option<string>, password: Option<Digest>): set<UserPath>
  {
    (if !RequiredText(name) || JsLength(name.value) > NameMaxLength then {NamePath} else {})
    + (if !RequiredText(email) || !IsEmail(email.value) then {EmailPath} else {})
    + (if password.None? then {PasswordPath} else {})
  }

  /** What every stored user satisfies. */
  predicate ValidUser(u: User) {
    && u.name != ""
    && JsLength(u.name) <= NameMaxLength
    && IsEmail(u.email)
  }

  /**
   * `User.create({name, email, password})`: the defaults of the schema are
   * filled in and the document is validated; a validation failure names
   * every failing path.
   */
  function CreateUser(id: UserId, name: Option<string>, email: Option<string>, password: Option<Digest>)
    : (r: Result<User, set<UserPath>>)
    ensures r.Ok? <==> (&& RequiredText(name) && JsLength(name.value) <= NameMaxLength
                        && RequiredText(email) && IsEmail(email.value)
                        && password.Some?)
    ensures r.Err? ==> r.error != {}
    ensures r.Ok? ==> && r.value.id == id
                      && Some(r.value.name) == name
                      && Some(r.value.email) == email
                      && Some(r.value.password) == password
                      && ValidUser(r.value)
    ensures r.Ok? ==> && r.value.preferences == Preferences("en", "USD")
                      && r.value.image.None?
                      && r.value.savedTrips == []
                      && r.value.resetPasswordToken.None?
                      && r.value.resetPasswordExpire.None?
  {
    var errors := UserErrors(name, email, password);
    if errors != {} then Err(errors)
    else
      Ok(User(id, name.value, email.value, password.value, None, DefaultPreferences, [],
              None, None))
  }

  /** A name longer than 60 characters is rejected, naming the `name` path. */
  lemma LongNameRejected(id: UserId, name: string, email: Option<string>, password: Option<Digest>)
    requires JsLength(name) > NameMaxLength
    ensures CreateUser(id, Some(name), email, password).Err?
    ensures NamePath in CreateUser(id, Some(name), email, password).error
  {
  }

  /** Every e-mail the schema accepts matches the regular expression of the schema, and back. */
  lemma CreateUserEmailFormat(id: UserId, name: Option<string>, email: string, password: Option<Digest>)
    ensures EmailPath in UserErrors(name, Some(email), password) <==> (email == "" || !MatchesRegex(email))
  {
    EmailIffRegex(email);
  }
}

=== FILE: verify_otp_route.dfy ===
/**
 * `POST /api/auth/verify-otp` (app/api/auth/verify-otp/route.js): look up
 * the pending sign-up for the e-mail, compare the code, create the user from
 * the stored name and hash, then delete the record. The welcome e-mail is a
 * side effect that never fails (it catches its own errors) and is omitted.
 */
module VerifyOtpRoute {
  import opened Wrappers
  import opened Passwords
  import opened UserModel
  import opened OtpModel
  import opened Store

  datatype VerifyBody = VerifyBody(email: Option<string>, otp: Option<string>)

  const NotFoundMessage := "OTP expired or not found. Please signup again."

  predicate VerifyFieldsPresent(body: VerifyBody) {
    RequiredText(body.email) && RequiredText(body.otp)
  }

  /**
   * The account a matching record turns into. The record has no e-mail in
   * its payload, so `tempUserData.email || email` is always the request's
   * e-mail.
   */
  function PendingAccount(rec: OtpRecord, email: string, newId: UserId): Result<User, set<UserPath>> {
    CreateUser(newId, rec.tempUserData.name, Some(email), rec.tempUserData.password)
  }

  function VerifyOtp(body: VerifyBody, s: Store, newId: UserId): (r: Reply<UserId>)
    ensures r.status in {201, 400, 500}
    ensures !VerifyFieldsPresent(body) ==> r.status == 400 && r.message == "Missing fields"
    ensures VerifyFieldsPresent(body) && FindOtp(s.otps, body.email.value).None? ==>
              r.status == 400 && r.message == NotFoundMessage
    ensures VerifyFieldsPresent(body) && FindOtp(s.otps, body.email.value).Some? ==>
              var rec := s.otps[FindOtp(s.otps, body.email.value).value];
              && (rec.otp != body.otp.value ==> r.status == 400 && r.message == "Invalid OTP")
              && (rec.otp == body.otp.value ==> r.status != 400)
    ensures r.status != 201 ==> r.store == s && r.payload.None?
    ensures r.status == 500 ==> r.message == "Internal Server Error"
    ensures r.status == 201 ==>
              && VerifyFieldsPresent(body)
              && FindOtp(s.otps, body.email.value).Some?
              && var i := FindOtp(s.otps, body.email.value).value;
                 var rec := s.otps[i];
                 && r.message == "Verification successful"
                 && r.payload == Some(newId)
                 && r.store == s.(users := r.store.users, otps := r.store.otps)
                 && r.store.otps == RemoveAt(s.otps, i)
                 && |r.store.users| == |s.users| + 1
                 && r.store.users[..|s.users|] == s.users
                 && var u := r.store.users[|s.users|];
                    && u.id == newId
                    && Some(u.email) == body.email
                    && Some(u.name) == rec.tempUserData.name
                    && Some(u.password) == rec.tempUserData.password
                    && ValidUser(u)
  {
    if !VerifyFieldsPresent(body) then
      Reply(400, "Missing fields", None, s)
    else
      var email := body.email.value;
      match FindOtp(s.otps, email)
      case None => Reply(400, NotFoundMessage, None, s)
      case Some(i) =>
        var rec := s.otps[i];
        if rec.otp != body.otp.value then
          Reply(400, "Invalid OTP", None, s)
        else
          match PendingAccount(rec, email, newId)
          case Err(_) => Reply(500, "Internal Server Error", None, s)
          case Ok(u) =>
            // the unique index on `email` rejects the insert (E11000)
            if FindUserByEmail(s.users, email).Some? then
              Reply(500, "Internal Server Error", None, s)
            else
              assert (s.users + [u])[..|s.users|] == s.users;
              Reply(201, "Verification successful", Some(newId),
                    s.(users := s.users + [u], otps := RemoveAt(s.otps, i)))
  }

  /**
   * A matching code fails with 500, keeping the record, exactly when the
   * pending account does not validate or its e-mail is already registered.
   */
  lemma CreationFailureKeepsRecord(body: VerifyBody, s: Store, newId: UserId)
    requires VerifyFieldsPresent(body) && FindOtp(s.otps, body.email.value).Some?
    requires s.otps[FindOtp(s.otps, body.email.value).value].otp == body.otp.value
    ensures var rec := s.otps[FindOtp(s.otps, body.email.value).value];
            VerifyOtp(body, s, newId).status == 500 <==>
              PendingAccount(rec, body.email.value, newId).Err?
              || exists k :: 0 <= k < |s.users| && s.users[k].email == body.email.value
    ensures VerifyOtp(body, s, newId).status == 500 ==>
              FindOtp(VerifyOtp(body, s, newId).store.otps, body.email.value).Some?
  {
  }

  lemma VerifyPreservesValid(body: VerifyBody, s: Store, newId: UserId)
    requires Valid(s) && UserIdUnused(s, newId)
    ensures Valid(VerifyOtp(body, s, newId).store)
  {
    var r := VerifyOtp(body, s, newId);
    if r.status == 201 {
      var i := FindOtp(s.otps, body.email.value).value;
      var u := r.store.users[|s.users|];
      assert r.store.users == s.users + [u];
      AppendUserKeepsIndexes(s.users, u);
      RemoveOtpGone(s.otps, i);
    }
  }

  /** A successful verification consumes the record: the same request then fails with "not found". */
  lemma {:induction false} VerifyIsOneShot(body: VerifyBody, s: Store, id1: UserId, id2: UserId)
    requires UniqueOtpEmails(s.otps)
    requires VerifyOtp(body, s, id1).status == 201
    ensures var again := VerifyOtp(body, VerifyOtp(body, s, id1).store, id2);
            again.status == 400 && again.message == NotFoundMessage && again.store == VerifyOtp(body, s, id1).store
  {
    var i := FindOtp(s.otps, body.email.value).value;
    RemoveOtpGone(s.otps, i);
  }

  /** A wrong code keeps the record, so a retry with the stored code gets past the code check. */
  lemma RetryAfterWrongCode(body: VerifyBody, code: string, s: Store, id1: UserId, id2: UserId)
    requires AllValidOtps(s.otps)
    requires VerifyOtp(body, s, id1).message == "Invalid OTP"
    requires FindOtp(s.otps, body.email.value).Some?
    requires code == s.otps[FindOtp(s.otps, body.email.value).value].otp
    ensures VerifyOtp(body.(otp := Some(code)), VerifyOtp(body, s, id1).store, id2).status != 400
  {
  }

  /**
   * Once the TTL monitor has swept the records of an e-mail (more than 300 s
   * after they were created), its verification fails with "not found".
   */
  lemma {:induction false} ExpiredRecordNotFound(body: VerifyBody, s: Store, now: int, newId: UserId)
    requires VerifyFieldsPresent(body)
    requires forall k :: 0 <= k < |s.otps| && s.otps[k].email == body.email.value ==> Expired(s.otps[k], now)
    ensures var swept := s.(otps := SweepExpired(s.otps, now));
            VerifyOtp(body, swept, newId).status == 400
            && VerifyOtp(body, swept, newId).message == NotFoundMessage
  {
    var swept := SweepExpired(s.otps, now);
    forall k | 0 <= k < |swept|
      ensures swept[k].email != body.email.value
    {
      assert swept[k] in s.otps;
    }
  }
}

=== FILE: wrappers.dfy ===
/** Optional values (with a default accessor) and results, shared by every module of the model. */
module Wrappers {

  /** An optional value: a JavaScript `undefined`/`null` field, a missing document. */
  datatype Option<+T> = None | Some(value: T) {

    /** The value, or `default` when absent (JavaScript's `x ?? default`). */
    function GetOr(default: T): (r: T)
      ensures Some? ==> r == value
      ensures None? ==> r == default
    {
      match this
      case Some(v) => v
      case None => default
    }
  }

  /** The outcome of an operation that can fail with an error value. */
  datatype Result<+T, +E> = Ok(value: T) | Err(error: E)
}
